=== FILE: README.md ===
# Crystara event indexer: ingestion pipeline

A Dafny model of the ingestion pipeline of the Crystara blockchain event indexer. The indexer
polls a Supra RPC node for the events of two Move modules and projects them into a relational
store:
- the Crystara lootbox module: lootboxes, rarities, purchases, rewards, price and status changes;
- the token module: collections, mints, burns, deposits and withdrawals.

The model has four parts, one per core source file.

- **Projection engine** (`app/indexer/eventProcessor.ts`). Modules `Events`, `Schema`,
  `Projection`, `ProjectionProperties` and `EventProcessor`.
  - The store is one value, `Tables`. Auto-increment tables are sequences whose row `k` has id
    `k + 1`. Tables with a compound unique key are maps. Prisma's `findFirst` returns the
    earliest matching row.
  - Every handler is a function `Tables -> Applied`: the tables it leaves and the error it throws,
    if any.
  - The transaction client is the class `EventProcessor.Store`. It holds one field per table.
    Every `process*` method changes those fields step by step, as the source does. Each method
    is proved to leave exactly the tables, and throw exactly the error, of its function.
  - `processEvents` is a loop that appends an audit row, dispatches the event and flips the
    matching audit rows. It is proved against `Projection.ProcessAll`.
- **Poller** (`app/indexer/poller.ts`). Module `Poller`, class `EventPoller`.
  - The class has the fields `isRunning`, `currentBlockHeight` and `latestBlockHeight`, and the
    shared database `db`.
  - `ProcessBatch` applies the range's events in chunks of five. Each chunk runs in a fresh
    transaction `Store`. That store is loaded back into `db` on success and dropped on failure.
    The checkpoint is written inside the last chunk's transaction.
  - Each chunk is applied to its transaction, as `processEvents(eventChunk, tx)` would apply it.
    That is the correction under "## Findings". The call as written is modelled separately by
    `WithoutTransactionNeverAdvances`.
- **Fetch client** (`app/indexer/rpcClient.ts`). Module `RpcClient`.
  - The network is a function from a request and an attempt number to that attempt's response.
    So any mix of 200, 429, other statuses, malformed bodies and thrown errors can be described.
  - The sleeps the client takes between attempts are returned as values.
- **Hex decoders** (`app/indexer/utils.ts`). Module `Hex`.

Some behaviours of the code, which the model keeps:
- A purchase does not decrement `availableStock`.
- The start height is taken from the checkpoint or `START_BLOCK_HEIGHT`, without any maximum.
- Normalised events carry no block height or transaction hash, so every audit row gets height
  `0` and hash `''`.
- The client fetches `BurnTokenEvent` and `MutateTokenPropertyMapEvent`. The dispatcher has no
  case for either, so both are handled as unknown types. The burn handler is keyed on
  `TokenBurnEvent`, which is never fetched (`RpcClient.FetchedKinds`).
- `processTokenWithdraw` filters tokens by `tokenId.name`, which is undefined, so that filter is
  ignored. A withdrawal with no balance row fails after the account has been created.
- `processRaritiesSet` fails with no rows written when there are fewer weights than names:
  `BigInt(undefined)` throws while the `create` calls are being built, before any is awaited.

## Model

| member | source | states |
|---|---|---|
| Hex.DeserializeUint64 | app/indexer/utils.ts:55-61 | Input without the `0x` prefix fails with "Invalid hex string: must start with 0x". Otherwise the result is the base-16 value of the digits after `0x`, with no 64-bit bound. Non-empty hex digits always succeed. |
| Hex.Uint64RoundTrip | app/indexer/utils.ts:55-61 | `0x` followed by the hex digits of any natural number decodes back to that number. |
| Hex.DeserializeVectorU8 | app/indexer/utils.ts:37-48 | Input without `0x` fails with the prefix error. Prefixed input always decodes. The result has no leading or trailing JavaScript whitespace. |
| Hex.VectorU8RoundTrip | app/indexer/utils.ts:37-48 | A printable-ASCII string with no surrounding spaces, hex-encoded and prefixed with `0x`, decodes back to itself. |
| Hex.HexToBytes | app/indexer/utils.ts:43 | The buffer has at most one byte per two characters of its input. |
| Hex.HexToBytesPairs | app/indexer/utils.ts:43 | The k-th byte is the value of the k-th pair of hex digits, and decoding stops at the first position that does not hold two hex digits. A trailing odd digit is dropped. |
| Hex.TrimEnd | app/indexer/utils.ts:47 | Removes exactly the trailing run of JavaScript whitespace. The result is a prefix of the input, every removed character is whitespace, and the result does not end in whitespace. |
| Hex.TrimStart | app/indexer/utils.ts:47 | Removes exactly the leading run of JavaScript whitespace. The result is a suffix of the input, every removed character is whitespace, and the result does not start with whitespace. |
| Hex.Trim | app/indexer/utils.ts:47 | The result has no whitespace at either end. Input with no whitespace at either end comes back unchanged. |
| Hex.TrimEmpty | app/indexer/utils.ts:47 | The result is empty exactly when the input is all whitespace. |
| Hex.TextOfEncoding | app/indexer/utils.ts:43-45 | The UTF-8 text of the bytes of a hex-encoded ASCII string is that string. |
| Events.KindOf | app/indexer/eventProcessor.ts:47-98 | The dispatcher's switch on the event type. Both `TokenMintEvent` and `MintTokenEvent` select the mint handler. `BurnTokenEvent` and `MutateTokenPropertyMapEvent` are unknown. |
| Projection.WithAccount | app/indexer/eventProcessor.ts:15-27 | After `getOrCreateAccount` the address exists. The table only grows, by at most one row, and is unchanged when the address was already present. |
| ProjectionProperties.GetOrCreateExactlyOne | app/indexer/eventProcessor.ts:15-27 | With at most one row for the address before, exactly one exists after. The counts of every other address are unchanged. |
| ProjectionProperties.GetOrCreateIdempotent | app/indexer/eventProcessor.ts:15-27 | Any positive number of calls with one address leaves the table that the first call left. |
| Projection.LootboxCreatedSpec | app/indexer/eventProcessor.ts:152-205 | Fails with no change exactly when one of the three hex fields lacks `0x`. Otherwise it appends exactly one lootbox row and changes no other table. The row has the event's creator and resource address, and the decoded name, description and URI. It has the event's price, coin type, maximum stock, active and whitelist flags, both auto-trigger times and timestamp. Its available stock is the initial stock, and its volume and purchase count are zero. Its `tokenCollectionId` is the id of the first collection with (resource address, decoded name), or null when there is none. |
| Projection.PurchaseSpec | app/indexer/eventProcessor.ts:249-251 | Fails with "Lootbox not found", changing nothing, exactly when no lootbox matches (creator, collection name). On success lootboxes are unchanged and one purchase is added. |
| ProjectionProperties.PurchaseEffect | app/indexer/eventProcessor.ts:256-284 | A successful purchase creates the buyer's account and appends exactly that purchase row. A missing analytics row is created as (price·qty, 1, 1). An existing one gains price·qty volume and one purchase, with unique buyers unchanged. Either way its `updatedAt` is the processing time. Other analytics rows are unchanged. Every table other than accounts, purchases and analytics is unchanged, and accounts become `WithAccount` of the buyer. |
| Projection.RewardSpec | app/indexer/eventProcessor.ts:289-314 | Fails with "Purchase not found", changing nothing, exactly when no purchase matches (nonce, buyer). Otherwise it appends exactly one reward after the old rewards and changes nothing else. The reward's `purchaseId` is the id of the first purchase with (nonce, buyer). It carries the event's nonce, buyer, selected token, selected rarity, random number, collection name and timestamp. |
| Projection.RaritiesSetSpec | app/indexer/eventProcessor.ts:316-341 | Fails with no change when no lootbox matches, or when there are fewer weights than names. Otherwise it keeps the existing rarities, appends one row per name and changes nothing else. The k-th new row pairs the k-th name with the k-th weight, for the matched lootbox's id. |
| Projection.TokenAddedCollection | app/indexer/eventProcessor.ts:362-391 | A non-zero link on the lootbox is used as it is, and a zero link gives no id. Without a link, an id exists exactly when a collection matches (creator, collection name), and it is the first match's id. Any id found is positive. |
| Projection.TokenAddedSpec | app/indexer/eventProcessor.ts:343-410 | A failure changes nothing. A missing lootbox (creator, collection name) fails with "Lootbox not found". For a found lootbox it fails with "Token collection not found" exactly when `TokenAddedCollection` gives no id. On success it appends exactly one token and changes no other table. The existing tokens are kept. The new token has that collection id, the event's name, URI and maximum supply, and zero circulating supply, burns and property version. Its rarity id is the id of the lootbox's first rarity with the event's rarity name, or none when there is no such rarity. |
| Projection.PriceUpdatedSpec | app/indexer/eventProcessor.ts:412-433 | Fails with "Lootbox not found", changing nothing, exactly when no lootbox matches (resource address, collection name). Otherwise the first matching lootbox gets the event's price and coin type, with its other fields kept. Every other lootbox and every other table is unchanged. |
| Projection.StatusUpdatedSpec | app/indexer/eventProcessor.ts:768-794 | Fails with "Lootbox not found", changing nothing, exactly when no lootbox matches (creator, collection name). Otherwise the first matching lootbox gets the event's active flag, whitelist flag, two auto-trigger times and timestamp, and every other field of that row is kept. Every other lootbox and every other table is unchanged. |
| Projection.LinkSpec | app/indexer/eventProcessor.ts:208-239 | Fails with "Lootbox not found after retries", changing nothing, exactly when no lootbox matches (resource address, name). Otherwise the first match gets `tokenCollectionId := collectionId` with its other fields kept. Every other lootbox and every other table is unchanged. |
| Projection.CollectionCreatedSpec | app/indexer/eventProcessor.ts:609-639 | Never fails. Appends exactly the collection (creator, name, description, URI, maximum) and touches only collections and lootboxes. When a lootbox matches (creator as resource address, name), the first match is linked to the new collection's id and every other lootbox is unchanged. Otherwise the lootboxes are unchanged. |
| ProjectionProperties.LinkOrderIndependent | app/indexer/eventProcessor.ts:162-180 | A LootboxCreated event and the CreateCollection event for the same (resource address, name) leave identical tables in either order. The new lootbox ends up linked to the new collection's id. |
| ProjectionProperties.LootboxThenCollection | app/indexer/eventProcessor.ts:609-639 | A CreateCollection event after the LootboxCreated event with the same (resource address, name) creates the collection and links that lootbox to its id, with no error. |
| ProjectionProperties.CollectionThenLootbox | app/indexer/eventProcessor.ts:152-185 | A LootboxCreated event after the CreateCollection event with the same (address, name) creates the lootbox already linked to that collection, with no error. |
| Projection.DepositSpec | app/indexer/eventProcessor.ts:641-707 | Never fails, and leaves the audit table and the checkpoint alone. `DepositEffect` states the balance and the transaction row. |
| Projection.WithdrawSpec | app/indexer/eventProcessor.ts:709-766 | The only error is "Record to update not found.", and the audit table and the checkpoint are left alone. `WithdrawEffect` states when it fails and what it writes. |
| Projection.MintSpec | app/indexer/eventProcessor.ts:562-575 | Never fails. Only token rows change, and their number does not. `MintEffect` states which rows gain supply. |
| Projection.BurnSpec | app/indexer/eventProcessor.ts:470-514 | Never fails. Only the tokens and transactions tables change. The number of tokens is kept and exactly one transaction is appended. `BurnEffect` states which rows change. |
| ProjectionProperties.DepositEffect | app/indexer/eventProcessor.ts:652-704 | The (account, token data id) balance is created at `amount` or incremented by `amount`. Its `tokenId` is the id of the first token with that name, collection, creator and property version; with no such token a new row has none and an existing row keeps its own. Other balances are unchanged. Accounts become `WithAccount` of the creator. Exactly one DEPOSIT transaction is appended. No other table changes. |
| ProjectionProperties.WithdrawEffect | app/indexer/eventProcessor.ts:720-763 | Fails exactly when the balance row is missing, leaving only the created account. Otherwise accounts become `WithAccount` of the creator, the balance is decremented by `amount` without clamping, and exactly one WITHDRAW transaction is appended. The balance's `tokenId` becomes the first token of that creator and property version, or stays as it was when there is none. Other balances and every other table are unchanged. |
| ProjectionProperties.DepositThenWithdraw | app/indexer/eventProcessor.ts:641-766 | A deposit followed by a withdrawal of the same amount succeeds and restores the previous balance, or 0 for a new row. |
| ProjectionProperties.MintEffect | app/indexer/eventProcessor.ts:562-575 | A mint adds `amount` to the circulating supply of exactly the tokens matching (name, creator, collection). Nothing else in those rows changes. |
| ProjectionProperties.BurnEffect | app/indexer/eventProcessor.ts:486-500 | A burn adds `amount` to `tokensBurned` of exactly the matching tokens of its property version. It appends one BURN transaction. |
| Projection.Dispatch | app/indexer/eventProcessor.ts:47-98 | No handler touches the audit table or the checkpoint. An unknown event type changes nothing. |
| Projection.DispatchLootbox | app/indexer/eventProcessor.ts:47-98 | The lootbox-module cases leave the audit table and the checkpoint alone. VRF-callback and tokens-claimed events change no table. They fail exactly when a field their handler maps or converts is absent (`processVRFCallback`, lines 435-446: `random_numbers`, `timestamp`; `processTokensClaimed`, lines 448-468: `tokens_claimed`, `total_tokens`, `timestamp`). |
| Projection.DispatchToken | app/indexer/eventProcessor.ts:47-98 | The token-module cases leave the audit table and the checkpoint alone. The default case changes nothing. A token-data event changes no table and fails exactly when a field `processTokenData` (lines 588-607) dereferences, converts or maps is absent. |
| Projection.ProcessOne | app/indexer/eventProcessor.ts:37-129 | Each event adds exactly one audit row and leaves the checkpoint alone. |
| Schema.FindFirst | app/indexer/eventProcessor.ts:249-251 | A lookup finds the earliest matching row, and finds nothing exactly when no row matches. |
| ProjectionProperties.ProcessOneAudit | app/indexer/eventProcessor.ts:37-129 | One appended audit row carries the event's type, its height or 0, and its hash or ''. On success no matching unprocessed row remains. On failure every matching unprocessed row carries the error. (The `updateMany` calls themselves are the helpers `MarkProcessed` and `MarkFailed`.) |
| ProjectionProperties.UnknownOnlyAudits | app/indexer/eventProcessor.ts:96-110 | An unknown event type succeeds, changes no entity table and leaves its audit row processed. |
| Projection.ProcessAll | app/indexer/eventProcessor.ts:29-131 | An empty list succeeds and changes nothing. `ProcessAllAppend`, `ProcessAllFailFast` and `ProcessAllAudit` state the rest. |
| ProjectionProperties.ProcessAllFailFast | app/indexer/eventProcessor.ts:112-129 | A failing list failed at one event. Every event before it succeeded, and none after it ran. |
| ProjectionProperties.ProcessAllAppend | app/indexer/eventProcessor.ts:31-130 | Processing `a + b` is processing `a`, then `b` unless `a` failed. |
| ProjectionProperties.ProcessAllAudit | app/indexer/eventProcessor.ts:31-130 | The checkpoint is untouched and existing audit rows keep their identity. On success there is exactly one settled audit row per event, in order. |
| Projection.CleanedAnalytics | app/indexer/eventProcessor.ts:797-811 | The cleanup keeps the same set of lootbox ids. |
| ProjectionProperties.CleanupEffect | app/indexer/eventProcessor.ts:797-811 | Rows with `updatedAt < now − 86 400 000` get zero volume, purchases and unique buyers, and `updatedAt` becomes `now`. Other rows are unchanged. |
| ProjectionProperties.CleanupIdempotent | app/indexer/eventProcessor.ts:797-811 | Cleaning twice at the same instant is cleaning once. |
| EventProcessor.Store.constructor | app/indexer/poller.ts:107 | A transaction starts from the committed tables. |
| EventProcessor.Store.Load | app/indexer/poller.ts:107-117 | Committing a transaction replaces the tables with the transaction's. |
| EventProcessor.Store.CreateEventTracking | app/indexer/eventProcessor.ts:37-45 | Appends exactly one audit row and changes nothing else. |
| EventProcessor.Store.UpdateBlockProgress | app/indexer/poller.ts:112-115 | Without a checkpoint row, fails with "Record to update not found." and changes nothing. Otherwise it sets the checkpoint and changes nothing else. |
| EventProcessor.GetOrCreateAccount | app/indexer/eventProcessor.ts:15-27 | Leaves the account table `WithAccount` describes and nothing else changed. |
| EventProcessor.ProcessLootboxCreated | app/indexer/eventProcessor.ts:152-205 | Leaves the tables and error of `LootboxCreatedSpec`. |
| EventProcessor.LinkTokenCollectionToLootbox | app/indexer/eventProcessor.ts:208-239 | Leaves the tables and error of `LinkSpec`. Makes one to three lookups, and fails exactly when it made all three. |
| EventProcessor.ProcessLootboxPurchaseInitiated | app/indexer/eventProcessor.ts:241-287 | Leaves the tables and error of `PurchaseSpec`. |
| EventProcessor.ProcessLootboxRewardDistributed | app/indexer/eventProcessor.ts:289-314 | Leaves the tables and error of `RewardSpec`. |
| EventProcessor.ProcessRaritiesSet | app/indexer/eventProcessor.ts:316-341 | Leaves the tables and error of `RaritiesSetSpec`: the existing rarities, then one row per name in name order, pairing it with its weight and the lootbox's id. |
| EventProcessor.ProcessTokenAdded | app/indexer/eventProcessor.ts:343-410 | Leaves the tables and error of `TokenAddedSpec`: the existing tokens plus one row with the collection id, the event's fields, the looked-up rarity id and zero counters and property version. |
| EventProcessor.ProcessPriceUpdated | app/indexer/eventProcessor.ts:412-433 | Leaves the tables and error of `PriceUpdatedSpec`. |
| EventProcessor.ProcessLootboxStatusUpdated | app/indexer/eventProcessor.ts:768-794 | Leaves the tables and error of `StatusUpdatedSpec`. |
| EventProcessor.ProcessTokenCollection | app/indexer/eventProcessor.ts:609-639 | Leaves the tables of `CollectionCreatedSpec`. |
| EventProcessor.ProcessTokenDeposit | app/indexer/eventProcessor.ts:641-707 | Leaves the tables of `DepositSpec`. |
| EventProcessor.ProcessTokenWithdraw | app/indexer/eventProcessor.ts:709-766 | Leaves the tables and error of `WithdrawSpec`. |
| EventProcessor.ProcessTokenMint | app/indexer/eventProcessor.ts:517-586 | Leaves the tables of `MintSpec`. |
| EventProcessor.ProcessTokenBurn | app/indexer/eventProcessor.ts:470-514 | Leaves the tables of `BurnSpec`. |
| EventProcessor.DispatchEvent | app/indexer/eventProcessor.ts:47-98 | Leaves the tables and error of `Dispatch`. |
| EventProcessor.DispatchLootboxEvent | app/indexer/eventProcessor.ts:47-98 | For a lootbox-module kind, leaves the tables and error of `DispatchLootbox`. |
| EventProcessor.DispatchTokenEvent | app/indexer/eventProcessor.ts:47-98 | For any other kind, leaves the tables and error of `DispatchToken`. |
| EventProcessor.MarkAuditRows | app/indexer/eventProcessor.ts:101-126 | Leaves the audit table of `MarkProcessed` on success and of `MarkFailed` on failure. |
| EventProcessor.ProcessEvents | app/indexer/eventProcessor.ts:29-131 | Leaves the tables and rethrows the error of `ProcessAll` over the whole list. |
| EventProcessor.CleanupDayOldAnalytics | app/indexer/eventProcessor.ts:797-811 | Leaves the analytics table of `CleanedAnalytics` and nothing else changed. |
| RpcClient.CapEnd | app/indexer/rpcClient.ts:50-52 | The end block is `start + 10` when the span exceeds 10, and is unchanged otherwise. |
| RpcClient.Normalise | app/indexer/rpcClient.ts:178-184 | One event per item. Each has the requested type and the item's guid, sequence number and payload. Its timestamp is the payload's, or −1. It has no block height or hash. |
| RpcClient.Attempt | app/indexer/rpcClient.ts:162-187 | A thrown `fetch` or a 429 leads to a retry. Any other non-OK status gives `[]` at once. An OK response whose `data` is missing or empty also gives `[]` at once, with no retry. |
| RpcClient.FetchTypeEmptyData | app/indexer/rpcClient.ts:168-177 | When attempt `n` gets an OK response with no events, the type's result is `[]` with `n` failures counted. |
| RpcClient.AttemptEvents | app/indexer/rpcClient.ts:173-184 | A non-empty result comes from an OK response with a `data` array: one event per item, each with the requested type. |
| RpcClient.FetchType | app/indexer/rpcClient.ts:159-190 | At most three failed attempts. After three the type's result is `[]`. Every event has the requested type. |
| RpcClient.FetchEventsOfType | app/indexer/rpcClient.ts:159-191 | The retry loop returns `FetchType`'s events. It sleeps `300·2^k` ms after the k-th failure. |
| RpcClient.RetryDelays | app/indexer/rpcClient.ts:166-170 | One delay per failed attempt. The k-th failure (from 1) waits `300·2^k` ms. |
| RpcClient.FetchTypeLocal | app/indexer/rpcClient.ts:159-190 | One type's result depends only on the responses to that type's request. |
| RpcClient.RejectedTypeStops | app/indexer/rpcClient.ts:173 | A non-OK status other than 429 on the first attempt gives `[]` with no retry. |
| RpcClient.ExhaustedTypeIsEmpty | app/indexer/rpcClient.ts:160-190 | Three retried attempts give `[]`, after sleeps of 600, 1200 and 2400 ms. |
| RpcClient.TypesEventsAppend | app/indexer/rpcClient.ts:155-196 | The events of a list of types are the concatenation of the events of its parts, in order. |
| RpcClient.TypesEventsTyped | app/indexer/rpcClient.ts:178-184 | Every returned event has one of the requested types. |
| RpcClient.TypesEventsLocal | app/indexer/rpcClient.ts:159-195 | The result depends only on the responses to the requested types. A failing type does not affect the others. |
| RpcClient.FetchEventsByTypes | app/indexer/rpcClient.ts:147-204 | Slices of ten types, each slice's events pushed in type order, give the events of all the types in order. One pause between consecutive slices. |
| RpcClient.FetchSlice | app/indexer/rpcClient.ts:155-193 | One slice's `Promise.all` result, flattened: the events of its types, in type order. |
| RpcClient.FetchBlockEvents | app/indexer/rpcClient.ts:46-97 | Returns the capped range's token-module events followed by its Crystara-module events. |
| RpcClient.TokenEventsFirst | app/indexer/rpcClient.ts:60-85 | Every token-module event precedes every Crystara-module event. |
| RpcClient.PartitionByPath | app/indexer/rpcClient.ts:60-85 | Concatenating the results of two type lists keeps all events of the first list's module before those of the second's. |
| RpcClient.FetchedKinds | app/indexer/rpcClient.ts:63-84 | Of the sixteen fetched types exactly two are unknown to the dispatcher. None selects the burn handler. |
| RpcClient.TokenTypesKinds | app/indexer/rpcClient.ts:63-71 | Of the seven token-module types, exactly `BurnTokenEvent` and `MutateTokenPropertyMapEvent` are unknown. None selects the burn handler. |
| RpcClient.LootboxTypesKinds | app/indexer/rpcClient.ts:74-84 | Each of the nine Crystara-module types selects a handler, never the burn handler. |
| RpcClient.LatestBlockHeight | app/indexer/rpcClient.ts:25-41 | Any non-OK status, 429 included, throws `HTTP error! status`. Otherwise the result is the `height` field. |
| Poller.BatchEnd | app/indexer/poller.ts:87-90 | `endBlock` is at most `current + 10` and at most `latest`, and equals one of them. |
| Poller.BatchRangeUncapped | app/indexer/poller.ts:87-100 | A batch spans at most ten blocks, so the client's cap (`MAX_BLOCK_RANGE`, rpcClient.ts:50-52) never shortens it: `fetchBlockEvents` queries the same `(current, endBlock)` pair the poller passes, `endBlock` exclusive, and returns exactly those events. |
| Poller.ChunkTransaction | app/indexer/poller.ts:106-117 | A failed chunk transaction leaves the committed tables as they were. |
| Poller.CommitChunk | app/indexer/poller.ts:106-117 | Runs the chunk on a fresh store over the committed tables, then updates the checkpoint for the last chunk. The result is `ChunkTransaction`: the committed tables unchanged when either step failed. With the chunk applied to the transaction (the correction in "## Findings"; as written see `WithoutTransactionNeverAdvances`). |
| Poller.RunChunksCheckpoint | app/indexer/poller.ts:103-135 | The chunk loop writes the checkpoint only when every chunk succeeds, and only to `endBlock − 1`. A failure leaves it as it was. |
| Poller.ChunksFrom | app/indexer/poller.ts:103-135 | From any chunk boundary reached without failure, the remaining chunks commit what the whole list commits, plus the checkpoint. Or they stop at a later boundary, as in `ChunksFromStart`. |
| Poller.ChunksFromStart | app/indexer/poller.ts:103-135 | Chunked application commits what the whole list commits, plus the checkpoint. Or it stops at a chunk boundary with every earlier chunk committed and a `CHUNK_PROCESSING` row added. |
| Poller.Batch | app/indexer/poller.ts:85-143 | Idles, keeping `current` and the tables, exactly when `current >= endBlock`. Success moves `current` up to `endBlock`. A chunk failure keeps `current`. `BatchProgress` and `BatchCommits` state the tables. |
| Poller.BatchProgress | app/indexer/poller.ts:87-138 | Idles exactly when `current >= endBlock`. On success `current` becomes `endBlock > current` and stays at most `latest`. On failure only the audit log moves. The checkpoint is unchanged, or an existing one becomes `current − 1` on success. A checkpoint at or below `current` is never lowered and stays at or below `current`. |
| Poller.EmptyRangeAdvances | app/indexer/poller.ts:102-138 | A range with no events advances `current` to `endBlock` without writing the checkpoint. |
| Poller.BatchOfWhole | app/indexer/poller.ts:100-138 | For any chunk application that composes over a list and never writes the checkpoint, the batch commits what applying the whole list commits plus the checkpoint. Or it stops at a chunk boundary with every earlier chunk committed. |
| Poller.BatchCommits | app/indexer/poller.ts:98-138 | With chunks applied in their transactions, the batch advances exactly when every event succeeds and the checkpoint row exists. It then commits all events and the checkpoint `endBlock − 1`. Otherwise it keeps the chunks before the failing one committed. |
| Poller.WithoutTransactionNeverAdvances | app/indexer/poller.ts:108 | As written, any range with an event fails its first chunk with a `TypeError`. It records a `CHUNK_PROCESSING` row and keeps `current`. |
| Poller.InTransactionComposes | app/indexer/eventProcessor.ts:29-131 | `processEvents` over consecutive pieces of a list is `processEvents` over the whole list. |
| Poller.RunsStepsComposes | app/indexer/eventProcessor.ts:31-130 | A stop-at-first-failure loop over consecutive pieces of a list is the loop over the whole list. |
| Poller.InTransactionKeepsProgress | app/indexer/eventProcessor.ts:29-131 | `processEvents` never writes the checkpoint. |
| Poller.EventPoller.constructor | app/indexer/poller.ts:25-30 | A present, non-zero start height becomes `current`; otherwise `current` is 0. |
| Poller.EventPoller.Initialize | app/indexer/poller.ts:32-57 | With a checkpoint, `current` is that checkpoint + 1. Without one, the row is created at `START_BLOCK_HEIGHT` or 8270551 and `current` is that value. A failed height fetch leaves `latest` and rejects. |
| Poller.EventPoller.ProcessBatch | app/indexer/poller.ts:85-143 | Leaves `current`, the database and the outcome of `Batch` over the events `fetch` returns for the range. `current` grows only on success. Without success the checkpoint is unchanged. On success it is unchanged or an existing one becomes `current − 1`. With the chunk applied to the transaction (the correction in "## Findings"; as written see `WithoutTransactionNeverAdvances`). |
| Poller.EventPoller.ProcessChunks | app/indexer/poller.ts:103-135 | Leaves the database and error of `RunChunks`: each chunk commits in its own transaction, and the first failure adds a `CHUNK_PROCESSING` row and stops. A failure leaves the checkpoint alone. Success leaves it unchanged or moves an existing one to `endBlock − 1`. With the chunk applied to the transaction (the correction in "## Findings"; as written see `WithoutTransactionNeverAdvances`). |
| Poller.EventPoller.UpdateLatestBlock | app/indexer/poller.ts:145-151 | `latest` takes the fetched height, and is unchanged when the fetch fails. |
| Poller.RoundStep | app/indexer/poller.ts:64-72 | One round never lowers `current`. `latest` becomes the fetched height, or stays when the fetch fails. |
| Poller.FoldsRounds | app/indexer/poller.ts:64-77 | In a trace where each state follows from the one before by `RoundStep`, the last state is the fold `Rounds` of those rounds from the first state. |
| Poller.RoundsNeverLower | app/indexer/poller.ts:64-77 | However many rounds run, `current` never moves backwards. |
| Poller.EventPoller.Stop | app/indexer/poller.ts:80-83 | Clears the run flag and nothing else. |
| Poller.EventPoller.RunRound | app/indexer/poller.ts:64-72 | One pass of the loop. It extends the trace by the state it leaves, and the extended trace still records each round as a `RoundStep`. So `current`, `latest` and the database become those of `RoundStep` applied to the state before the pass. It clears the run flag exactly when the round asks for `stop()`. With the chunk applied to the transaction (the correction in "## Findings"; as written see `WithoutTransactionNeverAdvances`). |
| Poller.EventPoller.Start | app/indexer/poller.ts:59-78 | Returns at once when already running. Otherwise it runs rounds until the flag is cleared by a `stop()` or the schedule ends: no round before the last asked for a stop. `current`, `latest` and the database end as `Rounds` over the rounds that ran, starting from their values before the call, and `trace` records each intermediate state. A checkpoint that starts behind `current` never moves backwards and stays behind it. With the chunk applied to the transaction (the correction in "## Findings"; as written see `WithoutTransactionNeverAdvances`). |

## Left out

- I/O and timing:
  - Prisma, HTTP `fetch` and logging are replaced by the `Tables` value and the `Network` function. The client's retry sleeps are returned as delay values.
  - The 30 s transaction timeout is dropped.
  - The `1 ms` pause between type slices is only counted.
  - The poller's sleeps are dropped: the `POLLING_INTERVAL` sleep when caught up (app/indexer/poller.ts:70-72) and the sleep after a failed batch (app/indexer/poller.ts:141). `Start` returns the number of rounds it ran and, as a ghost value, the trace of states between rounds.
- Concurrency is modelled as sequential, order-preserving steps:
  - `Promise.all` in `processRaritiesSet` and `fetchEventsByTypes`;
  - a concurrent `stop()` during `start()`;
  - the un-awaited call to `linkTokenCollectionToLootbox` at app/indexer/eventProcessor.ts:373, which is not modelled. `processTokenAdded` is one pass of its loop, since every path leaves it.
- `start()`'s unbounded loop is a finite schedule of rounds. Each round supplies the network's answers, the instant and whether `stop()` was called.
- `EventPoller.ProcessBatch` takes `fetchBlockEvents` as a function from a range to its events. `Start` passes `Poller.ClientFetch`, the answers of `RpcClient.BlockEvents` over the round's network. `RpcClient.FetchBlockEvents` is proved to compute `BlockEvents`. A throw from `fetchBlockEvents` cannot occur, so the outer `catch` of `processBatch` only sees chunk failures.
- The outer retry of `fetchBlockEvents` (its `1000·2^k` ms sleep) is never taken, because `fetchEventsByTypes` does not throw. The model's loop runs once.
- Log-only writes are not modelled: the tokenBurn, tokenMint, tokenData, tokenDeposit, tokenWithdraw, vRFCallback and tokenClaim rows. VRF callback, tokens-claimed and token-data events change no modelled table. Their payloads keep only the fields whose absence makes the handler throw. An element of `tokens_claimed` is taken to be an object.
- `generateUniqueUrl` is random and unused.
- Unused code is not modelled:
  - the request-rate fields of `EventPoller` and `recordFailedEvents`;
  - `fetchTokenEvents` and the other group helpers;
  - the rate-limit globals of the client.
- Payloads are typed records. For the handlers that write modelled tables, a payload of another shape fails with one generic `TypeError` message, instead of the exact JavaScript error for each missing field. The three log-only handlers distinguish a dereferenced missing field ("Cannot read properties of undefined") from `BigInt(undefined)`. Numeric fields are integers, so the `SyntaxError` of `BigInt` on a non-numeric string is not modelled.
- `RpcClient.HeightResponse` cannot describe an OK response whose JSON body has no numeric `height`: its missing `height` stands for a body that is not JSON, which throws. The source returns `undefined` for such a body without throwing (app/indexer/rpcClient.ts:35-36), and the poller then computes with it.
- Prisma's `P2025` error is modelled by its closing sentence, "Record to update not found." (`Projection.RecordToUpdateNotFound`). The full message first names the failing call, then says that an operation failed because it depends on records that were required but not found. The stored `error` texts (app/indexer/eventProcessor.ts:123, app/indexer/poller.ts:128) therefore hold only that sentence in the model.
- Unique constraints of the schema are not checked, apart from the upsert keys modelled as maps.
- The schema file is not part of this model. `updatedAt` of analytics is taken to be Prisma-managed and stamped with a `now` parameter.
- JavaScript numbers are unbounded integers. `parseInt` of a non-numeric `START_BLOCK_HEIGHT` (NaN) is not modelled: that value is absent or an integer.
- Node's `Buffer` hex decoding is modelled for ASCII input only. It stops at the first invalid pair and drops an odd tail. Multi-byte UTF-8 sequences decode as U+FFFD per byte.
- Module-path strings built from environment variables are opaque: `Events.ModulePath`.
- A failed chunk leaves earlier chunks committed, and the retried range re-applies them. The model exhibits this but states no property of the re-application.

## Findings

| source | as written | input that shows it | evidently intended | confidence | as-written member | corrected member |
|---|---|---|---|---|---|---|
| app/indexer/poller.ts:108 | `processEvents(eventChunk)` passes no transaction client, so its first `tx.eventTracking.create` throws a `TypeError`. The parameter `tx` is required (app/indexer/eventProcessor.ts:29), so a type-checked build would reject this call; the model follows the JavaScript that runs when the call is not type-checked | any batch range in which at least one event is fetched | `processEvents(eventChunk, tx)`, so that the chunk and the checkpoint commit together in the chunk's transaction | not executed | Poller.WithoutTransactionNeverAdvances | Poller.BatchCommits |

=== FILE: event_processor.dfy ===
/**
 * The handlers of app/indexer/eventProcessor.ts as they run: each takes the transaction client
 * `tx` and changes its tables step by step. Every method is proved to leave exactly the tables
 * (and to throw exactly the error) that the matching function of `Projection` describes.
 */
module EventProcessor {
  import opened Wrappers
  import opened Events
  import opened Schema
  import opened Projection
  import Hex

  /** A database client (the global client, or the client of an open transaction): one field per table. */
  class Store {
    var accounts: seq<string>
    var lootboxes: seq<Lootbox>
    var collections: seq<TokenCollection>
    var tokens: seq<Token>
    var rarities: seq<Rarity>
    var purchases: seq<Purchase>
    var rewards: seq<Reward>
    var analytics: map<nat, Analytics>
    var balances: map<BalanceKey, Balance>
    var transactions: seq<TokenTransaction>
    var tracking: seq<EventTracking>
    var blockProgress: Option<int>

    /** The tables as a value. */
    function Snapshot(): Tables
      reads this
    {
      Tables(accounts, lootboxes, collections, tokens, rarities, purchases, rewards,
             analytics, balances, transactions, tracking, blockProgress)
    }

    /** A client whose tables hold `t` (a transaction starts from the committed tables). */
    constructor (t: Tables)
      ensures Snapshot() == t
    {
      accounts, lootboxes, collections, tokens := t.accounts, t.lootboxes, t.collections, t.tokens;
      rarities, purchases, rewards := t.rarities, t.purchases, t.rewards;
      analytics, balances, transactions := t.analytics, t.balances, t.transactions;
      tracking, blockProgress := t.tracking, t.blockProgress;
    }

    /** Replaces every table by those of `t` (a transaction's commit). */
    method Load(t: Tables)
      modifies this
      ensures Snapshot() == t
    {
      accounts := t.accounts;
      lootboxes := t.lootboxes;
      collections := t.collections;
      tokens := t.tokens;
      rarities := t.rarities;
      purchases := t.purchases;
      rewards := t.rewards;
      analytics := t.analytics;
      balances := t.balances;
      transactions := t.transactions;
      tracking := t.tracking;
      blockProgress := t.blockProgress;
    }

    /** `eventTracking.create`. */
    method CreateEventTracking(row: EventTracking)
      modifies this
      ensures Snapshot() == old(Snapshot()).(tracking := old(tracking) + [row])
    {
      tracking := tracking + [row];
    }

    /** `blockProgress.update({ where: { id: 1 } })`: fails when the row does not exist. */
    method UpdateBlockProgress(lastBlockHeight: int) returns (failure: Option<string>)
      modifies this
      ensures old(blockProgress).None? ==> failure == Some(RecordToUpdateNotFound) && Snapshot() == old(Snapshot())
      ensures old(blockProgress).Some? ==> failure.None? && Snapshot() == old(Snapshot()).(blockProgress := Some(lastBlockHeight))
    {
      if blockProgress.None? {
        return Some(RecordToUpdateNotFound);
      }
      blockProgress := Some(lastBlockHeight);
      return None;
    }
  }

  /** `getOrCreateAccount(address, tx)`. */
  method GetOrCreateAccount(address: string, tx: Store)
    modifies tx
    ensures tx.Snapshot() == old(tx.Snapshot()).(accounts := WithAccount(old(tx.accounts), address))
  {
    if address !in tx.accounts {
      tx.accounts := tx.accounts + [address];
    }
  }

  method ProcessLootboxCreated(e: LootboxCreated, tx: Store) returns (failure: Option<string>)
    modifies tx
    ensures Applied(tx.Snapshot(), failure) == LootboxCreatedSpec(old(tx.Snapshot()), e)
  {
    var name := Hex.DeserializeVectorU8(e.collectionNameHex);
    if name.Failure? {
      return Some(name.error);
    }
    var description := Hex.DeserializeVectorU8(e.collectionDescriptionHex);
    if description.Failure? {
      return Some(description.error);
    }
    var uri := Hex.DeserializeVectorU8(e.collectionUriHex);
    if uri.Failure? {
      return Some(uri.error);
    }
    var existing := CollectionByCreator(tx.Snapshot(), e.resourceAddress, name.value);
    var row := Lootbox(
      e.creator, name.value, e.resourceAddress, description.value, uri.value,
      if existing.Some? then Some(RowId(existing.value)) else None,
      e.price, e.priceCoinType, e.maxStock, e.initialStock, e.isActive, e.isWhitelistMode,
      e.autoTriggerWhitelistTime, e.autoTriggerActiveTime, e.timestamp, 0, 0);
    tx.lootboxes := tx.lootboxes + [row];
    return None;
  }

  method ProcessLootboxPurchaseInitiated(e: PurchaseInitiated, now: int, tx: Store) returns (failure: Option<string>)
    modifies tx
    ensures Applied(tx.Snapshot(), failure) == PurchaseSpec(old(tx.Snapshot()), e, now)
  {
    var lootbox := LootboxByCreator(tx.Snapshot(), e.creator, e.collectionName);
    if lootbox.None? {
      return Some(LootboxNotFound);
    }
    var id := RowId(lootbox.value);
    GetOrCreateAccount(e.buyer, tx);
    tx.purchases := tx.purchases + [Purchase(id, e.buyer, e.quantity, e.nonce, e.price, e.priceCoinType)];
    var amount := e.price * e.quantity;
    if id in tx.analytics {
      var a := tx.analytics[id];
      tx.analytics := tx.analytics[id := a.(volume24h := a.volume24h + amount, purchases24h := a.purchases24h + 1, updatedAt := now)];
    } else {
      tx.analytics := tx.analytics[id := Analytics(amount, 1, 1, now)];
    }
    return None;
  }

  method ProcessLootboxRewardDistributed(e: RewardDistributed, tx: Store) returns (failure: Option<string>)
    modifies tx
    ensures Applied(tx.Snapshot(), failure) == RewardSpec(old(tx.Snapshot()), e)
  {
    var purchase := PurchaseByNonce(tx.Snapshot(), e.nonce, e.buyer);
    if purchase.None? {
      return Some(PurchaseNotFound);
    }
    tx.rewards := tx.rewards + [Reward(RowId(purchase.value), e.selectedToken, e.selectedRarity, e.randomNumber,
                                       e.nonce, e.buyer, e.collectionName, e.timestamp)];
    return None;
  }

  /** `processRaritiesSet`: the rarity creates, one per name in order. */
  method ProcessRaritiesSet(e: RaritiesSet, tx: Store) returns (failure: Option<string>)
    modifies tx
    ensures Applied(tx.Snapshot(), failure) == RaritiesSetSpec(old(tx.Snapshot()), e)
  {
    var lootbox := LootboxByCreator(tx.Snapshot(), e.creator, e.collectionName);
    if lootbox.None? {
      return Some(LootboxNotFound);
    }
    if |e.rarityNames| > |e.weights| {
      return Some(UndefinedToBigInt);
    }
    var id := RowId(lootbox.value);
    var names := e.rarityNames;
    for k := 0 to |names|
      invariant tx.Snapshot() == old(tx.Snapshot()).(rarities := old(tx.rarities) + NewRarities(id, names[..k], e.weights))
    {
      assert NewRarities(id, names[..k + 1], e.weights) == NewRarities(id, names[..k], e.weights) + [Rarity(id, names[k], e.weights[k])];
      tx.rarities := tx.rarities + [Rarity(id, names[k], e.weights[k])];
    }
    assert names[..|names|] == names;
    return None;
  }

  method ProcessTokenAdded(e: TokenAdded, tx: Store) returns (failure: Option<string>)
    modifies tx
    ensures Applied(tx.Snapshot(), failure) == TokenAddedSpec(old(tx.Snapshot()), e)
  {
    var lootbox := LootboxByCreator(tx.Snapshot(), e.creator, e.collectionName);
    if lootbox.None? {
      return Some(LootboxNotFound);
    }
    var lb := tx.lootboxes[lootbox.value];
    var id: Option<nat> := None;
    if lb.tokenCollectionId.None? {
      var existing := CollectionByCreator(tx.Snapshot(), e.creator, e.collectionName);
      if existing.Some? {
        id := Some(RowId(existing.value));
      }
    }
    if lb.tokenCollectionId.Some? && lb.tokenCollectionId.value != 0 {
      id := lb.tokenCollectionId;
    }
    if id.None? {
      return Some(TokenCollectionNotFound);
    }
    var rarity := RarityOf(tx.Snapshot(), RowId(lootbox.value), e.rarity);
    tx.tokens := tx.tokens + [Token(id.value, e.tokenName, e.tokenUri, if rarity.Some? then Some(RowId(rarity.value)) else None,
                                    e.maxSupply, 0, 0, 0)];
    return None;
  }

  method ProcessPriceUpdated(e: PriceUpdated, tx: Store) returns (failure: Option<string>)
    modifies tx
    ensures Applied(tx.Snapshot(), failure) == PriceUpdatedSpec(old(tx.Snapshot()), e)
  {
    var lootbox := LootboxByResource(tx.Snapshot(), e.creator, e.collectionName);
    if lootbox.None? {
      return Some(LootboxNotFound);
    }
    var k := lootbox.value;
    tx.lootboxes := tx.lootboxes[k := tx.lootboxes[k].(price := e.price, priceCoinType := e.priceCoinType)];
    return None;
  }

  method ProcessLootboxStatusUpdated(e: StatusUpdated, tx: Store) returns (failure: Option<string>)
    modifies tx
    ensures Applied(tx.Snapshot(), failure) == StatusUpdatedSpec(old(tx.Snapshot()), e)
  {
    var lootbox := LootboxByCreator(tx.Snapshot(), e.creator, e.collectionName);
    if lootbox.None? {
      return Some(LootboxNotFound);
    }
    var k := lootbox.value;
    tx.lootboxes := tx.lootboxes[k := tx.lootboxes[k].(
      isActive := e.isActive, isWhitelisted := e.isWhitelistMode,
      autoTriggerWhitelistTime := e.autoTriggerWhitelistTime, autoTriggerActiveTime := e.autoTriggerActiveTime,
      timestamp := e.timestamp)];
    return None;
  }

  /**
   * `linkTokenCollectionToLootbox`: up to three lookups of the lootbox; inside one transaction
   * nothing else writes between them, so they all see the same tables.
   */
  method LinkTokenCollectionToLootbox(resource: string, name: string, collectionId: nat, tx: Store)
    returns (failure: Option<string>, lookups: nat)
    modifies tx
    ensures Applied(tx.Snapshot(), failure) == LinkSpec(old(tx.Snapshot()), resource, name, collectionId)
    ensures 1 <= lookups <= 3 && (failure.Some? <==> lookups == 3)
  {
    lookups := 0;
    for i := 0 to 3
      invariant lookups == i
      invariant tx.Snapshot() == old(tx.Snapshot())
      invariant i > 0 ==> LootboxByResource(tx.Snapshot(), resource, name).None?
    {
      var lootbox := LootboxByResource(tx.Snapshot(), resource, name);
      lookups := lookups + 1;
      if lootbox.Some? {
        var k := lootbox.value;
        tx.lootboxes := tx.lootboxes[k := tx.lootboxes[k].(tokenCollectionId := Some(collectionId))];
        return None, lookups;
      }
    }
    return Some(LinkLootboxNotFound), lookups;
  }

  method ProcessTokenCollection(e: CollectionCreated, tx: Store) returns (failure: Option<string>)
    modifies tx
    ensures Applied(tx.Snapshot(), failure) == CollectionCreatedSpec(old(tx.Snapshot()), e)
  {
    var id := RowId(|tx.collections|);
    tx.collections := tx.collections + [TokenCollection(e.creator, e.collectionName, e.description, e.uri, e.maximum)];
    var lootbox := LootboxByResource(tx.Snapshot(), e.creator, e.collectionName);
    if lootbox.Some? {
      var k := lootbox.value;
      tx.lootboxes := tx.lootboxes[k := tx.lootboxes[k].(tokenCollectionId := Some(id))];
    }
    return None;
  }

  method ProcessTokenDeposit(e: TokenTransfer, guid: Guid, tx: Store) returns (failure: Option<string>)
    modifies tx
    ensures Applied(tx.Snapshot(), failure) == DepositSpec(old(tx.Snapshot()), e, guid)
  {
    var account := e.id.tokenDataId.creator;
    GetOrCreateAccount(account, tx);
    var token := TokenByVersion(tx.Snapshot(), Some(e.id.tokenDataId.name), account, Some(e.id.tokenDataId.collection), e.id.propertyVersion);
    var key := BalanceKey(account, e.id.tokenDataId);
    if key in tx.balances {
      var b := tx.balances[key];
      tx.balances := tx.balances[key := Balance(BalanceTokenId(token, b.tokenId), b.balance + e.amount)];
    } else {
      tx.balances := tx.balances[key := Balance(BalanceTokenId(token, None), e.amount)];
    }
    tx.transactions := tx.transactions + [TokenTransaction(account, e.id.tokenDataId, Deposit, e.amount, guid.accountAddress)];
    return None;
  }

  method ProcessTokenWithdraw(e: TokenTransfer, guid: Guid, tx: Store) returns (failure: Option<string>)
    modifies tx
    ensures Applied(tx.Snapshot(), failure) == WithdrawSpec(old(tx.Snapshot()), e, guid)
  {
    var account := e.id.tokenDataId.creator;
    GetOrCreateAccount(account, tx);
    var token := TokenByVersion(tx.Snapshot(), None, account, None, e.id.propertyVersion);
    var key := BalanceKey(account, e.id.tokenDataId);
    if key !in tx.balances {
      return Some(RecordToUpdateNotFound);
    }
    var b := tx.balances[key];
    tx.balances := tx.balances[key := Balance(BalanceTokenId(token, b.tokenId), b.balance - e.amount)];
    tx.transactions := tx.transactions + [TokenTransaction(account, e.id.tokenDataId, Withdraw, e.amount, guid.accountAddress)];
    return None;
  }

  /** The `token.updateMany` of `processTokenMint`, row by row. */
  method ProcessTokenMint(e: TokenMinted, tx: Store) returns (failure: Option<string>)
    modifies tx
    ensures Applied(tx.Snapshot(), failure) == MintSpec(old(tx.Snapshot()), e)
  {
    var t0 := tx.Snapshot();
    var spec := MintSpec(t0, e).tables.tokens;
    for k := 0 to |tx.tokens|
      invariant |tx.tokens| == |t0.tokens|
      invariant tx.Snapshot() == t0.(tokens := tx.tokens)
      invariant forall j | 0 <= j < |t0.tokens| :: tx.tokens[j] == if j < k then spec[j] else t0.tokens[j]
    {
      if TokenIn(t0, tx.tokens[k], Some(e.id.name), e.id.creator, Some(e.id.collection)) {
        tx.tokens := tx.tokens[k := tx.tokens[k].(circulatingSupply := tx.tokens[k].circulatingSupply + e.amount)];
      }
    }
    assert tx.tokens == spec;
    return None;
  }

  /** `processTokenBurn`: the `token.updateMany` row by row, then the BURN transaction. */
  method ProcessTokenBurn(e: TokenBurned, guid: Guid, tx: Store) returns (failure: Option<string>)
    modifies tx
    ensures Applied(tx.Snapshot(), failure) == BurnSpec(old(tx.Snapshot()), e, guid)
  {
    var t0 := tx.Snapshot();
    var spec := BurnSpec(t0, e, guid).tables.tokens;
    for k := 0 to |tx.tokens|
      invariant |tx.tokens| == |t0.tokens|
      invariant tx.Snapshot() == t0.(tokens := tx.tokens)
      invariant forall j | 0 <= j < |t0.tokens| :: tx.tokens[j] == if j < k then spec[j] else t0.tokens[j]
    {
      var token := tx.tokens[k];
      if TokenIn(t0, token, Some(e.name), e.creator, Some(e.collection)) && token.propertyVersion == e.propertyVersion {
        tx.tokens := tx.tokens[k := token.(tokensBurned := token.tokensBurned + e.amount)];
      }
    }
    assert tx.tokens == spec;
    tx.transactions := tx.transactions + [TokenTransaction(e.account, e.tokenDataId, Burn, e.amount, guid.accountAddress)];
    return None;
  }

  /** The `switch (event.type)` of `processEvents`. */
  method DispatchEvent(e: ChainEvent, now: int, tx: Store) returns (failure: Option<string>)
    modifies tx
    ensures Applied(tx.Snapshot(), failure) == Dispatch(old(tx.Snapshot()), e, now)
  {
    var k := KindOf(e.eventType);
    if IsLootboxKind(k) {
      failure := DispatchLootboxEvent(k, e, now, tx);
    } else {
      failure := DispatchTokenEvent(k, e, tx);
    }
  }

  method DispatchLootboxEvent(k: Kind, e: ChainEvent, now: int, tx: Store) returns (failure: Option<string>)
    requires IsLootboxKind(k)
    modifies tx
    ensures Applied(tx.Snapshot(), failure) == DispatchLootbox(old(tx.Snapshot()), k, e, now)
  {
    failure := Some(MalformedPayload);
    match k
    case LootboxCreatedKind => {
      match e.data { case LootboxCreatedData(d) => failure := ProcessLootboxCreated(d, tx); case _ => }
    }
    case PurchaseInitiatedKind => {
      match e.data { case PurchaseInitiatedData(d) => failure := ProcessLootboxPurchaseInitiated(d, now, tx); case _ => }
    }
    case RewardDistributedKind => {
      match e.data { case RewardDistributedData(d) => failure := ProcessLootboxRewardDistributed(d, tx); case _ => }
    }
    case RaritiesSetKind => {
      match e.data { case RaritiesSetData(d) => failure := ProcessRaritiesSet(d, tx); case _ => }
    }
    case TokenAddedKind => {
      match e.data { case TokenAddedData(d) => failure := ProcessTokenAdded(d, tx); case _ => }
    }
    case PriceUpdatedKind => {
      match e.data { case PriceUpdatedData(d) => failure := ProcessPriceUpdated(d, tx); case _ => }
    }
    case StatusUpdatedKind => {
      match e.data { case StatusUpdatedData(d) => failure := ProcessLootboxStatusUpdated(d, tx); case _ => }
    }
    case VrfCallbackKind => failure := VrfCallbackFailure(e.data);
    case TokensClaimedKind => failure := TokensClaimedFailure(e.data);
  }

  method DispatchTokenEvent(k: Kind, e: ChainEvent, tx: Store) returns (failure: Option<string>)
    requires !IsLootboxKind(k)
    modifies tx
    ensures Applied(tx.Snapshot(), failure) == DispatchToken(old(tx.Snapshot()), k, e)
  {
    failure := Some(MalformedPayload);
    match k
    case CollectionCreatedKind => {
      match e.data { case CollectionCreatedData(d) => failure := ProcessTokenCollection(d, tx); case _ => }
    }
    case DepositKind => {
      match e.data { case TokenTransferData(d) => failure := ProcessTokenDeposit(d, e.guid, tx); case _ => }
    }
    case WithdrawKind => {
      match e.data { case TokenTransferData(d) => failure := ProcessTokenWithdraw(d, e.guid, tx); case _ => }
    }
    case TokenMintKind => {
      match e.data { case TokenMintedData(d) => failure := ProcessTokenMint(d, tx); case _ => }
    }
    case TokenBurnKind => {
      match e.data { case TokenBurnedData(d) => failure := ProcessTokenBurn(d, e.guid, tx); case _ => }
    }
    case TokenDataKind => failure := TokenDataFailure(e.data);
    case Unknown => failure := None;
  }

  /** The audit `updateMany` calls of `processEvents`, row by row: mark processed, or record the error. */
  method MarkAuditRows(ty: EventType, height: int, error: Option<string>, tx: Store)
    modifies tx
    ensures error.None? ==> tx.Snapshot() == old(tx.Snapshot()).(tracking := MarkProcessed(old(tx.tracking), ty, height))
    ensures error.Some? ==> tx.Snapshot() == old(tx.Snapshot()).(tracking := MarkFailed(old(tx.tracking), ty, height, error.value))
  {
    var t0 := tx.Snapshot();
    var spec := if error.None? then MarkProcessed(t0.tracking, ty, height) else MarkFailed(t0.tracking, ty, height, error.value);
    for k := 0 to |tx.tracking|
      invariant |tx.tracking| == |t0.tracking|
      invariant tx.Snapshot() == t0.(tracking := tx.tracking)
      invariant forall j | 0 <= j < |t0.tracking| :: tx.tracking[j] == if j < k then spec[j] else t0.tracking[j]
    {
      var row := tx.tracking[k];
      if Selected(row, ty, height) {
        if error.None? {
          tx.tracking := tx.tracking[k := row.(processed := true)];
        } else {
          tx.tracking := tx.tracking[k := row.(error := error, processed := false)];
        }
      }
    }
    assert tx.tracking == spec;
  }

  /** `processEvents(events, tx)`: returns the error it rethrows, if any. */
  method ProcessEvents(events: seq<ChainEvent>, now: int, tx: Store) returns (failure: Option<string>)
    modifies tx
    ensures Applied(tx.Snapshot(), failure) == ProcessAll(old(tx.Snapshot()), events, now)
  {
    for i := 0 to |events|
      invariant ProcessAll(tx.Snapshot(), events[i..], now) == ProcessAll(old(tx.Snapshot()), events, now)
    {
      var e := events[i];
      ghost var before := tx.Snapshot();
      tx.CreateEventTracking(PendingRow(e));
      var error := DispatchEvent(e, now, tx);
      MarkAuditRows(e.eventType, AuditHeight(e), error, tx);
      assert Applied(tx.Snapshot(), error) == ProcessOne(before, e, now);
      assert events[i..][0] == e && events[i..][1..] == events[i + 1..];
      if error.Some? {
        return error;
      }
    }
    assert events[|events|..] == [];
    return None;
  }

  /** `cleanupDayOldAnalytics(tx)` at instant `now`: one `updateMany` over the analytics table. */
  method CleanupDayOldAnalytics(now: int, tx: Store)
    modifies tx
    ensures tx.Snapshot() == old(tx.Snapshot()).(analytics := CleanedAnalytics(old(tx.analytics), now))
  {
    var oneDayAgo := now - DayMs;
    tx.analytics := map id | id in tx.analytics ::
      if tx.analytics[id].updatedAt < oneDayAgo then Analytics(0, 0, 0, now) else tx.analytics[id];
  }
}

=== FILE: events.dfy ===
/**
 * The events that travel from the fetch client (app/indexer/rpcClient.ts) to the projection
 * engine (app/indexer/eventProcessor.ts).
 *
 * A type tag is `<module path>::<struct name>`. The two module paths are built from environment
 * variables (`MODULE_PATH` and `TOKEN_MODULE_PATH` in eventProcessor.ts, the same strings in
 * rpcClient.ts); they are opaque here and assumed distinct. The untyped `event.data` payload is
 * a tagged union with one record per shape a handler reads.
 */
module Events {
  import opened Wrappers

  /** The Crystara collections module (`MODULE_PATH`) and the token module (`TOKEN_MODULE_PATH`). */
  datatype ModulePath = CrystaraModule | TokenModule

  datatype EventType = EventType(path: ModulePath, name: string)

  /** The `guid` of an event; handlers read its `account_address`. */
  datatype Guid = Guid(accountAddress: string, creationNumber: int)

  /** The `token_data_id` of the token module: (creator, collection, name). */
  datatype TokenDataId = TokenDataId(creator: string, collection: string, name: string)

  /** The `id` of a deposit or withdraw event: a token data id and a property version. */
  datatype TokenId = TokenId(tokenDataId: TokenDataId, propertyVersion: int)

  /** `LootboxCreatedEvent`; the three text fields are hex-encoded byte vectors. */
  datatype LootboxCreated = LootboxCreated(
    creator: string,
    collectionNameHex: string,
    collectionDescriptionHex: string,
    collectionUriHex: string,
    resourceAddress: string,
    price: int,
    priceCoinType: string,
    maxStock: int,
    initialStock: int,
    isActive: bool,
    isWhitelistMode: bool,
    autoTriggerWhitelistTime: int,
    autoTriggerActiveTime: int,
    timestamp: int)

  datatype PurchaseInitiated = PurchaseInitiated(
    creator: string, collectionName: string, buyer: string,
    quantity: int, nonce: string, price: int, priceCoinType: string)

  datatype RewardDistributed = RewardDistributed(
    nonce: string, buyer: string, selectedToken: string, selectedRarity: string,
    randomNumber: string, collectionName: string, timestamp: int)

  datatype RaritiesSet = RaritiesSet(
    creator: string, collectionName: string, rarityNames: seq<string>, weights: seq<int>)

  datatype TokenAdded = TokenAdded(
    creator: string, collectionName: string, tokenName: string, tokenUri: string,
    rarity: string, maxSupply: int)

  datatype PriceUpdated = PriceUpdated(
    creator: string, collectionName: string, price: int, priceCoinType: string)

  datatype StatusUpdated = StatusUpdated(
    creator: string, collectionName: string, isActive: bool, isWhitelistMode: bool,
    autoTriggerWhitelistTime: int, autoTriggerActiveTime: int, timestamp: int)

  /** The token module's `CreateCollectionEvent`. */
  datatype CollectionCreated = CollectionCreated(
    creator: string, collectionName: string, description: string, uri: string, maximum: int)

  /** `DepositEvent` and `WithdrawEvent` share this shape. */
  datatype TokenTransfer = TokenTransfer(id: TokenId, amount: int)

  /** Mint events: `id` is a token data id. */
  datatype TokenMinted = TokenMinted(id: TokenDataId, amount: int)

  /**
   * `TokenBurnEvent`, with the fields its handler reads: `id.id.creator` (the account),
   * `id.name`, `id.creator`, `id.collection`, `id.property_version` and `id.token_data_id`.
   */
  datatype TokenBurned = TokenBurned(
    account: string, name: string, creator: string, collection: string,
    propertyVersion: int, tokenDataId: TokenDataId, amount: int)

  /*
   * The three payloads the indexer only copies into log tables. A field the handler reads may be
   * absent from the JSON (`None`); only the fields whose absence makes the handler throw are kept.
   */

  /** `VRFCallbackReceivedEvent`: `random_numbers` is mapped, `timestamp` goes through `BigInt`. */
  datatype VrfCallback = VrfCallback(randomNumbers: Option<seq<string>>, timestamp: Option<int>)

  /** `TokensClaimedEvent`: `tokens_claimed` is mapped, `total_tokens` and `timestamp` go through `BigInt`. */
  datatype TokensClaimed = TokensClaimed(
    tokensClaimed: Option<seq<TokenDataId>>, totalTokens: Option<int>, timestamp: Option<int>)

  /**
   * `CreateTokenDataEvent`, in the order its handler reads the fields: `id` (dereferenced),
   * `maximum` and the two royalty points (through `BigInt`), `property_keys` and
   * `property_types` (mapped).
   */
  datatype TokenDataCreated = TokenDataCreated(
    id: Option<TokenDataId>, maximum: Option<int>,
    royaltyPointsDenominator: Option<int>, royaltyPointsNumerator: Option<int>,
    propertyKeys: Option<seq<string>>, propertyTypes: Option<seq<string>>)

  datatype Payload =
    | LootboxCreatedData(lootboxCreated: LootboxCreated)
    | PurchaseInitiatedData(purchaseInitiated: PurchaseInitiated)
    | RewardDistributedData(rewardDistributed: RewardDistributed)
    | RaritiesSetData(raritiesSet: RaritiesSet)
    | TokenAddedData(tokenAdded: TokenAdded)
    | PriceUpdatedData(priceUpdated: PriceUpdated)
    | StatusUpdatedData(statusUpdated: StatusUpdated)
    | CollectionCreatedData(collectionCreated: CollectionCreated)
    | TokenTransferData(tokenTransfer: TokenTransfer)
    | TokenMintedData(tokenMinted: TokenMinted)
    | TokenBurnedData(tokenBurned: TokenBurned)
    | VrfCallbackData(vrfCallback: VrfCallback)
    | TokensClaimedData(tokensClaimed: TokensClaimed)
    | TokenDataCreatedData(tokenData: TokenDataCreated)
      /** Payloads no handler reads (property map mutations, burns of the token module). */
    | OtherData(timestampField: Option<int>)

  /** `data.timestamp` of a payload; absent (`undefined`) for shapes without one. */
  function PayloadTimestamp(p: Payload): Option<int> {
    match p
    case LootboxCreatedData(e) => Some(e.timestamp)
    case RewardDistributedData(e) => Some(e.timestamp)
    case StatusUpdatedData(e) => Some(e.timestamp)
    case VrfCallbackData(e) => e.timestamp
    case TokensClaimedData(e) => e.timestamp
    case OtherData(ts) => ts
    case _ => None
  }

  /**
   * An event as `processEvents` receives it. `blockHeight` and `transactionHash` are read by the
   * audit bookkeeping, which falls back to 0 and '' when they are absent.
   */
  datatype ChainEvent = ChainEvent(
    eventType: EventType,
    guid: Guid,
    sequenceNumber: int,
    timestamp: int,
    data: Payload,
    blockHeight: Option<int>,
    transactionHash: Option<string>)

  /** The branches of the dispatcher in `processEvents`; `Unknown` is its `default` branch. */
  datatype Kind =
    | LootboxCreatedKind | PurchaseInitiatedKind | RewardDistributedKind | RaritiesSetKind
    | TokenAddedKind | PriceUpdatedKind | VrfCallbackKind | TokensClaimedKind | TokenBurnKind
    | TokenMintKind | TokenDataKind | CollectionCreatedKind | DepositKind | WithdrawKind
    | StatusUpdatedKind | Unknown

  /** The `switch (event.type)` of `processEvents`, with its `default` branch as `Unknown`. */
  function KindOf(t: EventType): (k: Kind)
    ensures k == TokenMintKind <==> t.path == TokenModule && (t.name == "TokenMintEvent" || t.name == "MintTokenEvent")
    ensures t.path == TokenModule && t.name == "BurnTokenEvent" ==> k == Unknown
    ensures t.path == TokenModule && t.name == "MutateTokenPropertyMapEvent" ==> k == Unknown
  {
    match t.path
    case CrystaraModule =>
      if t.name == "LootboxCreatedEvent" then LootboxCreatedKind
      else if t.name == "LootboxPurchaseInitiatedEvent" then PurchaseInitiatedKind
      else if t.name == "LootboxRewardDistributedEvent" then RewardDistributedKind
      else if t.name == "RaritiesSetEvent" then RaritiesSetKind
      else if t.name == "TokenAddedEvent" then TokenAddedKind
      else if t.name == "PriceUpdatedEvent" then PriceUpdatedKind
      else if t.name == "VRFCallbackReceivedEvent" then VrfCallbackKind
      else if t.name == "TokensClaimedEvent" then TokensClaimedKind
      else if t.name == "LootboxStatusUpdatedEvent" then StatusUpdatedKind
      else Unknown
    case TokenModule =>
      if t.name == "TokenBurnEvent" then TokenBurnKind
      else if t.name == "TokenMintEvent" || t.name == "MintTokenEvent" then TokenMintKind
      else if t.name == "CreateTokenDataEvent" then TokenDataKind
      else if t.name == "CreateCollectionEvent" then CollectionCreatedKind
      else if t.name == "DepositEvent" then DepositKind
      else if t.name == "WithdrawEvent" then WithdrawKind
      else Unknown
  }
}

=== FILE: hex.dfy ===
/**
 * The two hex decoders of app/indexer/utils.ts: `deserializeUint64` (a `0x` check, then
 * JavaScript's `BigInt` on the whole string) and `deserializeVectorU8` (a `0x` check, then
 * Node's `Buffer.from(.., 'hex')`, UTF-8 decoding and `String.prototype.trim`).
 */
module Hex {
  import opened Wrappers

  const InvalidPrefix := "Invalid hex string: must start with 0x"

  /** A byte of a decoded buffer. */
  type Byte = b: int | 0 <= b < 256

  predicate HasHexPrefix(s: string) {
    |s| >= 2 && s[0] == '0' && s[1] == 'x'
  }

  predicate IsHexDigit(c: char) {
    ('0' <= c <= '9') || ('a' <= c <= 'f') || ('A' <= c <= 'F')
  }

  predicate AllHexDigits(s: string) {
    forall k | 0 <= k < |s| :: IsHexDigit(s[k])
  }

  function DigitValue(c: char): (v: nat)
    requires IsHexDigit(c)
    ensures v < 16
  {
    if '0' <= c <= '9' then c as int - '0' as int
    else if 'a' <= c <= 'f' then c as int - 'a' as int + 10
    else c as int - 'A' as int + 10
  }

  /** The lower-case digit for a value below 16 (the encoder side). */
  function HexChar(v: nat): (c: char)
    requires v < 16
    ensures IsHexDigit(c) && DigitValue(c) == v
  {
    if v < 10 then ('0' as int + v) as char else ('a' as int + v - 10) as char
  }

  /** The characters JavaScript counts as white space or line terminators (used by `trim` and by `BigInt`). */
  predicate IsJsWhitespace(c: char) {
    c == '\t' || c == '\n' || c == '\U{000B}' || c == '\U{000C}' || c == '\r' || c == ' '
    || c == '\U{00A0}' || c == '\U{1680}' || ('\U{2000}' <= c <= '\U{200A}')
    || c == '\U{2028}' || c == '\U{2029}' || c == '\U{202F}' || c == '\U{205F}'
    || c == '\U{3000}' || c == '\U{FEFF}'
  }

  // ---------------------------------------------------------------------------------------------
  // deserializeUint64

  /** The base-16 value of a digit string, most significant digit first. */
  function HexValue(ds: string): nat
    requires AllHexDigits(ds)
  {
    if |ds| == 0 then 0 else HexValue(ds[..|ds| - 1]) * 16 + DigitValue(ds[|ds| - 1])
  }

  /** The shortest lower-case digit string of `n` (the encoder side of `HexValue`). */
  function ToHexDigits(n: nat): (ds: string)
    ensures |ds| > 0 && AllHexDigits(ds)
  {
    if n < 16 then [HexChar(n)] else ToHexDigits(n / 16) + [HexChar(n % 16)]
  }

  function TrimEnd(s: string): (r: string)
    ensures r <= s
    ensures r == [] || !IsJsWhitespace(r[|r| - 1])
    ensures forall k | |r| <= k < |s| :: IsJsWhitespace(s[k])
  {
    if |s| > 0 && IsJsWhitespace(s[|s| - 1]) then TrimEnd(s[..|s| - 1]) else s
  }

  function TrimStart(s: string): (r: string)
    ensures |r| <= |s| && r == s[|s| - |r|..]
    ensures r == [] || !IsJsWhitespace(r[0])
    ensures forall k | 0 <= k < |s| - |r| :: IsJsWhitespace(s[k])
  {
    if |s| > 0 && IsJsWhitespace(s[0]) then
      var r := TrimStart(s[1..]);
      assert forall k | 1 <= k < |s| :: s[k] == s[1..][k - 1];
      r
    else s
  }

  /**
   * `deserializeUint64`: rejects a string without the `0x` prefix; otherwise `BigInt(hex)`, which
   * ignores trailing white space, needs at least one digit and accepts digits of either case.
   * There is no 64-bit bound.
   */
  function DeserializeUint64(hex: string): (r: Result<nat, string>)
    ensures !HasHexPrefix(hex) ==> r == Failure(InvalidPrefix)
    ensures r.Success? ==> HasHexPrefix(hex) && AllHexDigits(TrimEnd(hex[2..])) && r.value == HexValue(TrimEnd(hex[2..]))
    ensures HasHexPrefix(hex) && |TrimEnd(hex[2..])| > 0 && AllHexDigits(TrimEnd(hex[2..])) ==> r.Success?
  {
    if !HasHexPrefix(hex) then Failure(InvalidPrefix)
    else
      var digits := TrimEnd(hex[2..]);
      if |digits| > 0 && AllHexDigits(digits) then Success(HexValue(digits))
      else Failure("Cannot convert " + hex + " to a BigInt")
  }

  lemma {:induction false} HexValueOfDigits(n: nat)
    ensures HexValue(ToHexDigits(n)) == n
  {
    var ds := ToHexDigits(n);
    if n >= 16 {
      HexValueOfDigits(n / 16);
      assert ds[..|ds| - 1] == ToHexDigits(n / 16);
    }
  }

  /** Encoding any natural number in hex behind `0x` and decoding it gives it back, however large. */
  lemma Uint64RoundTrip(n: nat)
    ensures DeserializeUint64("0x" + ToHexDigits(n)) == Success(n)
  {
    var hex := "0x" + ToHexDigits(n);
    assert hex[2..] == ToHexDigits(n);
    HexValueOfDigits(n);
  }

  // ---------------------------------------------------------------------------------------------
  // deserializeVectorU8

  /**
   * Node's `Buffer.from(s, 'hex')`: one byte per pair of digits, stopping at the first pair that
   * is not two hex digits; a trailing odd digit is dropped.
   */
  function HexToBytes(s: string): (bytes: seq<Byte>)
    ensures 2 * |bytes| <= |s|
  {
    if |s| < 2 || !IsHexDigit(s[0]) || !IsHexDigit(s[1]) then []
    else [DigitValue(s[0]) * 16 + DigitValue(s[1])] + HexToBytes(s[2..])
  }

  /** Whether the `k`-th pair of characters of `s` exists and is two hex digits. */
  predicate IsPairAt(s: string, k: nat) {
    2 * k + 1 < |s| && IsHexDigit(s[2 * k]) && IsHexDigit(s[2 * k + 1])
  }

  /** The byte the `k`-th pair of digits of `s` encodes. */
  function PairValue(s: string, k: nat): Byte
    requires IsPairAt(s, k)
  {
    DigitValue(s[2 * k]) * 16 + DigitValue(s[2 * k + 1])
  }

  /**
   * `Buffer.from(s, 'hex')` decodes pair after pair: the k-th byte is the value of the k-th pair,
   * and decoding stops at the first position that is not a pair of digits.
   */
  lemma {:induction false} HexToBytesPairs(s: string)
    ensures var bytes := HexToBytes(s);
      && (forall k: nat | k < |bytes| :: IsPairAt(s, k) && bytes[k] == PairValue(s, k))
      && !IsPairAt(s, |bytes|)
  {
    if IsPairAt(s, 0) {
      var rest := s[2..];
      HexToBytesPairs(rest);
      forall k: nat | k < |HexToBytes(rest)| + 1
        ensures IsPairAt(s, k) <==> (k == 0 || IsPairAt(rest, k - 1))
      {
        if k > 0 {
          assert s[2 * k] == rest[2 * (k - 1)] && s[2 * k + 1] == rest[2 * (k - 1) + 1];
        }
      }
    }
  }

  /** UTF-8 text of a buffer, for ASCII bytes; a byte of 0x80 or more becomes U+FFFD. */
  function Utf8Text(bytes: seq<Byte>): (s: string)
    ensures |s| == |bytes|
    ensures forall k | 0 <= k < |bytes| :: s[k] == if bytes[k] < 0x80 then bytes[k] as char else '\U{FFFD}'
  {
    seq(|bytes|, k requires 0 <= k < |bytes| => if bytes[k] < 0x80 then bytes[k] as char else '\U{FFFD}')
  }

  /** `String.prototype.trim`. */
  function Trim(s: string): (r: string)
    ensures r == [] || (!IsJsWhitespace(r[0]) && !IsJsWhitespace(r[|r| - 1]))
    ensures s == [] || (!IsJsWhitespace(s[0]) && !IsJsWhitespace(s[|s| - 1])) ==> r == s
  {
    var e := TrimEnd(s);
    assert s == [] || !IsJsWhitespace(s[|s| - 1]) ==> e == s;
    var r := TrimStart(e);
    assert e == [] || !IsJsWhitespace(e[0]) ==> r == e;
    assert r != [] ==> r[|r| - 1] == e[|e| - 1];
    r
  }

  /** `trim` gives the empty string exactly for input made only of whitespace. */
  lemma TrimEmpty(s: string)
    ensures Trim(s) == [] <==> forall k | 0 <= k < |s| :: IsJsWhitespace(s[k])
  {
    var e := TrimEnd(s);
    assert forall k | 0 <= k < |e| :: e[k] == s[k];
  }

  /**
   * `deserializeVectorU8`: rejects a string without the `0x` prefix; otherwise the trimmed text of
   * the bytes the digits after the prefix encode.
   */
  function DeserializeVectorU8(hex: string): (r: Result<string, string>)
    ensures !HasHexPrefix(hex) ==> r == Failure(InvalidPrefix)
    ensures HasHexPrefix(hex) ==> r.Success?
    ensures r.Success? ==> r.value == [] || (!IsJsWhitespace(r.value[0]) && !IsJsWhitespace(r.value[|r.value| - 1]))
  {
    if !HasHexPrefix(hex) then Failure(InvalidPrefix)
    else Success(Trim(Utf8Text(HexToBytes(hex[2..]))))
  }

  /** Printable ASCII: the characters from space to tilde. */
  predicate IsPrintableAscii(s: string) {
    forall k | 0 <= k < |s| :: ' ' <= s[k] <= '~'
  }

  /** Two lower-case hex digits per character (the encoder side of `deserializeVectorU8`). */
  function EncodeHex(s: string): (h: string)
    requires IsPrintableAscii(s)
    ensures |h| == 2 * |s|
  {
    if s == [] then [] else [HexChar(s[0] as int / 16), HexChar(s[0] as int % 16)] + EncodeHex(s[1..])
  }

  lemma {:induction false} HexToBytesOfEncoding(s: string)
    requires IsPrintableAscii(s)
    ensures |HexToBytes(EncodeHex(s))| == |s|
    ensures forall k | 0 <= k < |s| :: HexToBytes(EncodeHex(s))[k] == s[k] as int
  {
    if s != [] {
      var h := EncodeHex(s);
      assert h[2..] == EncodeHex(s[1..]);
      HexToBytesOfEncoding(s[1..]);
      assert HexToBytes(h) == [s[0] as int] + HexToBytes(EncodeHex(s[1..]));
    }
  }

  lemma {:induction false} TextOfEncoding(s: string)
    requires IsPrintableAscii(s)
    ensures Utf8Text(HexToBytes(EncodeHex(s))) == s
  {
    var bytes := HexToBytes(EncodeHex(s));
    HexToBytesOfEncoding(s);
    var text := Utf8Text(bytes);
    forall k | 0 <= k < |s| ensures text[k] == s[k] {
      assert bytes[k] == s[k] as int && bytes[k] < 0x80;
    }
  }

  lemma DecodePrefixed(digits: string, s: string)
    requires Trim(Utf8Text(HexToBytes(digits))) == s
    ensures DeserializeVectorU8("0x" + digits) == Success(s)
  {
    var hex := "0x" + digits;
    assert HasHexPrefix(hex) && hex[2..] == digits;
  }

  /**
   * For printable ASCII text with no space at either end, encoding behind `0x` and decoding with
   * `deserializeVectorU8` gives the text back.
   */
  lemma VectorU8RoundTrip(s: string)
    requires IsPrintableAscii(s)
    requires s == [] || (s[0] != ' ' && s[|s| - 1] != ' ')
    ensures DeserializeVectorU8("0x" + EncodeHex(s)) == Success(s)
  {
    PrintableEnds(s);
    TextOfEncoding(s);
    DecodePrefixed(EncodeHex(s), s);
  }

  /**
   * Printable ASCII text with no space at either end has no JavaScript whitespace at either end,
   * so `trim` leaves it as it is.
   */
  lemma PrintableEnds(s: string)
    requires IsPrintableAscii(s)
    requires s == [] || (s[0] != ' ' && s[|s| - 1] != ' ')
    ensures s == [] || (!IsJsWhitespace(s[0]) && !IsJsWhitespace(s[|s| - 1]))
  {
  }
}

=== FILE: poller.dfy ===
/**
 * The polling loop of app/indexer/poller.ts: an `EventPoller` object whose fields move through
 * block ranges, applying each range's events in chunks of five, each chunk in its own
 * transaction, and writing the `BlockProgress` checkpoint in the last chunk's transaction.
 *
 * A transaction is a fresh `Store` loaded with the committed tables; it is committed by loading
 * its tables back, and rolled back by dropping it.
 */
module Poller {
  import opened Wrappers
  import opened Events
  import opened Schema
  import opened Projection
  import ProjectionProperties
  import opened EventProcessor
  import opened RpcClient

  /** `BATCH_SIZE`: blocks per batch. */
  const BatchSize := 10
  /** `chunkSize`: events per transaction. */
  const ChunkSize := 5
  /** The start block used when neither a checkpoint nor `START_BLOCK_HEIGHT` is present. */
  const DefaultStartBlock := 8270551
  /** The `TypeError` raised by `tx.eventTracking` when `tx` is undefined. */
  const UndefinedTxMessage := "Cannot read properties of undefined (reading 'eventTracking')"

  /** `endBlock` of `processBatch`: exclusive, at most ten blocks past `current`, never past `latest`. */
  function BatchEnd(current: int, latest: int): (endBlock: int)
    ensures endBlock <= current + BatchSize && endBlock <= latest
    ensures endBlock == current + BatchSize || endBlock == latest
  {
    if current + BatchSize < latest then current + BatchSize else latest
  }

  /** The `CHUNK_PROCESSING` audit row written outside a failed chunk's transaction. */
  function ChunkRow(current: int, message: string): EventTracking {
    EventTracking(ChunkProcessing, current, "", false, Some(message))
  }

  /** The committed tables after a failed chunk: the rolled-back tables plus the `CHUNK_PROCESSING` row. */
  function WithChunkRow(t: Tables, current: int, message: string): Tables {
    t.(tracking := t.tracking + [ChunkRow(current, message)])
  }

  /** How the chunk loop applies one chunk of events to its transaction's tables. */
  type ChunkApply = (Tables, seq<ChainEvent>) -> Applied

  /** The loop of `processEvents` with any step, as a chunk application. */
  function RunsSteps(step: (Tables, ChainEvent) -> Applied): ChunkApply {
    (t, chunk) => RunUntilFailure(step, t, chunk)
  }

  /** `processEvents(eventChunk, tx)` at instant `now`: the chunk applied to the transaction's store. */
  function ApplyInTransaction(now: int): ChunkApply {
    RunsSteps(Step(now))
  }

  /**
   * `processEvents(eventChunk)` with no `tx`, as poller.ts:108 calls it: the first
   * `tx.eventTracking.create` throws, and so does the `updateMany` in its `catch`.
   */
  function ApplyWithoutTransaction(): ChunkApply {
    (t, chunk) => if chunk == [] then Applied(t, None) else Applied(t, Some(UndefinedTxMessage))
  }

  /** The end of the chunk `events.slice(i, i + chunkSize)`. */
  function SliceEnd(i: int, n: int): int {
    if i + ChunkSize < n then i + ChunkSize else n
  }

  /**
   * The transaction of the chunk at offset `i`: the chunk's events, then, for the last chunk,
   * `blockProgress.update` to `endBlock - 1`. A failure rolls everything back.
   */
  function ChunkTransaction(apply: ChunkApply, t: Tables, events: seq<ChainEvent>, i: nat, endBlock: int): (r: Applied)
    requires i < |events|
    ensures r.failure.Some? ==> r.tables == t
  {
    var r := apply(t, events[i..SliceEnd(i, |events|)]);
    if r.failure.Some? then Applied(t, r.failure)
    else if i + ChunkSize < |events| then r
    else if r.tables.blockProgress.None? then Applied(t, Some(RecordToUpdateNotFound))
    else Applied(r.tables.(blockProgress := Some(endBlock - 1)), None)
  }

  /** The committed tables of the chunk loop from offset `i`, and the error that ended it, if any. */
  function RunChunks(apply: ChunkApply, t: Tables, events: seq<ChainEvent>, i: nat, endBlock: int, current: int): Applied
    decreases |events| - i
  {
    if i >= |events| then Applied(t, None)
    else
      var r := ChunkTransaction(apply, t, events, i, endBlock);
      if r.failure.Some? then Applied(WithChunkRow(t, current, r.failure.value), r.failure)
      else RunChunks(apply, r.tables, events, i + ChunkSize, endBlock, current)
  }

  datatype BatchOutcome = Idle | Advanced | ChunkFailed(error: string)

  /** `currentBlockHeight` and the committed tables after `processBatch`, and how it ended. */
  datatype BatchResult = BatchResult(current: int, tables: Tables, outcome: BatchOutcome)

  /** The answers of `fetchBlockEvents(start, end)`, as a function of the range. */
  type Fetch = (int, int) -> seq<ChainEvent>

  /** `fetchBlockEvents` of the RPC client, answering from `net`. */
  function ClientFetch(net: Network): Fetch {
    (start, end) => BlockEvents(start, end, net)
  }

  /** `processBatch`, with `fetchBlockEvents` answering as `fetch` does. */
  function Batch(apply: ChunkApply, t: Tables, current: int, latest: int, fetch: Fetch): (b: BatchResult)
    ensures b.outcome.Idle? <==> current >= BatchEnd(current, latest)
    ensures b.outcome.Idle? ==> b.tables == t && b.current == current
    ensures b.outcome.Advanced? ==> current < b.current == BatchEnd(current, latest)
    ensures b.outcome.ChunkFailed? ==> b.current == current
  {
    var endBlock := BatchEnd(current, latest);
    if current >= endBlock then BatchResult(current, t, Idle)
    else
      var r := RunChunks(apply, t, fetch(current, endBlock), 0, endBlock, current);
      match r.failure
      case None => BatchResult(endBlock, r.tables, Advanced)
      case Some(m) => BatchResult(current, r.tables, ChunkFailed(m))
  }

  /**
   * The client's ten-block cap never shortens a batch: a batch spans at most ten blocks, so
   * `fetchBlockEvents` queries exactly the range the poller asks for.
   */
  lemma BatchRangeUncapped(current: int, latest: int, net: Network)
    ensures BatchEnd(current, latest) - current <= MaxBlockRange
    ensures var endBlock := BatchEnd(current, latest);
      ClientFetch(net)(current, endBlock)
        == TypesEvents(TokenTypes, current, endBlock, net) + TypesEvents(LootboxTypes, current, endBlock, net)
  {
  }

  /** A batch over a non-empty range ends as its chunk loop does. */
  lemma BatchOfChunks(apply: ChunkApply, t: Tables, current: int, latest: int, fetch: Fetch, r: Applied)
    requires current < BatchEnd(current, latest)
    requires r == RunChunks(apply, t, fetch(current, BatchEnd(current, latest)), 0, BatchEnd(current, latest), current)
    ensures Batch(apply, t, current, latest, fetch) ==
      if r.failure.None? then BatchResult(BatchEnd(current, latest), r.tables, Advanced)
      else BatchResult(current, r.tables, ChunkFailed(r.failure.value))
  {
  }

  /** The checkpoint is as it was, or an existing checkpoint was moved to `endBlock - 1`. */
  predicate CheckpointStep(before: Option<int>, after: Option<int>, endBlock: int) {
    after == before || (before.Some? && after == Some(endBlock - 1))
  }

  /** Whether a stored checkpoint is still present and no lower than `before`. */
  predicate NotLowered(before: Option<int>, after: Option<int>) {
    before.Some? ==> after.Some? && before.value <= after.value
  }

  // ---------------------------------------------------------------------------------------------
  // Properties of the chunk loop

  /** Applying a chunk never writes the checkpoint. */
  ghost predicate KeepsProgress(apply: ChunkApply) {
    forall t, chunk :: apply(t, chunk).tables.blockProgress == t.blockProgress
  }

  /**
   * On the prefixes of `events`, applying `events[..k]` is applying `events[..j]`, then (unless it
   * failed) `events[j..k]`.
   */
  ghost predicate ComposesOn(apply: ChunkApply, t0: Tables, events: seq<ChainEvent>) {
    forall j, k {:trigger apply(t0, events[..j]), apply(t0, events[..k])} | 0 <= j <= k <= |events| ::
      apply(t0, events[..k]) ==
        if apply(t0, events[..j]).failure.Some? then apply(t0, events[..j])
        else apply(apply(t0, events[..j]).tables, events[j..k])
  }

  /** The chunk loop writes the checkpoint only on full success, and only to `endBlock - 1`. */
  lemma {:induction false} RunChunksCheckpoint(apply: ChunkApply, t: Tables, events: seq<ChainEvent>, i: nat, endBlock: int, current: int)
    requires KeepsProgress(apply)
    ensures var r := RunChunks(apply, t, events, i, endBlock, current);
      && (r.failure.Some? ==> r.tables.blockProgress == t.blockProgress)
      && (r.tables.blockProgress == t.blockProgress
          || (t.blockProgress.Some? && r.failure.None? && r.tables.blockProgress == Some(endBlock - 1)))
    decreases |events| - i
  {
    if i < |events| {
      var r := ChunkTransaction(apply, t, events, i, endBlock);
      assert apply(t, events[i..SliceEnd(i, |events|)]).tables.blockProgress == t.blockProgress;
      if r.failure.None? {
        RunChunksCheckpoint(apply, r.tables, events, i + ChunkSize, endBlock, current);
      }
    }
  }

  /**
   * From a chunk boundary `i` reached without failure, the chunk loop commits exactly what
   * applying the whole event list commits (plus the checkpoint), or stops at a later chunk
   * boundary with everything before it committed.
   */
  lemma {:induction false} ChunksFrom(apply: ChunkApply, t0: Tables, events: seq<ChainEvent>, i: nat, endBlock: int, current: int)
    requires KeepsProgress(apply) && ComposesOn(apply, t0, events)
    requires i < |events| && i % ChunkSize == 0
    requires apply(t0, events[..i]).failure.None?
    ensures var r := RunChunks(apply, apply(t0, events[..i]).tables, events, i, endBlock, current);
      var whole := apply(t0, events[..|events|]);
      && (r.failure.None? <==> whole.failure.None? && t0.blockProgress.Some?)
      && (r.failure.None? ==> r.tables == whole.tables.(blockProgress := Some(endBlock - 1)))
      && (r.failure.Some? ==>
            exists j | i <= j < |events| && j % ChunkSize == 0 ::
              && apply(t0, events[..j]).failure.None?
              && r.tables == WithChunkRow(apply(t0, events[..j]).tables, current, r.failure.value))
    decreases |events| - i
  {
    var n := |events|;
    var w := apply(t0, events[..i]);
    var next := SliceEnd(i, n);
    var c := apply(w.tables, events[i..next]);
    assert apply(t0, events[..next]) == c;
    assert w.tables.blockProgress == t0.blockProgress;
    assert c.tables.blockProgress == t0.blockProgress;
    var r := RunChunks(apply, w.tables, events, i, endBlock, current);
    if c.failure.Some? {
      assert apply(t0, events[..n]) == c;
      assert r.tables == WithChunkRow(w.tables, current, r.failure.value);
    } else if i + ChunkSize >= n {
      if c.tables.blockProgress.None? {
        assert r.tables == WithChunkRow(w.tables, current, r.failure.value);
      }
    } else {
      ChunksFrom(apply, t0, events, i + ChunkSize, endBlock, current);
    }
  }

  /** The chunk loop from offset 0, for any chunk application that composes and does nothing on no events. */
  lemma ChunksFromStart(apply: ChunkApply, t0: Tables, events: seq<ChainEvent>, endBlock: int, current: int)
    requires KeepsProgress(apply) && ComposesOn(apply, t0, events)
    requires events != [] && apply(t0, events[..0]) == Applied(t0, None)
    ensures var r := RunChunks(apply, t0, events, 0, endBlock, current);
      var whole := apply(t0, events);
      && (r.failure.None? <==> whole.failure.None? && t0.blockProgress.Some?)
      && (r.failure.None? ==> r.tables == whole.tables.(blockProgress := Some(endBlock - 1)))
      && (r.failure.Some? ==>
            exists j | 0 <= j < |events| && j % ChunkSize == 0 ::
              && apply(t0, events[..j]).failure.None?
              && r.tables == WithChunkRow(apply(t0, events[..j]).tables, current, r.failure.value))
  {
    ChunksFrom(apply, t0, events, 0, endBlock, current);
    assert events[..|events|] == events;
  }

  /** `processEvents(chunk, tx)` never writes the checkpoint. */
  lemma InTransactionKeepsProgress(now: int)
    ensures KeepsProgress(ApplyInTransaction(now))
  {
    forall t, chunk ensures ApplyInTransaction(now)(t, chunk).tables.blockProgress == t.blockProgress {
      ProjectionProperties.ProcessAllAudit(t, chunk, now);
    }
  }

  /** Running the loop over consecutive pieces of a list is running it over the whole. */
  lemma RunsStepsComposes(step: (Tables, ChainEvent) -> Applied, t0: Tables, events: seq<ChainEvent>)
    ensures ComposesOn(RunsSteps(step), t0, events)
  {
    var apply := RunsSteps(step);
    forall j, k {:trigger apply(t0, events[..j]), apply(t0, events[..k])} | 0 <= j <= k <= |events|
      ensures apply(t0, events[..k]) ==
        if apply(t0, events[..j]).failure.Some? then apply(t0, events[..j])
        else apply(apply(t0, events[..j]).tables, events[j..k])
    {
      RunSplit(step, t0, events, j, k);
    }
  }

  /** `RunsStepsComposes` for one pair of prefixes, stated on the loop itself. */
  lemma RunSplit(step: (Tables, ChainEvent) -> Applied, t0: Tables, events: seq<ChainEvent>, j: nat, k: nat)
    requires j <= k <= |events|
    ensures var apply := RunsSteps(step);
      apply(t0, events[..k]) ==
        if apply(t0, events[..j]).failure.Some? then apply(t0, events[..j])
        else apply(apply(t0, events[..j]).tables, events[j..k])
  {
    assert events[..k] == events[..j] + events[j..k];
    ProjectionProperties.RunAppend(step, t0, events[..j], events[j..k]);
  }

  /** `processEvents(chunk, tx)` over consecutive pieces of a list is `processEvents` over the whole. */
  lemma InTransactionComposes(t0: Tables, events: seq<ChainEvent>, now: int)
    ensures ComposesOn(ApplyInTransaction(now), t0, events)
  {
    RunsStepsComposes(Step(now), t0, events);
  }

  /**
   * Range arithmetic and checkpoint monotonicity of `processBatch`: it idles exactly when
   * `current >= endBlock`; on success `current` becomes `endBlock`; on failure nothing but the
   * audit log moves; and a checkpoint at or below `current` is never lowered and stays at or
   * below `current`.
   */
  lemma BatchProgress(apply: ChunkApply, t: Tables, current: int, latest: int, fetch: Fetch)
    requires KeepsProgress(apply)
    ensures var b := Batch(apply, t, current, latest, fetch);
      && (b.outcome.Idle? <==> current >= BatchEnd(current, latest))
      && (b.outcome.Idle? ==> b == BatchResult(current, t, Idle))
      && (b.outcome.Advanced? ==> current < b.current == BatchEnd(current, latest))
      && (b.outcome.ChunkFailed? ==> b.current == current && b.tables.blockProgress == t.blockProgress)
      && (current <= latest ==> b.current <= latest)
      && (|| b.tables.blockProgress == t.blockProgress
          || (t.blockProgress.Some? && b.outcome.Advanced? && b.tables.blockProgress == Some(b.current - 1)))
      && (t.blockProgress.Some? && t.blockProgress.value <= current ==>
            b.tables.blockProgress.Some? && t.blockProgress.value <= b.tables.blockProgress.value <= b.current)
  {
    var endBlock := BatchEnd(current, latest);
    if current < endBlock {
      RunChunksCheckpoint(apply, t, fetch(current, endBlock), 0, endBlock, current);
    }
  }

  /** A range with no events advances `current` without any transaction, so the checkpoint is not written. */
  lemma EmptyRangeAdvances(apply: ChunkApply, t: Tables, current: int, latest: int, fetch: Fetch)
    requires current < BatchEnd(current, latest)
    requires fetch(current, BatchEnd(current, latest)) == []
    ensures Batch(apply, t, current, latest, fetch) == BatchResult(BatchEnd(current, latest), t, Advanced)
  {
  }

  /** A batch over a non-empty range ends as applying its whole event list does, for any chunk application that composes. */
  lemma BatchOfWhole(apply: ChunkApply, t: Tables, current: int, latest: int, fetch: Fetch)
    requires current < BatchEnd(current, latest)
    requires KeepsProgress(apply) && ComposesOn(apply, t, fetch(current, BatchEnd(current, latest)))
    requires fetch(current, BatchEnd(current, latest)) != []
    requires apply(t, fetch(current, BatchEnd(current, latest))[..0]) == Applied(t, None)
    ensures var endBlock := BatchEnd(current, latest);
      var events := fetch(current, endBlock);
      var b := Batch(apply, t, current, latest, fetch);
      && (b.outcome.Advanced? <==> apply(t, events).failure.None? && t.blockProgress.Some?)
      && (b.outcome.Advanced? ==>
            b == BatchResult(endBlock, apply(t, events).tables.(blockProgress := Some(endBlock - 1)), Advanced))
      && (b.outcome.ChunkFailed? ==>
            exists j | 0 <= j < |events| && j % ChunkSize == 0 ::
              && apply(t, events[..j]).failure.None?
              && b.tables == WithChunkRow(apply(t, events[..j]).tables, current, b.outcome.error))
  {
    var endBlock := BatchEnd(current, latest);
    ChunksFromStart(apply, t, fetch(current, endBlock), endBlock, current);
  }

  /**
   * With each chunk applied in its transaction, a batch commits all its events and the checkpoint
   * `endBlock - 1` when every event succeeds and the checkpoint row exists; otherwise it keeps
   * the chunks before the failing one committed and records the failure.
   */
  lemma BatchCommits(t: Tables, current: int, latest: int, fetch: Fetch, now: int)
    requires current < BatchEnd(current, latest)
    requires fetch(current, BatchEnd(current, latest)) != []
    ensures var endBlock := BatchEnd(current, latest);
      var events := fetch(current, endBlock);
      var b := Batch(ApplyInTransaction(now), t, current, latest, fetch);
      && (b.outcome.Advanced? <==> ProcessAll(t, events, now).failure.None? && t.blockProgress.Some?)
      && (b.outcome.Advanced? ==>
            b == BatchResult(endBlock, ProcessAll(t, events, now).tables.(blockProgress := Some(endBlock - 1)), Advanced))
      && (b.outcome.ChunkFailed? ==>
            exists j | 0 <= j < |events| && j % ChunkSize == 0 ::
              && ProcessAll(t, events[..j], now).failure.None?
              && b.tables == WithChunkRow(ProcessAll(t, events[..j], now).tables, current, b.outcome.error))
  {
    var events := fetch(current, BatchEnd(current, latest));
    InTransactionKeepsProgress(now);
    InTransactionComposes(t, events, now);
    assert events[..0] == [];
    BatchOfWhole(ApplyInTransaction(now), t, current, latest, fetch);
  }

  /** As written, any range with at least one event fails its first chunk, so `current` never moves past it. */
  lemma WithoutTransactionNeverAdvances(t: Tables, current: int, latest: int, fetch: Fetch)
    requires current < BatchEnd(current, latest)
    requires fetch(current, BatchEnd(current, latest)) != []
    ensures Batch(ApplyWithoutTransaction(), t, current, latest, fetch) ==
      BatchResult(current, WithChunkRow(t, current, UndefinedTxMessage), ChunkFailed(UndefinedTxMessage))
  {
    var events := fetch(current, BatchEnd(current, latest));
    assert events[0..SliceEnd(0, |events|)] != [] by {
      assert events[0..SliceEnd(0, |events|)][0] == events[0];
    }
  }

  /**
   * The `prisma.$transaction` of one chunk: a fresh store over the committed tables, the chunk's
   * events, and for the last chunk the checkpoint update. The tables it returns are the ones to
   * commit: the committed ones again when it failed (the rollback).
   */
  method CommitChunk(committed: Tables, events: seq<ChainEvent>, i: nat, endBlock: int, now: int)
    returns (tables: Tables, failure: Option<string>)
    requires i < |events|
    ensures Applied(tables, failure) == ChunkTransaction(ApplyInTransaction(now), committed, events, i, endBlock)
  {
    var chunk := events[i..SliceEnd(i, |events|)];
    var tx := new Store(committed);
    failure := ProcessEvents(chunk, now, tx);
    assert Applied(tx.Snapshot(), failure) == ApplyInTransaction(now)(committed, chunk);
    if failure.None? && i + ChunkSize >= |events| {
      failure := tx.UpdateBlockProgress(endBlock - 1);
    }
    tables := if failure.Some? then committed else tx.Snapshot();
  }

  // ---------------------------------------------------------------------------------------------
  // The poller object

  /** One pass of `start`'s loop: the network and height answers it gets, its instant, and whether `stop()` was called during it. */
  datatype Round = Round(net: Network, height: HeightResponse, now: int, stopRequested: bool)

  /** The poller's block heights and committed tables between two rounds. */
  datatype PollerState = PollerState(current: int, latest: int, tables: Tables)

  /** One pass of `start`'s loop: `processBatch`, then `updateLatestBlock`. */
  ghost function RoundStep(s: PollerState, round: Round): (r: PollerState)
    ensures r.current >= s.current
    ensures r.latest == match LatestBlockHeight(round.height)
      case Success(h) => h
      case Failure(_) => s.latest
  {
    var b := Batch(ApplyInTransaction(round.now), s.tables, s.current, s.latest, ClientFetch(round.net));
    var latest := match LatestBlockHeight(round.height)
      case Success(h) => h
      case Failure(_) => s.latest;
    PollerState(b.current, latest, b.tables)
  }

  /** The state after the rounds `rounds`, in order, starting from `s`. */
  ghost function Rounds(s: PollerState, rounds: seq<Round>): PollerState
    decreases |rounds|
  {
    if rounds == [] then s else RoundStep(Rounds(s, rounds[..|rounds| - 1]), rounds[|rounds| - 1])
  }

  /**
   * `trace` records `n` rounds of `schedule`: it holds `n + 1` states, each obtained from the one
   * before by that round's step.
   */
  ghost predicate Folds(schedule: seq<Round>, trace: seq<PollerState>, n: nat)
  {
    && n <= |schedule| && |trace| == n + 1
    && forall j {:trigger RoundStep(trace[j], schedule[j])} | 0 <= j < n ::
         trace[j + 1] == RoundStep(trace[j], schedule[j])
  }

  /** A trace extended by the next round's step records one round more. */
  lemma FoldsSnoc(schedule: seq<Round>, trace: seq<PollerState>, n: nat, next: PollerState)
    requires Folds(schedule, trace, n) && n < |schedule|
    requires next == RoundStep(trace[n], schedule[n])
    ensures Folds(schedule, trace + [next], n + 1)
  {
    var longer := trace + [next];
    forall j | 0 <= j < n + 1
      ensures longer[j + 1] == RoundStep(longer[j], schedule[j])
    {
      assert longer[j] == trace[j];
    }
  }

  /** Without its last state, a trace records one round fewer. */
  lemma FoldsPrefix(schedule: seq<Round>, trace: seq<PollerState>, n: nat)
    requires Folds(schedule, trace, n) && n > 0
    ensures Folds(schedule, trace[..n], n - 1)
    ensures trace[n] == RoundStep(trace[n - 1], schedule[n - 1])
  {
  }

  /** The last state of a trace is the fold of the rounds it records. */
  lemma {:induction false} FoldsRounds(schedule: seq<Round>, trace: seq<PollerState>, n: nat)
    requires Folds(schedule, trace, n)
    ensures trace[n] == Rounds(trace[0], schedule[..n])
    decreases n
  {
    if n > 0 {
      FoldsPrefix(schedule, trace, n);
      FoldsRounds(schedule, trace[..n], n - 1);
      assert schedule[..n][..n - 1] == schedule[..n - 1];
    }
  }

  /** However many rounds run, `currentBlockHeight` never moves backwards. */
  lemma {:induction false} RoundsNeverLower(s: PollerState, rounds: seq<Round>)
    ensures Rounds(s, rounds).current >= s.current
    decreases |rounds|
  {
    if rounds != [] {
      RoundsNeverLower(s, rounds[..|rounds| - 1]);
    }
  }

  class EventPoller {
    var isRunning: bool
    var currentBlockHeight: int
    var latestBlockHeight: int
    /** The database the poller and the processor share. */
    const db: Store

    /** A stored checkpoint is never ahead of the next block to process. */
    predicate CheckpointBehind()
      reads this, db
    {
      db.blockProgress.Some? ==> db.blockProgress.value <= currentBlockHeight
    }

    /** `new EventPoller(config)`: a truthy `startBlockHeight` (present and non-zero) becomes `current`. */
    constructor (startBlockHeight: Option<int>, db: Store)
      ensures this.db == db
      ensures !isRunning && latestBlockHeight == 0
      ensures currentBlockHeight == if startBlockHeight.Some? && startBlockHeight.value != 0 then startBlockHeight.value else 0
    {
      this.db := db;
      isRunning := false;
      latestBlockHeight := 0;
      if startBlockHeight.Some? && startBlockHeight.value != 0 {
        currentBlockHeight := startBlockHeight.value;
      } else {
        currentBlockHeight := 0;
      }
    }

    /**
     * `initialize()`: resume after a stored checkpoint, or create it at `START_BLOCK_HEIGHT`
     * (`envStart`, absent when unset or empty) or the default; then fetch the latest height,
     * whose failure rejects the call after the rest has happened.
     */
    method Initialize(envStart: Option<int>, height: HeightResponse) returns (failure: Option<FetchError>)
      modifies this, db
      ensures isRunning == old(isRunning)
      ensures old(db.blockProgress).Some? ==>
        && currentBlockHeight == old(db.blockProgress).value + 1
        && db.Snapshot() == old(db.Snapshot())
      ensures old(db.blockProgress).None? ==>
        && currentBlockHeight == envStart.GetOr(DefaultStartBlock)
        && db.Snapshot() == old(db.Snapshot()).(blockProgress := Some(currentBlockHeight))
      ensures LatestBlockHeight(height).Success? ==> failure.None? && latestBlockHeight == LatestBlockHeight(height).value
      ensures LatestBlockHeight(height).Failure? ==>
        failure == Some(LatestBlockHeight(height).error) && latestBlockHeight == old(latestBlockHeight)
      ensures CheckpointBehind()
    {
      if db.blockProgress.Some? {
        currentBlockHeight := db.blockProgress.value + 1;
      } else {
        var startBlock := envStart.GetOr(DefaultStartBlock);
        db.blockProgress := Some(startBlock);
        currentBlockHeight := startBlock;
      }
      match LatestBlockHeight(height)
      case Success(h) => {
        latestBlockHeight := h;
        failure := None;
      }
      case Failure(e) => {
        failure := Some(e);
      }
    }

    /** `processBatch()` at instant `now`, with `fetchBlockEvents` answering as `fetch` does; no error escapes it. */
    method ProcessBatch(fetch: Fetch, now: int) returns (outcome: BatchOutcome)
      modifies this, db
      ensures isRunning == old(isRunning) && latestBlockHeight == old(latestBlockHeight)
      ensures BatchResult(currentBlockHeight, db.Snapshot(), outcome) ==
        Batch(ApplyInTransaction(now), old(db.Snapshot()), old(currentBlockHeight), old(latestBlockHeight), fetch)
      ensures outcome.Advanced? ==> currentBlockHeight > old(currentBlockHeight)
      ensures !outcome.Advanced? ==> currentBlockHeight == old(currentBlockHeight)
      ensures !outcome.Advanced? ==> db.blockProgress == old(db.blockProgress)
      ensures outcome.Advanced? ==> CheckpointStep(old(db.blockProgress), db.blockProgress, currentBlockHeight)
    {
      var endBlock := BatchEnd(currentBlockHeight, latestBlockHeight);
      if currentBlockHeight >= endBlock {
        return Idle;
      }
      var events := fetch(currentBlockHeight, endBlock);
      var failure := ProcessChunks(events, endBlock, currentBlockHeight, now);
      BatchOfChunks(ApplyInTransaction(now), old(db.Snapshot()), currentBlockHeight, latestBlockHeight, fetch, Applied(db.Snapshot(), failure));
      if failure.Some? {
        return ChunkFailed(failure.value);
      }
      currentBlockHeight := endBlock;
      return Advanced;
    }

    /**
     * The chunk loop of `processBatch`: one transaction per chunk of five events, committed on
     * success; the first failure records a `CHUNK_PROCESSING` row and ends the loop.
     */
    method ProcessChunks(events: seq<ChainEvent>, endBlock: int, current: int, now: int) returns (failure: Option<string>)
      modifies db
      ensures Applied(db.Snapshot(), failure) == RunChunks(ApplyInTransaction(now), old(db.Snapshot()), events, 0, endBlock, current)
      ensures failure.Some? ==> db.blockProgress == old(db.blockProgress)
      ensures failure.None? ==> CheckpointStep(old(db.blockProgress), db.blockProgress, endBlock)
    {
      ghost var t := db.Snapshot();
      var apply := ApplyInTransaction(now);
      InTransactionKeepsProgress(now);
      RunChunksCheckpoint(apply, t, events, 0, endBlock, current);
      var i := 0;
      while i < |events|
        invariant RunChunks(apply, db.Snapshot(), events, i, endBlock, current) == RunChunks(apply, t, events, 0, endBlock, current)
        decreases |events| - i
      {
        var tables;
        tables, failure := CommitChunk(db.Snapshot(), events, i, endBlock, now);
        if failure.Some? {
          db.CreateEventTracking(ChunkRow(current, failure.value));
          return;
        }
        db.Load(tables);
        i := i + ChunkSize;
      }
      failure := None;
    }

    /** `updateLatestBlock()`: a failed fetch is swallowed and leaves `latestBlockHeight` as it was. */
    method UpdateLatestBlock(height: HeightResponse)
      modifies this
      ensures isRunning == old(isRunning) && currentBlockHeight == old(currentBlockHeight)
      ensures latestBlockHeight == match LatestBlockHeight(height)
        case Success(h) => h
        case Failure(_) => old(latestBlockHeight)
    {
      match LatestBlockHeight(height)
      case Success(h) => {
        latestBlockHeight := h;
      }
      case Failure(_) => {
      }
    }

    /** `stop()`: clears the run flag; the loop sees it at its next check. */
    method Stop()
      modifies this
      ensures !isRunning
      ensures currentBlockHeight == old(currentBlockHeight) && latestBlockHeight == old(latestBlockHeight)
    {
      isRunning := false;
    }

    /**
     * The body of `start`'s loop in round `n` of `schedule`; `stop()` is called when the round
     * asks for it. `trace` holds the states before each earlier round and now; the returned
     * trace adds the state this round leaves.
     */
    method RunRound(schedule: seq<Round>, ghost trace: seq<PollerState>, n: nat) returns (ghost next: seq<PollerState>)
      requires Folds(schedule, trace, n) && n < |schedule|
      requires trace[n] == PollerState(currentBlockHeight, latestBlockHeight, db.Snapshot())
      modifies this, db
      ensures isRunning == (old(isRunning) && !schedule[n].stopRequested)
      ensures next == trace + [PollerState(currentBlockHeight, latestBlockHeight, db.Snapshot())]
      ensures Folds(schedule, next, n + 1)
      ensures old(CheckpointBehind()) ==> CheckpointBehind() && NotLowered(old(db.blockProgress), db.blockProgress)
    {
      var round := schedule[n];
      var _ := ProcessBatch(ClientFetch(round.net), round.now);
      UpdateLatestBlock(round.height);
      if round.stopRequested {
        Stop();
      }
      next := trace + [PollerState(currentBlockHeight, latestBlockHeight, db.Snapshot())];
      FoldsSnoc(schedule, trace, n, next[n + 1]);
    }

    /**
     * `start()` over a finite schedule of rounds: returns at once when already running;
     * otherwise repeats `processBatch` and `updateLatestBlock` until `stop()` clears the flag or
     * the schedule ends. Returns how many rounds ran and, as `trace`, the state before each
     * round and after the last.
     */
    method Start(schedule: seq<Round>) returns (rounds: nat, ghost trace: seq<PollerState>)
      modifies this, db
      ensures old(isRunning) ==>
        && rounds == 0 && isRunning && db.Snapshot() == old(db.Snapshot())
        && currentBlockHeight == old(currentBlockHeight) && latestBlockHeight == old(latestBlockHeight)
      ensures rounds <= |schedule|
      ensures !old(isRunning) && isRunning ==> rounds == |schedule|
      ensures !old(isRunning) && !isRunning ==> 0 < rounds && schedule[rounds - 1].stopRequested
      ensures !old(isRunning) ==> forall j | 0 <= j < rounds - 1 :: !schedule[j].stopRequested
      ensures Folds(schedule, trace, rounds)
      ensures trace[0] == PollerState(old(currentBlockHeight), old(latestBlockHeight), old(db.Snapshot()))
      ensures trace[rounds] == PollerState(currentBlockHeight, latestBlockHeight, db.Snapshot())
      ensures PollerState(currentBlockHeight, latestBlockHeight, db.Snapshot()) ==
        Rounds(PollerState(old(currentBlockHeight), old(latestBlockHeight), old(db.Snapshot())), schedule[..rounds])
      ensures old(CheckpointBehind()) ==> CheckpointBehind() && NotLowered(old(db.blockProgress), db.blockProgress)
    {
      trace := [PollerState(currentBlockHeight, latestBlockHeight, db.Snapshot())];
      if isRunning {
        FoldsRounds(schedule, trace, 0);
        return 0, trace;
      }
      ghost var behind, progress := CheckpointBehind(), db.blockProgress;
      isRunning := true;
      rounds := 0;
      while isRunning && rounds < |schedule|
        invariant rounds <= |schedule|
        invariant !isRunning ==> 0 < rounds && schedule[rounds - 1].stopRequested
        invariant forall j | 0 <= j < rounds && (isRunning || j < rounds - 1) :: !schedule[j].stopRequested
        invariant Folds(schedule, trace, rounds)
        invariant trace[0] == PollerState(old(currentBlockHeight), old(latestBlockHeight), old(db.Snapshot()))
        invariant trace[rounds] == PollerState(currentBlockHeight, latestBlockHeight, db.Snapshot())
        invariant behind ==> CheckpointBehind() && NotLowered(progress, db.blockProgress)
        decreases |schedule| - rounds
      {
        trace := RunRound(schedule, trace, rounds);
        rounds := rounds + 1;
      }
      FoldsRounds(schedule, trace, rounds);
    }
  }
}

=== FILE: projection.dfy ===
/**
 * The projection engine of app/indexer/eventProcessor.ts as functions on `Tables`: each handler
 * maps the transaction's tables to new tables, or fails with the message of the error it throws.
 * A failure keeps the writes the handler made before it threw (they live in the transaction,
 * which the poller then discards).
 */
module Projection {
  import opened Wrappers
  import opened Events
  import opened Schema
  import Hex

  const LootboxNotFound := "Lootbox not found"
  const PurchaseNotFound := "Purchase not found"
  const TokenCollectionNotFound := "Token collection not found"
  const LinkLootboxNotFound := "Lootbox not found after retries"
  /**
   * The closing sentence of the message of Prisma's `P2025` error, raised by `update` when no
   * row matches; it stands for the whole message.
   */
  const RecordToUpdateNotFound := "Record to update not found."
  /** The `TypeError` of `BigInt(undefined)`. */
  const UndefinedToBigInt := "Cannot convert undefined to a BigInt"
  /** A handler reading a field its payload does not have. */
  const MalformedPayload := "Cannot read properties of undefined"
  /** 24 hours in milliseconds. */
  const DayMs := 24 * 60 * 60 * 1000

  /** The outcome of a handler: the tables it leaves and the message of the error it threw, if any. */
  datatype Applied = Applied(tables: Tables, failure: Option<string>)

  /** A handler leaves the audit table and the checkpoint to `processEvents` and the poller. */
  predicate KeepsLog(t: Tables, r: Applied) {
    r.tables.tracking == t.tracking && r.tables.blockProgress == t.blockProgress
  }

  /** `after` is `before` with at most the row at index `k` changed. */
  predicate OthersKept<T(==)>(before: seq<T>, after: seq<T>, k: int) {
    |after| == |before| && forall j | 0 <= j < |before| && j != k :: after[j] == before[j]
  }

  // ---------------------------------------------------------------------------------------------
  // getOrCreateAccount

  /** The `Account` table after `getOrCreateAccount(address)`: unchanged if the address exists. */
  function WithAccount(accounts: seq<string>, address: string): (r: seq<string>)
    ensures address in r
    ensures accounts <= r && |r| <= |accounts| + 1
    ensures address in accounts ==> r == accounts
  {
    if address in accounts then accounts else accounts + [address]
  }

  /** The number of accounts with a given address. */
  function AccountCount(accounts: seq<string>, address: string): nat {
    if accounts == [] then 0
    else AccountCount(accounts[..|accounts| - 1], address) + (if accounts[|accounts| - 1] == address then 1 else 0)
  }

  // ---------------------------------------------------------------------------------------------
  // Lootbox handlers

  /** `processLootboxCreated`: decodes the three text fields, links an existing collection, adds the lootbox. */
  function LootboxCreatedSpec(t: Tables, e: LootboxCreated): (r: Applied)
    ensures KeepsLog(t, r)
    ensures r.failure.Some? ==> r.tables == t
    ensures !Hex.HasHexPrefix(e.collectionNameHex) ==> r.failure == Some(Hex.InvalidPrefix)
    ensures r.failure.None? <==>
      Hex.HasHexPrefix(e.collectionNameHex) && Hex.HasHexPrefix(e.collectionDescriptionHex) && Hex.HasHexPrefix(e.collectionUriHex)
    ensures r.failure.None? ==>
      |r.tables.lootboxes| == |t.lootboxes| + 1 && r.tables == t.(lootboxes := t.lootboxes + [r.tables.lootboxes[|t.lootboxes|]])
    ensures r.failure.None? ==>
      var name := Hex.DeserializeVectorU8(e.collectionNameHex).value;
      var row := r.tables.lootboxes[|t.lootboxes|];
      && row.creatorAddress == e.creator && row.collectionResourceAddress == e.resourceAddress
      && row.collectionName == name
      && row.collectionDescription == Hex.DeserializeVectorU8(e.collectionDescriptionHex).value
      && row.metadataUri == Hex.DeserializeVectorU8(e.collectionUriHex).value
      && row.price == e.price && row.priceCoinType == e.priceCoinType
      && row.maxStock == e.maxStock && row.availableStock == e.initialStock
      && row.isActive == e.isActive && row.isWhitelisted == e.isWhitelistMode
      && row.autoTriggerWhitelistTime == e.autoTriggerWhitelistTime && row.autoTriggerActiveTime == e.autoTriggerActiveTime
      && row.timestamp == e.timestamp && row.totalVolume == 0 && row.purchaseCount == 0
    ensures r.failure.None? ==>
      var link := CollectionByCreator(t, e.resourceAddress, Hex.DeserializeVectorU8(e.collectionNameHex).value);
      r.tables.lootboxes[|t.lootboxes|].tokenCollectionId == (if link.Some? then Some(RowId(link.value)) else None)
  {
    match Hex.DeserializeVectorU8(e.collectionNameHex)
    case Failure(m) => Applied(t, Some(m))
    case Success(name) =>
      match Hex.DeserializeVectorU8(e.collectionDescriptionHex)
      case Failure(m) => Applied(t, Some(m))
      case Success(description) =>
        match Hex.DeserializeVectorU8(e.collectionUriHex)
        case Failure(m) => Applied(t, Some(m))
        case Success(uri) =>
          var link := CollectionByCreator(t, e.resourceAddress, name);
          var row := Lootbox(
            e.creator, name, e.resourceAddress, description, uri,
            if link.Some? then Some(RowId(link.value)) else None,
            e.price, e.priceCoinType, e.maxStock, e.initialStock, e.isActive, e.isWhitelistMode,
            e.autoTriggerWhitelistTime, e.autoTriggerActiveTime, e.timestamp, 0, 0);
          Applied(t.(lootboxes := t.lootboxes + [row]), None)
  }

  /** The analytics row after a purchase adding `amount` to the volume: created, or incremented. */
  function BumpedAnalytics(a: map<nat, Analytics>, id: nat, amount: int, now: int): Analytics {
    if id in a then a[id].(volume24h := a[id].volume24h + amount, purchases24h := a[id].purchases24h + 1, updatedAt := now)
    else Analytics(amount, 1, 1, now)
  }

  /** `processLootboxPurchaseInitiated`; `now` stamps the analytics row's `updatedAt`. */
  function PurchaseSpec(t: Tables, e: PurchaseInitiated, now: int): (r: Applied)
    ensures KeepsLog(t, r)
    ensures r.failure.Some? <==> LootboxByCreator(t, e.creator, e.collectionName).None?
    ensures r.failure.Some? ==> r == Applied(t, Some(LootboxNotFound))
    ensures r.failure.None? ==> r.tables.lootboxes == t.lootboxes && |r.tables.purchases| == |t.purchases| + 1
  {
    match LootboxByCreator(t, e.creator, e.collectionName)
    case None => Applied(t, Some(LootboxNotFound))
    case Some(k) =>
      var id := RowId(k);
      var row := Purchase(id, e.buyer, e.quantity, e.nonce, e.price, e.priceCoinType);
      Applied(t.(accounts := WithAccount(t.accounts, e.buyer),
                 purchases := t.purchases + [row],
                 analytics := t.analytics[id := BumpedAnalytics(t.analytics, id, e.price * e.quantity, now)]),
              None)
  }

  /** `processLootboxRewardDistributed`. */
  function RewardSpec(t: Tables, e: RewardDistributed): (r: Applied)
    ensures KeepsLog(t, r)
    ensures r.failure.Some? <==> PurchaseByNonce(t, e.nonce, e.buyer).None?
    ensures r.failure.Some? ==> r == Applied(t, Some(PurchaseNotFound))
    ensures r.failure.None? ==> r.tables == t.(rewards := r.tables.rewards) && |r.tables.rewards| == |t.rewards| + 1
    ensures r.failure.None? ==>
      var row := r.tables.rewards[|t.rewards|];
      && r.tables.rewards[..|t.rewards|] == t.rewards
      && row.purchaseId == RowId(PurchaseByNonce(t, e.nonce, e.buyer).value)
      && row.nonce == e.nonce && row.buyerAddress == e.buyer
      && row.selectedToken == e.selectedToken && row.selectedRarity == e.selectedRarity
      && row.randomNumber == e.randomNumber && row.collectionName == e.collectionName && row.timestamp == e.timestamp
  {
    match PurchaseByNonce(t, e.nonce, e.buyer)
    case None => Applied(t, Some(PurchaseNotFound))
    case Some(k) =>
      var row := Reward(RowId(k), e.selectedToken, e.selectedRarity, e.randomNumber, e.nonce, e.buyer, e.collectionName, e.timestamp);
      Applied(t.(rewards := t.rewards + [row]), None)
  }

  /** The rarity rows of a `RaritiesSetEvent`, one per name, in order. */
  function NewRarities(lootboxId: nat, names: seq<string>, weights: seq<int>): (rows: seq<Rarity>)
    requires |names| <= |weights|
    ensures |rows| == |names|
    ensures forall k | 0 <= k < |rows| :: rows[k] == Rarity(lootboxId, names[k], weights[k])
  {
    seq(|names|, k requires 0 <= k < |names| => Rarity(lootboxId, names[k], weights[k]))
  }

  /**
   * `processRaritiesSet`. A name without a weight makes `BigInt(undefined)` throw while the
   * creates are being built; Prisma queries run only when awaited, so none is written.
   */
  function RaritiesSetSpec(t: Tables, e: RaritiesSet): (r: Applied)
    ensures KeepsLog(t, r)
    ensures r.failure.Some? ==> r.tables == t
    ensures LootboxByCreator(t, e.creator, e.collectionName).None? ==> r.failure == Some(LootboxNotFound)
    ensures r.failure.None? <==> LootboxByCreator(t, e.creator, e.collectionName).Some? && |e.rarityNames| <= |e.weights|
    ensures r.failure.None? ==>
      r.tables == t.(rarities := r.tables.rarities) && |r.tables.rarities| == |t.rarities| + |e.rarityNames|
    ensures r.failure.None? ==>
      && r.tables.rarities[..|t.rarities|] == t.rarities
      && forall k | 0 <= k < |e.rarityNames| ::
           r.tables.rarities[|t.rarities| + k] ==
           Rarity(RowId(LootboxByCreator(t, e.creator, e.collectionName).value), e.rarityNames[k], e.weights[k])
  {
    match LootboxByCreator(t, e.creator, e.collectionName)
    case None => Applied(t, Some(LootboxNotFound))
    case Some(k) =>
      if |e.rarityNames| > |e.weights| then Applied(t, Some(UndefinedToBigInt))
      else Applied(t.(rarities := t.rarities + NewRarities(RowId(k), e.rarityNames, e.weights)), None)
  }

  /**
   * The collection id `processTokenAdded` uses: the lootbox's own link when it is set (and
   * non-zero), else the first collection matching the event's creator and collection name.
   */
  function TokenAddedCollection(t: Tables, lb: Lootbox, e: TokenAdded): (r: Option<nat>)
    ensures r.Some? ==> r.value > 0
    ensures lb.tokenCollectionId.Some? ==> (r.Some? <==> lb.tokenCollectionId.value != 0) && (r.Some? ==> r == lb.tokenCollectionId)
    ensures lb.tokenCollectionId.None? ==> (r.Some? <==> CollectionByCreator(t, e.creator, e.collectionName).Some?)
    ensures lb.tokenCollectionId.None? && r.Some? ==> r.value == RowId(CollectionByCreator(t, e.creator, e.collectionName).value)
  {
    match lb.tokenCollectionId
    case Some(c) => if c != 0 then Some(c) else None
    case None =>
      match CollectionByCreator(t, e.creator, e.collectionName)
      case Some(j) => Some(RowId(j))
      case None => None
  }

  /** `processTokenAdded`, as one pass of its loop (every path of the loop body leaves it). */
  function TokenAddedSpec(t: Tables, e: TokenAdded): (r: Applied)
    ensures KeepsLog(t, r)
    ensures r.failure.Some? ==> r.tables == t
    ensures LootboxByCreator(t, e.creator, e.collectionName).None? ==> r.failure == Some(LootboxNotFound)
    ensures r.failure.None? ==> r.tables == t.(tokens := r.tables.tokens) && |r.tables.tokens| == |t.tokens| + 1
    ensures r.failure.None? ==> r.tables.tokens[|t.tokens|].tokenCollectionId > 0
    ensures LootboxByCreator(t, e.creator, e.collectionName).Some? ==>
      var collection := TokenAddedCollection(t, t.lootboxes[LootboxByCreator(t, e.creator, e.collectionName).value], e);
      && (r.failure.Some? <==> collection.None?)
      && (r.failure.Some? ==> r.failure == Some(TokenCollectionNotFound))
      && (r.failure.None? ==> r.tables.tokens[|t.tokens|].tokenCollectionId == collection.value)
    ensures r.failure.None? ==>
      var row := r.tables.tokens[|t.tokens|];
      && row.tokenName == e.tokenName && row.tokenUri == e.tokenUri && row.maxSupply == e.maxSupply
      && row.circulatingSupply == 0 && row.tokensBurned == 0 && row.propertyVersion == 0
    ensures r.failure.None? ==>
      var rarity := RarityOf(t, RowId(LootboxByCreator(t, e.creator, e.collectionName).value), e.rarity);
      && r.tables.tokens[..|t.tokens|] == t.tokens
      && r.tables.tokens[|t.tokens|].rarityId == if rarity.Some? then Some(RowId(rarity.value)) else None
  {
    match LootboxByCreator(t, e.creator, e.collectionName)
    case None => Applied(t, Some(LootboxNotFound))
    case Some(k) =>
      match TokenAddedCollection(t, t.lootboxes[k], e)
      case None => Applied(t, Some(TokenCollectionNotFound))
      case Some(id) =>
        var rarity := RarityOf(t, RowId(k), e.rarity);
        var row := Token(id, e.tokenName, e.tokenUri, if rarity.Some? then Some(RowId(rarity.value)) else None, e.maxSupply, 0, 0, 0);
        Applied(t.(tokens := t.tokens + [row]), None)
  }

  /** `processPriceUpdated`: note the lookup is by resource address, not by creator. */
  function PriceUpdatedSpec(t: Tables, e: PriceUpdated): (r: Applied)
    ensures KeepsLog(t, r)
    ensures r.failure.Some? <==> LootboxByResource(t, e.creator, e.collectionName).None?
    ensures r.failure.Some? ==> r == Applied(t, Some(LootboxNotFound))
    ensures r.failure.None? ==> r.tables == t.(lootboxes := r.tables.lootboxes) && |r.tables.lootboxes| == |t.lootboxes|
    ensures r.failure.None? ==>
      var k := LootboxByResource(t, e.creator, e.collectionName).value;
      && OthersKept(t.lootboxes, r.tables.lootboxes, k)
      && r.tables.lootboxes[k] == t.lootboxes[k].(price := e.price, priceCoinType := e.priceCoinType)
  {
    match LootboxByResource(t, e.creator, e.collectionName)
    case None => Applied(t, Some(LootboxNotFound))
    case Some(k) =>
      Applied(t.(lootboxes := t.lootboxes[k := t.lootboxes[k].(price := e.price, priceCoinType := e.priceCoinType)]), None)
  }

  /** `processLootboxStatusUpdated`. */
  function StatusUpdatedSpec(t: Tables, e: StatusUpdated): (r: Applied)
    ensures KeepsLog(t, r)
    ensures r.failure.Some? <==> LootboxByCreator(t, e.creator, e.collectionName).None?
    ensures r.failure.Some? ==> r == Applied(t, Some(LootboxNotFound))
    ensures r.failure.None? ==> r.tables == t.(lootboxes := r.tables.lootboxes) && |r.tables.lootboxes| == |t.lootboxes|
    ensures r.failure.None? ==>
      var k := LootboxByCreator(t, e.creator, e.collectionName).value;
      && OthersKept(t.lootboxes, r.tables.lootboxes, k)
      && r.tables.lootboxes[k] == t.lootboxes[k].(
           isActive := e.isActive, isWhitelisted := e.isWhitelistMode,
           autoTriggerWhitelistTime := e.autoTriggerWhitelistTime, autoTriggerActiveTime := e.autoTriggerActiveTime,
           timestamp := e.timestamp)
  {
    match LootboxByCreator(t, e.creator, e.collectionName)
    case None => Applied(t, Some(LootboxNotFound))
    case Some(k) =>
      var lb := t.lootboxes[k].(isActive := e.isActive, isWhitelisted := e.isWhitelistMode,
        autoTriggerWhitelistTime := e.autoTriggerWhitelistTime, autoTriggerActiveTime := e.autoTriggerActiveTime,
        timestamp := e.timestamp);
      Applied(t.(lootboxes := t.lootboxes[k := lb]), None)
  }

  /** `linkTokenCollectionToLootbox`: sets the link on the first lootbox with that resource address and name. */
  function LinkSpec(t: Tables, resource: string, name: string, collectionId: nat): (r: Applied)
    ensures r.failure.Some? <==> LootboxByResource(t, resource, name).None?
    ensures r.failure.Some? ==> r == Applied(t, Some(LinkLootboxNotFound))
    ensures r.failure.None? ==> r.tables == t.(lootboxes := r.tables.lootboxes) && |r.tables.lootboxes| == |t.lootboxes|
    ensures r.failure.None? ==>
      var k := LootboxByResource(t, resource, name).value;
      && OthersKept(t.lootboxes, r.tables.lootboxes, k)
      && r.tables.lootboxes[k] == t.lootboxes[k].(tokenCollectionId := Some(collectionId))
  {
    match LootboxByResource(t, resource, name)
    case None => Applied(t, Some(LinkLootboxNotFound))
    case Some(k) => Applied(t.(lootboxes := t.lootboxes[k := t.lootboxes[k].(tokenCollectionId := Some(collectionId))]), None)
  }

  // ---------------------------------------------------------------------------------------------
  // Token module handlers

  /** `processTokenCollection`: adds the collection, then links the first lootbox with that resource address and name. */
  function CollectionCreatedSpec(t: Tables, e: CollectionCreated): (r: Applied)
    ensures KeepsLog(t, r)
    ensures r.failure.None?
    ensures |r.tables.collections| == |t.collections| + 1
    ensures r.tables == t.(collections := r.tables.collections, lootboxes := r.tables.lootboxes)
    ensures r.tables.collections == t.collections + [TokenCollection(e.creator, e.collectionName, e.description, e.uri, e.maximum)]
    ensures match LootboxByResource(t, e.creator, e.collectionName)
      case None => r.tables.lootboxes == t.lootboxes
      case Some(k) =>
        && OthersKept(t.lootboxes, r.tables.lootboxes, k)
        && r.tables.lootboxes[k] == t.lootboxes[k].(tokenCollectionId := Some(RowId(|t.collections|)))
  {
    var t1 := t.(collections := t.collections + [TokenCollection(e.creator, e.collectionName, e.description, e.uri, e.maximum)]);
    match LootboxByResource(t1, e.creator, e.collectionName)
    case None => Applied(t1, None)
    case Some(k) => Applied(t1.(lootboxes := t1.lootboxes[k := t1.lootboxes[k].(tokenCollectionId := Some(RowId(|t.collections|)))]), None)
  }

  /** The token id written into a balance row: the found token's id, or the old value (`undefined` is no update). */
  function BalanceTokenId(found: Option<nat>, previous: Option<nat>): Option<nat> {
    if found.Some? then Some(RowId(found.value)) else previous
  }

  /** `processTokenDeposit`: the balance belongs to the token data id's creator. */
  function DepositSpec(t: Tables, e: TokenTransfer, guid: Guid): (r: Applied)
    ensures KeepsLog(t, r)
    ensures r.failure.None?
  {
    var account := e.id.tokenDataId.creator;
    var t1 := t.(accounts := WithAccount(t.accounts, account));
    var found := TokenByVersion(t1, Some(e.id.tokenDataId.name), account, Some(e.id.tokenDataId.collection), e.id.propertyVersion);
    var key := BalanceKey(account, e.id.tokenDataId);
    var balance :=
      if key in t1.balances then Balance(BalanceTokenId(found, t1.balances[key].tokenId), t1.balances[key].balance + e.amount)
      else Balance(BalanceTokenId(found, None), e.amount);
    var row := TokenTransaction(account, e.id.tokenDataId, Deposit, e.amount, guid.accountAddress);
    Applied(t1.(balances := t1.balances[key := balance], transactions := t1.transactions + [row]), None)
  }

  /**
   * `processTokenWithdraw`: the token lookup filters on `tokenId.name`, which a token id does not
   * have, so only the collection creator and property version filter; `update` fails when the
   * balance row is missing, after the account was created.
   */
  function WithdrawSpec(t: Tables, e: TokenTransfer, guid: Guid): (r: Applied)
    ensures KeepsLog(t, r)
    ensures r.failure.Some? ==> r.failure == Some(RecordToUpdateNotFound)
  {
    var account := e.id.tokenDataId.creator;
    var t1 := t.(accounts := WithAccount(t.accounts, account));
    var found := TokenByVersion(t1, None, account, None, e.id.propertyVersion);
    var key := BalanceKey(account, e.id.tokenDataId);
    if key !in t1.balances then Applied(t1, Some(RecordToUpdateNotFound))
    else
      var balance := Balance(BalanceTokenId(found, t1.balances[key].tokenId), t1.balances[key].balance - e.amount);
      var row := TokenTransaction(account, e.id.tokenDataId, Withdraw, e.amount, guid.accountAddress);
      Applied(t1.(balances := t1.balances[key := balance], transactions := t1.transactions + [row]), None)
  }

  /** The `token.updateMany` of `processTokenMint`: every matching token's circulating supply grows. */
  function MintSpec(t: Tables, e: TokenMinted): (r: Applied)
    ensures KeepsLog(t, r)
    ensures r.failure.None?
    ensures r.tables == t.(tokens := r.tables.tokens) && |r.tables.tokens| == |t.tokens|
  {
    var tokens := seq(|t.tokens|, k requires 0 <= k < |t.tokens| =>
      if TokenIn(t, t.tokens[k], Some(e.id.name), e.id.creator, Some(e.id.collection))
      then t.tokens[k].(circulatingSupply := t.tokens[k].circulatingSupply + e.amount)
      else t.tokens[k]);
    Applied(t.(tokens := tokens), None)
  }

  /** `processTokenBurn`: matching tokens of that property version count the burn; a BURN transaction is recorded. */
  function BurnSpec(t: Tables, e: TokenBurned, guid: Guid): (r: Applied)
    ensures KeepsLog(t, r)
    ensures r.failure.None?
    ensures r.tables == t.(tokens := r.tables.tokens, transactions := r.tables.transactions)
    ensures |r.tables.tokens| == |t.tokens| && |r.tables.transactions| == |t.transactions| + 1
  {
    var tokens := seq(|t.tokens|, k requires 0 <= k < |t.tokens| =>
      if TokenIn(t, t.tokens[k], Some(e.name), e.creator, Some(e.collection)) && t.tokens[k].propertyVersion == e.propertyVersion
      then t.tokens[k].(tokensBurned := t.tokens[k].tokensBurned + e.amount)
      else t.tokens[k]);
    var row := TokenTransaction(e.account, e.tokenDataId, Burn, e.amount, guid.accountAddress);
    Applied(t.(tokens := tokens, transactions := t.transactions + [row]), None)
  }

  // ---------------------------------------------------------------------------------------------
  // processEvents

  /** `processVRFCallback`, which only logs: `random_numbers.map`, then `BigInt(timestamp)`. */
  function VrfCallbackFailure(p: Payload): Option<string> {
    match p
    case VrfCallbackData(d) =>
      if d.randomNumbers.None? then Some(MalformedPayload)
      else if d.timestamp.None? then Some(UndefinedToBigInt)
      else None
    case _ => Some(MalformedPayload)
  }

  /** `processTokensClaimed`, which only logs: `tokens_claimed.map`, then `BigInt` of `total_tokens` and `timestamp`. */
  function TokensClaimedFailure(p: Payload): Option<string> {
    match p
    case TokensClaimedData(d) =>
      if d.tokensClaimed.None? then Some(MalformedPayload)
      else if d.totalTokens.None? || d.timestamp.None? then Some(UndefinedToBigInt)
      else None
    case _ => Some(MalformedPayload)
  }

  /**
   * `processTokenData`, which only logs: `id.creator`, `BigInt` of `maximum` and of the royalty
   * points, then `property_keys.map` and `property_types.map`.
   */
  function TokenDataFailure(p: Payload): Option<string> {
    match p
    case TokenDataCreatedData(d) =>
      if d.id.None? then Some(MalformedPayload)
      else if d.maximum.None? || d.royaltyPointsDenominator.None? || d.royaltyPointsNumerator.None? then Some(UndefinedToBigInt)
      else if d.propertyKeys.None? || d.propertyTypes.None? then Some(MalformedPayload)
      else None
    case _ => Some(MalformedPayload)
  }

  /** The kinds of the Crystara collections module's events. */
  predicate IsLootboxKind(k: Kind) {
    k.LootboxCreatedKind? || k.PurchaseInitiatedKind? || k.RewardDistributedKind? || k.RaritiesSetKind?
    || k.TokenAddedKind? || k.PriceUpdatedKind? || k.StatusUpdatedKind? || k.VrfCallbackKind? || k.TokensClaimedKind?
  }

  /** The `switch` of `processEvents`: the handler of the event's kind; record-only kinds and unknown types write nothing modelled. */
  function Dispatch(t: Tables, e: ChainEvent, now: int): (r: Applied)
    ensures KeepsLog(t, r)
    ensures KindOf(e.eventType) == Unknown ==> r == Applied(t, None)
  {
    var k := KindOf(e.eventType);
    if IsLootboxKind(k) then DispatchLootbox(t, k, e, now) else DispatchToken(t, k, e)
  }

  /** The branches of the `switch` for the Crystara collections module; `k` is the event's kind. */
  function DispatchLootbox(t: Tables, k: Kind, e: ChainEvent, now: int): (r: Applied)
    requires IsLootboxKind(k)
    ensures KeepsLog(t, r)
    ensures k.VrfCallbackKind? || k.TokensClaimedKind? ==> r.tables == t
    ensures k.VrfCallbackKind? ==>
      (r.failure.None? <==> e.data.VrfCallbackData? && e.data.vrfCallback.randomNumbers.Some? && e.data.vrfCallback.timestamp.Some?)
    ensures k.TokensClaimedKind? ==>
      (r.failure.None? <==>
        e.data.TokensClaimedData? && e.data.tokensClaimed.tokensClaimed.Some?
        && e.data.tokensClaimed.totalTokens.Some? && e.data.tokensClaimed.timestamp.Some?)
  {
    match k
    case LootboxCreatedKind =>
      (match e.data case LootboxCreatedData(d) => LootboxCreatedSpec(t, d) case _ => Applied(t, Some(MalformedPayload)))
    case PurchaseInitiatedKind =>
      (match e.data case PurchaseInitiatedData(d) => PurchaseSpec(t, d, now) case _ => Applied(t, Some(MalformedPayload)))
    case RewardDistributedKind =>
      (match e.data case RewardDistributedData(d) => RewardSpec(t, d) case _ => Applied(t, Some(MalformedPayload)))
    case RaritiesSetKind =>
      (match e.data case RaritiesSetData(d) => RaritiesSetSpec(t, d) case _ => Applied(t, Some(MalformedPayload)))
    case TokenAddedKind =>
      (match e.data case TokenAddedData(d) => TokenAddedSpec(t, d) case _ => Applied(t, Some(MalformedPayload)))
    case PriceUpdatedKind =>
      (match e.data case PriceUpdatedData(d) => PriceUpdatedSpec(t, d) case _ => Applied(t, Some(MalformedPayload)))
    case StatusUpdatedKind =>
      (match e.data case StatusUpdatedData(d) => StatusUpdatedSpec(t, d) case _ => Applied(t, Some(MalformedPayload)))
    case VrfCallbackKind => Applied(t, VrfCallbackFailure(e.data))
    case TokensClaimedKind => Applied(t, TokensClaimedFailure(e.data))
  }

  /** The branches of the `switch` for the token module, and its `default` branch; `k` is the event's kind. */
  function DispatchToken(t: Tables, k: Kind, e: ChainEvent): (r: Applied)
    requires !IsLootboxKind(k)
    ensures KeepsLog(t, r)
    ensures k == Unknown ==> r == Applied(t, None)
    ensures k == TokenDataKind ==> r.tables == t
    ensures k == TokenDataKind ==>
      (r.failure.None? <==>
        e.data.TokenDataCreatedData? && e.data.tokenData.id.Some? && e.data.tokenData.maximum.Some?
        && e.data.tokenData.royaltyPointsDenominator.Some? && e.data.tokenData.royaltyPointsNumerator.Some?
        && e.data.tokenData.propertyKeys.Some? && e.data.tokenData.propertyTypes.Some?)
  {
    match k
    case CollectionCreatedKind =>
      (match e.data case CollectionCreatedData(d) => CollectionCreatedSpec(t, d) case _ => Applied(t, Some(MalformedPayload)))
    case DepositKind =>
      (match e.data case TokenTransferData(d) => DepositSpec(t, d, e.guid) case _ => Applied(t, Some(MalformedPayload)))
    case WithdrawKind =>
      (match e.data case TokenTransferData(d) => WithdrawSpec(t, d, e.guid) case _ => Applied(t, Some(MalformedPayload)))
    case TokenMintKind =>
      (match e.data case TokenMintedData(d) => MintSpec(t, d) case _ => Applied(t, Some(MalformedPayload)))
    case TokenBurnKind =>
      (match e.data case TokenBurnedData(d) => BurnSpec(t, d, e.guid) case _ => Applied(t, Some(MalformedPayload)))
    case TokenDataKind => Applied(t, TokenDataFailure(e.data))
    case Unknown => Applied(t, None)
  }

  /** `BigInt(event.blockHeight || 0)`. */
  function AuditHeight(e: ChainEvent): int {
    e.blockHeight.GetOr(0)
  }

  /** The audit row `processEvents` creates before dispatching an event. */
  function PendingRow(e: ChainEvent): EventTracking {
    EventTracking(OfEvent(e.eventType), AuditHeight(e), e.transactionHash.GetOr(""), false, None)
  }

  /** Whether an audit row is one the `updateMany` calls of `processEvents` select. */
  predicate Selected(row: EventTracking, ty: EventType, height: int) {
    row.eventType == OfEvent(ty) && row.blockHeight == height && !row.processed
  }

  /** The success `updateMany`: every selected row becomes processed. */
  function MarkProcessed(rows: seq<EventTracking>, ty: EventType, height: int): (r: seq<EventTracking>)
    ensures |r| == |rows|
    ensures forall k | 0 <= k < |rows| :: r[k] == if Selected(rows[k], ty, height) then rows[k].(processed := true) else rows[k]
  {
    seq(|rows|, k requires 0 <= k < |rows| => if Selected(rows[k], ty, height) then rows[k].(processed := true) else rows[k])
  }

  /** The failure `updateMany`: every selected row records the error and stays unprocessed. */
  function MarkFailed(rows: seq<EventTracking>, ty: EventType, height: int, message: string): (r: seq<EventTracking>)
    ensures |r| == |rows|
    ensures forall k | 0 <= k < |rows| :: r[k] == if Selected(rows[k], ty, height) then rows[k].(error := Some(message)) else rows[k]
  {
    seq(|rows|, k requires 0 <= k < |rows| => if Selected(rows[k], ty, height) then rows[k].(error := Some(message), processed := false) else rows[k])
  }

  /** One iteration of the loop of `processEvents`: audit row, dispatch, then mark the audit rows. */
  function ProcessOne(t: Tables, e: ChainEvent, now: int): (r: Applied)
    ensures r.tables.blockProgress == t.blockProgress
    ensures |r.tables.tracking| == |t.tracking| + 1
  {
    var r := Dispatch(t.(tracking := t.tracking + [PendingRow(e)]), e, now);
    match r.failure
    case None => Applied(r.tables.(tracking := MarkProcessed(r.tables.tracking, e.eventType, AuditHeight(e))), None)
    case Some(m) => Applied(r.tables.(tracking := MarkFailed(r.tables.tracking, e.eventType, AuditHeight(e), m)), Some(m))
  }

  /** The loop of `processEvents`: `step` on each event in order, stopping at (and rethrowing) the first failure. */
  function RunUntilFailure(step: (Tables, ChainEvent) -> Applied, t: Tables, events: seq<ChainEvent>): Applied
    decreases |events|
  {
    if events == [] then Applied(t, None)
    else
      var r := step(t, events[0]);
      if r.failure.Some? then r else RunUntilFailure(step, r.tables, events[1..])
  }

  /** One iteration of `processEvents` at instant `now`, as a step of its loop. */
  function Step(now: int): (Tables, ChainEvent) -> Applied {
    (s, e) => ProcessOne(s, e, now)
  }

  /** `processEvents(events, tx)` at instant `now`. */
  function ProcessAll(t: Tables, events: seq<ChainEvent>, now: int): (r: Applied)
    ensures events == [] ==> r == Applied(t, None)
  {
    RunUntilFailure(Step(now), t, events)
  }

  // ---------------------------------------------------------------------------------------------
  // cleanupDayOldAnalytics

  /** Whether an analytics row is older than a day at `now` (`updatedAt < now - 24h`). */
  predicate Stale(a: Analytics, now: int) {
    a.updatedAt < now - DayMs
  }

  /** The analytics table after `cleanupDayOldAnalytics` at `now`; `updatedAt` is refreshed on the rows it updates. */
  function CleanedAnalytics(a: map<nat, Analytics>, now: int): (r: map<nat, Analytics>)
    ensures r.Keys == a.Keys
  {
    map id | id in a :: if Stale(a[id], now) then Analytics(0, 0, 0, now) else a[id]
  }
}

=== FILE: projection_properties.dfy ===
/** Properties of the projection engine of app/indexer/eventProcessor.ts. */
module ProjectionProperties {
  import opened Wrappers
  import opened Events
  import opened Schema
  import opened Projection
  import Hex

  // ---------------------------------------------------------------------------------------------
  // First-match lookups on grown tables

  /** Appending a row changes a first-match lookup only when nothing matched before and the new row matches. */
  lemma {:induction false} FindFirstAppend<T>(rows: seq<T>, x: T, p: T -> bool)
    ensures FindFirst(rows + [x], p) == if FindFirst(rows, p).Some? then FindFirst(rows, p) else if p(x) then Some(|rows|) else None
  {
    if |rows| > 0 {
      assert (rows + [x])[1..] == rows[1..] + [x];
      FindFirstAppend(rows[1..], x, p);
    }
  }

  // ---------------------------------------------------------------------------------------------
  // getOrCreateAccount

  lemma AccountCountAppend(accounts: seq<string>, x: string, address: string)
    ensures AccountCount(accounts + [x], address) == AccountCount(accounts, address) + (if x == address then 1 else 0)
  {
    assert (accounts + [x])[..|accounts|] == accounts;
  }

  lemma {:induction false} AccountCountZero(accounts: seq<string>, address: string)
    ensures AccountCount(accounts, address) == 0 <==> address !in accounts
  {
    if accounts != [] {
      var init := accounts[..|accounts| - 1];
      AccountCountZero(init, address);
      assert accounts == init + [accounts[|accounts| - 1]];
    }
  }

  /**
   * After `getOrCreateAccount(address)` on a table holding the address at most once (the unique
   * constraint), exactly one account has it, and every other address is counted as before.
   */
  lemma GetOrCreateExactlyOne(accounts: seq<string>, address: string, other: string)
    requires AccountCount(accounts, address) <= 1
    ensures AccountCount(WithAccount(accounts, address), address) == 1
    ensures other != address ==> AccountCount(WithAccount(accounts, address), other) == AccountCount(accounts, other)
  {
    AccountCountZero(accounts, address);
    if address !in accounts {
      AccountCountAppend(accounts, address, address);
      AccountCountAppend(accounts, address, other);
    }
  }

  /** `n` consecutive calls of `getOrCreateAccount(address)`. */
  function WithAccountTimes(accounts: seq<string>, address: string, n: nat): seq<string> {
    if n == 0 then accounts else WithAccount(WithAccountTimes(accounts, address, n - 1), address)
  }

  /** Any positive number of calls with the same address leaves the table the first call left. */
  lemma {:induction false} GetOrCreateIdempotent(accounts: seq<string>, address: string, n: nat)
    requires n >= 1
    ensures WithAccountTimes(accounts, address, n) == WithAccount(accounts, address)
  {
    if n > 1 {
      GetOrCreateIdempotent(accounts, address, n - 1);
    }
  }

  // ---------------------------------------------------------------------------------------------
  // Purchases

  /**
   * A purchase for the first lootbox matching (creator, collection name) records one purchase for
   * it, makes sure the buyer's account exists, and upserts the lootbox's analytics: created as
   * (price * quantity, 1, 1), or incremented by price * quantity and 1 purchase with the unique
   * buyer count kept. Other analytics rows and the lootbox rows, stock included, are unchanged.
   */
  lemma PurchaseEffect(t: Tables, e: PurchaseInitiated, now: int, k: nat)
    requires LootboxByCreator(t, e.creator, e.collectionName) == Some(k)
    ensures var r := PurchaseSpec(t, e, now).tables;
      && r == t.(accounts := WithAccount(t.accounts, e.buyer), purchases := r.purchases, analytics := r.analytics)
      && e.buyer in r.accounts
      && r.purchases == t.purchases + [Purchase(RowId(k), e.buyer, e.quantity, e.nonce, e.price, e.priceCoinType)]
      && RowId(k) in r.analytics && r.analytics[RowId(k)].updatedAt == now
      && (RowId(k) !in t.analytics ==>
            r.analytics[RowId(k)].volume24h == e.price * e.quantity
            && r.analytics[RowId(k)].purchases24h == 1 && r.analytics[RowId(k)].uniqueBuyers24h == 1)
      && (RowId(k) in t.analytics ==>
            r.analytics[RowId(k)].volume24h == t.analytics[RowId(k)].volume24h + e.price * e.quantity
            && r.analytics[RowId(k)].purchases24h == t.analytics[RowId(k)].purchases24h + 1
            && r.analytics[RowId(k)].uniqueBuyers24h == t.analytics[RowId(k)].uniqueBuyers24h)
      && (forall id | id in t.analytics && id != RowId(k) :: id in r.analytics && r.analytics[id] == t.analytics[id])
  {
  }

  // ---------------------------------------------------------------------------------------------
  // The deferred link between a lootbox and its token collection

  /** Replacing the last element of `s + [x]` by `y` gives `s + [y]`. */
  lemma ReplaceLast<T>(s: seq<T>, x: T, y: T)
    ensures (s + [x])[|s| := y] == s + [y]
  {
  }

  /** Both events applied: the new collection, and the new lootbox linked to it. */
  function Linked(t: Tables, l: LootboxCreated, c: CollectionCreated): Tables
    requires Hex.HasHexPrefix(l.collectionNameHex) && Hex.HasHexPrefix(l.collectionDescriptionHex) && Hex.HasHexPrefix(l.collectionUriHex)
  {
    var row := LootboxCreatedSpec(t, l).tables.lootboxes[|t.lootboxes|];
    t.(collections := t.collections + [TokenCollection(c.creator, c.collectionName, c.description, c.uri, c.maximum)],
       lootboxes := t.lootboxes + [row.(tokenCollectionId := Some(RowId(|t.collections|)))])
  }

  /** The lootbox first: it is created unlinked, then found and linked by the collection event. */
  lemma LootboxThenCollection(t: Tables, l: LootboxCreated, c: CollectionCreated)
    requires Hex.DeserializeVectorU8(l.collectionNameHex) == Success(c.collectionName)
    requires Hex.HasHexPrefix(l.collectionDescriptionHex) && Hex.HasHexPrefix(l.collectionUriHex)
    requires c.creator == l.resourceAddress
    requires LootboxByResource(t, c.creator, c.collectionName).None?
    requires CollectionByCreator(t, c.creator, c.collectionName).None?
    ensures Hex.HasHexPrefix(l.collectionNameHex)
    ensures CollectionCreatedSpec(LootboxCreatedSpec(t, l).tables, c) == Applied(Linked(t, l, c), None)
  {
    var collection := TokenCollection(c.creator, c.collectionName, c.description, c.uri, c.maximum);
    var a := LootboxCreatedSpec(t, l);
    var row := a.tables.lootboxes[|t.lootboxes|];
    assert row.collectionResourceAddress == c.creator && row.collectionName == c.collectionName;
    assert a.tables == t.(lootboxes := t.lootboxes + [row]);
    var t1 := a.tables.(collections := t.collections + [collection]);
    assert LootboxByResource(t1, c.creator, c.collectionName) == Some(|t.lootboxes|) by {
      FindFirstAppend(t.lootboxes, row, (lb: Lootbox) => lb.collectionResourceAddress == c.creator && lb.collectionName == c.collectionName);
    }
    var linked := row.(tokenCollectionId := Some(RowId(|t.collections|)));
    ReplaceLast(t.lootboxes, row, linked);
    assert CollectionCreatedSpec(a.tables, c) == Applied(t1.(lootboxes := t.lootboxes + [linked]), None);
  }

  /** The collection first: there is no lootbox to link yet, then the lootbox finds the new collection. */
  lemma CollectionThenLootbox(t: Tables, l: LootboxCreated, c: CollectionCreated)
    requires Hex.DeserializeVectorU8(l.collectionNameHex) == Success(c.collectionName)
    requires Hex.HasHexPrefix(l.collectionDescriptionHex) && Hex.HasHexPrefix(l.collectionUriHex)
    requires c.creator == l.resourceAddress
    requires LootboxByResource(t, c.creator, c.collectionName).None?
    requires CollectionByCreator(t, c.creator, c.collectionName).None?
    ensures Hex.HasHexPrefix(l.collectionNameHex)
    ensures LootboxCreatedSpec(CollectionCreatedSpec(t, c).tables, l) == Applied(Linked(t, l, c), None)
  {
    var collection := TokenCollection(c.creator, c.collectionName, c.description, c.uri, c.maximum);
    var b := CollectionCreatedSpec(t, c);
    assert b.tables == t.(collections := t.collections + [collection]);
    FindFirstAppend(t.collections, collection, (tc: TokenCollection) => tc.creator == c.creator && tc.name == c.collectionName);
    assert CollectionByCreator(b.tables, c.creator, c.collectionName) == Some(|t.collections|);
  }

  /**
   * A `LootboxCreatedEvent` for resource address R and collection name N, and a
   * `CreateCollectionEvent` by R for N, leave the same tables in either order when neither a
   * lootbox nor a collection for (R, N) existed: the new lootbox ends linked to the new collection.
   */
  lemma LinkOrderIndependent(t: Tables, l: LootboxCreated, c: CollectionCreated)
    requires Hex.DeserializeVectorU8(l.collectionNameHex) == Success(c.collectionName)
    requires Hex.HasHexPrefix(l.collectionDescriptionHex) && Hex.HasHexPrefix(l.collectionUriHex)
    requires c.creator == l.resourceAddress
    requires LootboxByResource(t, c.creator, c.collectionName).None?
    requires CollectionByCreator(t, c.creator, c.collectionName).None?
    ensures var lootboxFirst := CollectionCreatedSpec(LootboxCreatedSpec(t, l).tables, c);
      var collectionFirst := LootboxCreatedSpec(CollectionCreatedSpec(t, c).tables, l);
      && lootboxFirst.failure.None? && collectionFirst.failure.None?
      && lootboxFirst.tables == collectionFirst.tables
      && |lootboxFirst.tables.lootboxes| == |t.lootboxes| + 1
      && lootboxFirst.tables.lootboxes[|t.lootboxes|].tokenCollectionId == Some(RowId(|t.collections|))
  {
    LootboxThenCollection(t, l, c);
    CollectionThenLootbox(t, l, c);
  }

  // ---------------------------------------------------------------------------------------------
  // Deposits and withdrawals

  /** Creating an account does not change which token a lookup finds. */
  lemma TokenByVersionAccounts(t: Tables, accounts: seq<string>, name: Option<string>, creator: string, collection: Option<string>, version: int)
    ensures TokenByVersion(t.(accounts := accounts), name, creator, collection, version) == TokenByVersion(t, name, creator, collection, version)
  {
    var t1 := t.(accounts := accounts);
    var p := (tk: Token) => TokenIn(t1, tk, name, creator, collection) && tk.propertyVersion == version;
    var q := (tk: Token) => TokenIn(t, tk, name, creator, collection) && tk.propertyVersion == version;
    assert forall tk :: p(tk) == q(tk);
    FindFirstSame(t.tokens, p, q);
  }

  /** Two filters that agree on every row find the same first row. */
  lemma {:induction false} FindFirstSame<T>(rows: seq<T>, p: T -> bool, q: T -> bool)
    requires forall x :: p(x) == q(x)
    ensures FindFirst(rows, p) == FindFirst(rows, q)
  {
    if |rows| > 0 {
      FindFirstSame(rows[1..], p, q);
    }
  }

  /**
   * A deposit credits the token data id's creator: its balance row is created at `amount` or
   * incremented by `amount`, no other balance changes, the account exists and exactly one DEPOSIT
   * transaction is appended.
   */
  lemma DepositEffect(t: Tables, e: TokenTransfer, guid: Guid)
    ensures var key := BalanceKey(e.id.tokenDataId.creator, e.id.tokenDataId);
      var found := TokenByVersion(t, Some(e.id.tokenDataId.name), e.id.tokenDataId.creator, Some(e.id.tokenDataId.collection), e.id.propertyVersion);
      var r := DepositSpec(t, e, guid).tables;
      && r == t.(accounts := WithAccount(t.accounts, e.id.tokenDataId.creator), balances := r.balances, transactions := r.transactions)
      && key in r.balances
      && r.balances[key].balance == (if key in t.balances then t.balances[key].balance + e.amount else e.amount)
      && r.balances[key].tokenId == BalanceTokenId(found, if key in t.balances then t.balances[key].tokenId else None)
      && (forall other | other in t.balances && other != key :: other in r.balances && r.balances[other] == t.balances[other])
      && r.balances.Keys == t.balances.Keys + {key}
      && e.id.tokenDataId.creator in r.accounts
      && r.transactions == t.transactions + [TokenTransaction(e.id.tokenDataId.creator, e.id.tokenDataId, Deposit, e.amount, guid.accountAddress)]
  {
    TokenByVersionAccounts(t, WithAccount(t.accounts, e.id.tokenDataId.creator),
      Some(e.id.tokenDataId.name), e.id.tokenDataId.creator, Some(e.id.tokenDataId.collection), e.id.propertyVersion);
  }

  /**
   * A withdrawal fails when the balance row is missing (with the account already created);
   * otherwise it decrements the balance by `amount`, with no clamping at zero, and appends exactly
   * one WITHDRAW transaction.
   */
  lemma WithdrawEffect(t: Tables, e: TokenTransfer, guid: Guid)
    ensures var key := BalanceKey(e.id.tokenDataId.creator, e.id.tokenDataId);
      var r := WithdrawSpec(t, e, guid);
      && (key !in t.balances <==> r.failure.Some?)
      && (key !in t.balances ==> r.tables == t.(accounts := WithAccount(t.accounts, e.id.tokenDataId.creator)))
      && (key in t.balances ==>
            var found := TokenByVersion(t, None, e.id.tokenDataId.creator, None, e.id.propertyVersion);
            && r.tables == t.(accounts := WithAccount(t.accounts, e.id.tokenDataId.creator), balances := r.tables.balances, transactions := r.tables.transactions)
            && r.tables.balances.Keys == t.balances.Keys
            && r.tables.balances[key].balance == t.balances[key].balance - e.amount
            && r.tables.balances[key].tokenId == BalanceTokenId(found, t.balances[key].tokenId)
            && (forall other | other in t.balances && other != key :: r.tables.balances[other] == t.balances[other])
            && r.tables.transactions == t.transactions + [TokenTransaction(e.id.tokenDataId.creator, e.id.tokenDataId, Withdraw, e.amount, guid.accountAddress)])
  {
    TokenByVersionAccounts(t, WithAccount(t.accounts, e.id.tokenDataId.creator), None, e.id.tokenDataId.creator, None, e.id.propertyVersion);
  }

  /** A deposit followed by a withdrawal of the same token id and amount restores the balance, whatever it was. */
  lemma DepositThenWithdraw(t: Tables, e: TokenTransfer, guid: Guid)
    ensures var key := BalanceKey(e.id.tokenDataId.creator, e.id.tokenDataId);
      var r := WithdrawSpec(DepositSpec(t, e, guid).tables, e, guid);
      && r.failure.None?
      && r.tables.balances[key].balance == (if key in t.balances then t.balances[key].balance else 0)
  {
    DepositEffect(t, e, guid);
    WithdrawEffect(DepositSpec(t, e, guid).tables, e, guid);
  }

  /** A mint adds `amount` to the circulating supply of exactly the tokens named by its token data id. */
  lemma MintEffect(t: Tables, e: TokenMinted, k: nat)
    requires k < |t.tokens|
    ensures var r := MintSpec(t, e).tables.tokens[k];
      && r.circulatingSupply == t.tokens[k].circulatingSupply
           + (if TokenIn(t, t.tokens[k], Some(e.id.name), e.id.creator, Some(e.id.collection)) then e.amount else 0)
      && r == t.tokens[k].(circulatingSupply := r.circulatingSupply)
  {
  }

  /**
   * A burn adds `amount` to `tokensBurned` of exactly the matching tokens of its property version
   * and appends one BURN transaction.
   */
  lemma BurnEffect(t: Tables, e: TokenBurned, guid: Guid, k: nat)
    requires k < |t.tokens|
    ensures var r := BurnSpec(t, e, guid).tables;
      && r.tokens[k].tokensBurned == t.tokens[k].tokensBurned
           + (if TokenIn(t, t.tokens[k], Some(e.name), e.creator, Some(e.collection)) && t.tokens[k].propertyVersion == e.propertyVersion
              then e.amount else 0)
      && r.tokens[k] == t.tokens[k].(tokensBurned := r.tokens[k].tokensBurned)
      && r.transactions == t.transactions + [TokenTransaction(e.account, e.tokenDataId, Burn, e.amount, guid.accountAddress)]
  {
  }

  // ---------------------------------------------------------------------------------------------
  // Audit bookkeeping of processEvents

  /**
   * One event of `processEvents`: the audit table grows by one row for the event (its type, its
   * height or 0, its hash or ''). On success no row of that type and height is left unprocessed;
   * on failure that row, and every other unprocessed row of the same type and height, carries the
   * error and stays unprocessed.
   */
  lemma ProcessOneAudit(t: Tables, e: ChainEvent, now: int)
    ensures var r := ProcessOne(t, e, now);
      var last := r.tables.tracking[|t.tracking|];
      && last.eventType == OfEvent(e.eventType) && last.blockHeight == e.blockHeight.GetOr(0)
      && last.transactionHash == e.transactionHash.GetOr("")
      && (r.failure.None? ==>
            && last.processed && last.error.None?
            && forall k | 0 <= k < |r.tables.tracking| :: !Selected(r.tables.tracking[k], e.eventType, AuditHeight(e)))
      && (r.failure.Some? ==>
            && !last.processed && last.error == r.failure
            && forall k | 0 <= k < |t.tracking| && Selected(t.tracking[k], e.eventType, AuditHeight(e)) ::
                 r.tables.tracking[k] == t.tracking[k].(error := r.failure))
  {
    var rows := t.tracking + [PendingRow(e)];
    assert Selected(rows[|t.tracking|], e.eventType, AuditHeight(e));
  }

  /** An event of an unknown type changes no table but the audit table, and is marked processed. */
  lemma UnknownOnlyAudits(t: Tables, e: ChainEvent, now: int)
    requires KindOf(e.eventType) == Unknown
    ensures var r := ProcessOne(t, e, now);
      && r.failure.None?
      && r.tables == t.(tracking := r.tables.tracking)
      && r.tables.tracking[|t.tracking|].processed
  {
    ProcessOneAudit(t, e, now);
  }

  /** The audit table is an append-only log: rows keep their type, height and hash. */
  predicate AuditExtends(before: seq<EventTracking>, after: seq<EventTracking>) {
    |before| <= |after|
    && forall k | 0 <= k < |before| ::
         after[k].eventType == before[k].eventType && after[k].blockHeight == before[k].blockHeight
         && after[k].transactionHash == before[k].transactionHash
  }

  /** A row that is processed and has no error (a settled row). */
  predicate Settled(row: EventTracking) {
    row.processed && row.error.None?
  }

  /**
   * What one iteration of `processEvents` guarantees about the checkpoint and the audit table: the
   * checkpoint is untouched, one row is appended, earlier rows keep their identity and settled rows
   * stay as they are; on success the appended row is the event's, settled.
   */
  predicate StepFacts(t: Tables, e: ChainEvent, r: Applied) {
    && r.tables.blockProgress == t.blockProgress
    && |r.tables.tracking| == |t.tracking| + 1
    && AuditExtends(t.tracking, r.tables.tracking)
    && (forall k | 0 <= k < |t.tracking| && Settled(t.tracking[k]) :: r.tables.tracking[k] == t.tracking[k])
    && (r.failure.None? ==>
          && r.tables.tracking[|t.tracking|].eventType == OfEvent(e.eventType)
          && r.tables.tracking[|t.tracking|].blockHeight == AuditHeight(e)
          && Settled(r.tables.tracking[|t.tracking|]))
  }

  lemma ProcessOneFacts(t: Tables, e: ChainEvent, now: int)
    ensures StepFacts(t, e, ProcessOne(t, e, now))
  {
    ProcessOneAudit(t, e, now);
  }

  /** `processEvents` on a concatenation is the first part, then (unless it threw) the second part. */
  lemma {:induction false} RunAppend(step: (Tables, ChainEvent) -> Applied, t: Tables, a: seq<ChainEvent>, b: seq<ChainEvent>)
    ensures RunUntilFailure(step, t, a + b) ==
      if RunUntilFailure(step, t, a).failure.Some? then RunUntilFailure(step, t, a)
      else RunUntilFailure(step, RunUntilFailure(step, t, a).tables, b)
    decreases |a|
  {
    if a != [] {
      assert (a + b)[0] == a[0] && (a + b)[1..] == a[1..] + b;
      var one := step(t, a[0]);
      if one.failure.None? {
        RunAppend(step, one.tables, a[1..], b);
      }
    } else {
      assert a + b == b;
    }
  }

  lemma ProcessAllAppend(t: Tables, a: seq<ChainEvent>, b: seq<ChainEvent>, now: int)
    ensures ProcessAll(t, a + b, now) ==
      if ProcessAll(t, a, now).failure.Some? then ProcessAll(t, a, now) else ProcessAll(ProcessAll(t, a, now).tables, b, now)
  {
    RunAppend(Step(now), t, a, b);
  }

  /** The loop stops at the first failing event: the events before it succeeded and none after it ran. */
  lemma {:induction false} RunFailFast(step: (Tables, ChainEvent) -> Applied, t: Tables, events: seq<ChainEvent>)
    requires RunUntilFailure(step, t, events).failure.Some?
    ensures exists i | 0 <= i < |events| ::
      && RunUntilFailure(step, t, events[..i]).failure.None?
      && step(RunUntilFailure(step, t, events[..i]).tables, events[i]) == RunUntilFailure(step, t, events)
    decreases |events|
  {
    var one := step(t, events[0]);
    if one.failure.Some? {
      assert events[..0] == [];
      assert RunUntilFailure(step, t, events[..0]).failure.None?;
    } else {
      var rest := events[1..];
      RunFailFast(step, one.tables, rest);
      var j :| 0 <= j < |rest|
        && RunUntilFailure(step, one.tables, rest[..j]).failure.None?
        && step(RunUntilFailure(step, one.tables, rest[..j]).tables, rest[j]) == RunUntilFailure(step, one.tables, rest);
      assert events[..j + 1] == [events[0]] + rest[..j];
      RunAppend(step, t, [events[0]], rest[..j]);
      assert RunUntilFailure(step, t, [events[0]]) == one by {
        assert [events[0]][1..] == [];
      }
      assert events[j + 1] == rest[j];
    }
  }

  /**
   * Fail-fast: when `processEvents` throws, it threw at some event `i`; the events before it all
   * succeeded, and no event after it was applied.
   */
  lemma ProcessAllFailFast(t: Tables, events: seq<ChainEvent>, now: int)
    requires ProcessAll(t, events, now).failure.Some?
    ensures exists i | 0 <= i < |events| ::
      && ProcessAll(t, events[..i], now).failure.None?
      && ProcessOne(ProcessAll(t, events[..i], now).tables, events[i], now) == ProcessAll(t, events, now)
  {
    RunFailFast(Step(now), t, events);
    var i :| 0 <= i < |events|
      && RunUntilFailure(Step(now), t, events[..i]).failure.None?
      && Step(now)(RunUntilFailure(Step(now), t, events[..i]).tables, events[i]) == RunUntilFailure(Step(now), t, events);
    assert ProcessOne(ProcessAll(t, events[..i], now).tables, events[i], now) == ProcessAll(t, events, now);
  }

  /** Settled rows stay as they are through the loop, whatever its outcome. */
  lemma {:induction false} RunKeepsSettled(step: (Tables, ChainEvent) -> Applied, t: Tables, events: seq<ChainEvent>, k: nat)
    requires forall s, e :: StepFacts(s, e, step(s, e))
    requires k < |t.tracking| && Settled(t.tracking[k])
    ensures k < |RunUntilFailure(step, t, events).tables.tracking|
    ensures RunUntilFailure(step, t, events).tables.tracking[k] == t.tracking[k]
    decreases |events|
  {
    if events != [] {
      var one := step(t, events[0]);
      assert StepFacts(t, events[0], one);
      if one.failure.None? {
        RunKeepsSettled(step, one.tables, events[1..], k);
      }
    }
  }

  /**
   * The loop leaves the checkpoint alone and the audit table append-only; when it succeeds every
   * event got its own row, in order, settled.
   */
  lemma {:induction false} RunAudit(step: (Tables, ChainEvent) -> Applied, t: Tables, events: seq<ChainEvent>)
    requires forall s, e :: StepFacts(s, e, step(s, e))
    ensures var r := RunUntilFailure(step, t, events);
      && r.tables.blockProgress == t.blockProgress
      && AuditExtends(t.tracking, r.tables.tracking)
      && (r.failure.None? ==>
            && |r.tables.tracking| == |t.tracking| + |events|
            && forall k | 0 <= k < |events| ::
                 && r.tables.tracking[|t.tracking| + k].eventType == OfEvent(events[k].eventType)
                 && r.tables.tracking[|t.tracking| + k].blockHeight == AuditHeight(events[k])
                 && Settled(r.tables.tracking[|t.tracking| + k]))
    decreases |events|
  {
    if events != [] {
      var one := step(t, events[0]);
      assert StepFacts(t, events[0], one);
      if one.failure.None? {
        var rest := events[1..];
        RunAudit(step, one.tables, rest);
        var r := RunUntilFailure(step, one.tables, rest);
        if r.failure.None? {
          RunKeepsSettled(step, one.tables, rest, |t.tracking|);
          forall k | 0 <= k < |events|
            ensures r.tables.tracking[|t.tracking| + k].eventType == OfEvent(events[k].eventType)
            ensures r.tables.tracking[|t.tracking| + k].blockHeight == AuditHeight(events[k])
            ensures Settled(r.tables.tracking[|t.tracking| + k])
          {
            if k > 0 {
              assert rest[k - 1] == events[k];
            }
          }
        }
      }
    }
  }

  /**
   * `processEvents` never writes the checkpoint and keeps the audit table append-only; when it
   * succeeds it has appended one settled row per event, in order, with the event's type and height.
   */
  lemma ProcessAllAudit(t: Tables, events: seq<ChainEvent>, now: int)
    ensures var r := ProcessAll(t, events, now);
      && r.tables.blockProgress == t.blockProgress
      && AuditExtends(t.tracking, r.tables.tracking)
      && (r.failure.None? ==>
            && |r.tables.tracking| == |t.tracking| + |events|
            && forall k | 0 <= k < |events| ::
                 && r.tables.tracking[|t.tracking| + k].eventType == OfEvent(events[k].eventType)
                 && r.tables.tracking[|t.tracking| + k].blockHeight == AuditHeight(events[k])
                 && Settled(r.tables.tracking[|t.tracking| + k]))
  {
    forall s, e ensures StepFacts(s, e, Step(now)(s, e)) {
      ProcessOneFacts(s, e, now);
    }
    RunAudit(Step(now), t, events);
  }

  // ---------------------------------------------------------------------------------------------
  // cleanupDayOldAnalytics

  /**
   * Cleanup zeroes the three counters and stamps `now` exactly on the rows last updated more
   * than a day before `now`, and leaves the other rows as they were.
   */
  lemma CleanupEffect(a: map<nat, Analytics>, now: int, id: nat)
    requires id in a
    ensures var r := CleanedAnalytics(a, now);
      && id in r
      && (a[id].updatedAt < now - 86400000 ==>
            r[id].volume24h == 0 && r[id].purchases24h == 0 && r[id].uniqueBuyers24h == 0 && r[id].updatedAt == now)
      && (a[id].updatedAt >= now - 86400000 ==> r[id] == a[id])
  {
  }

  /** Running the cleanup twice at the same instant is the same as running it once. */
  lemma CleanupIdempotent(a: map<nat, Analytics>, now: int)
    ensures CleanedAnalytics(CleanedAnalytics(a, now), now) == CleanedAnalytics(a, now)
  {
    var once := CleanedAnalytics(a, now);
    forall id | id in once ensures !Stale(once[id], now) || once[id] == a[id] {
    }
  }
}

=== FILE: rpc_client.dfy ===
/**
 * The fetch client of app/indexer/rpcClient.ts over an abstract network. The network is a
 * function from a request and the attempt number to the response of that attempt, so any
 * sequence of responses (OK, 429, other statuses, thrown errors) can be described.
 */
module RpcClient {
  import opened Wrappers
  import opened Events

  /** `MAX_RETRIES` of `fetchBlockEvents`; the per-type loop also allows three attempts. */
  const MaxRetries := 3
  const MaxBlockRange := 10
  /** `BATCH_SIZE` of `fetchEventsByTypes`: event types fetched per slice. */
  const TypeSliceSize := 10
  /** `RETRY_DELAY`, in milliseconds. */
  const RetryDelay := 300

  /** One element of the response's `data` array; `data` is absent when the item has no payload. */
  datatype RawItem = RawItem(guid: Guid, sequenceNumber: int, data: Option<Payload>)

  /** The body of a response: not JSON, or JSON whose `data` field may be missing. */
  datatype Body = Malformed | Parsed(data: Option<seq<RawItem>>)

  /** The outcome of `fetch(url)`: a thrown error, or a status and a body. */
  datatype Response = NetworkError | Http(status: int, body: Body)

  /** `GET /events/<type>?start=..&end=..`. */
  datatype EventRequest = EventRequest(eventType: EventType, start: int, end: int)

  /** The response to the `n`-th attempt (from 0) of a request. */
  type Network = (EventRequest, nat) -> Response

  /** `response.ok`. */
  predicate IsOk(status: int) {
    200 <= status < 300
  }

  // ---------------------------------------------------------------------------------------------
  // fetchBlockEvents: range cap

  /** The end block `fetchBlockEvents` queries: `endBlock`, or `startBlock + 10` when the span is longer. */
  function CapEnd(start: int, end: int): (e: int)
    ensures e - start <= MaxBlockRange && e <= end
    ensures end - start <= MaxBlockRange ==> e == end
    ensures end - start > MaxBlockRange ==> e - start == MaxBlockRange
  {
    if end - start > MaxBlockRange then start + MaxBlockRange else end
  }

  // ---------------------------------------------------------------------------------------------
  // fetchEventsByTypes: one event type

  predicate AllHaveData(items: seq<RawItem>) {
    forall k | 0 <= k < |items| :: items[k].data.Some?
  }

  /** The `map` over `responseData.data`: one event per item, typed with the requested type. */
  function Normalise(ty: EventType, items: seq<RawItem>): (events: seq<ChainEvent>)
    requires AllHaveData(items)
    ensures |events| == |items|
    ensures forall k | 0 <= k < |items| ::
      && events[k].eventType == ty
      && events[k].guid == items[k].guid
      && events[k].sequenceNumber == items[k].sequenceNumber
      && events[k].data == items[k].data.value
      && events[k].timestamp == PayloadTimestamp(items[k].data.value).GetOr(-1)
      && events[k].blockHeight.None? && events[k].transactionHash.None?
  {
    seq(|items|, k requires 0 <= k < |items| =>
      ChainEvent(ty, items[k].guid, items[k].sequenceNumber, PayloadTimestamp(items[k].data.value).GetOr(-1),
                 items[k].data.value, None, None))
  }

  /** What one attempt leads to: another attempt, or the type's result. */
  datatype AttemptOutcome = Retry | Done(events: seq<ChainEvent>)

  /**
   * One pass of the per-type loop body. A thrown `fetch`, a 429, a body that is not JSON and an
   * item without `data` (whose `event.data.timestamp` throws) retry; any other non-OK status and
   * a missing or empty `data` give `[]`.
   */
  function Attempt(ty: EventType, response: Response): (r: AttemptOutcome)
    ensures response.NetworkError? || response.status == 429 ==> r.Retry?
    ensures response.Http? && response.status != 429 && !IsOk(response.status) ==> r == Done([])
    ensures response.Http? && IsOk(response.status) && response.body.Parsed? && response.body.data.GetOr([]) == [] ==>
      r == Done([])
  {
    match response
    case NetworkError => Retry
    case Http(status, body) =>
      if status == 429 then Retry
      else if !IsOk(status) then Done([])
      else match body
        case Malformed => Retry
        case Parsed(None) => Done([])
        case Parsed(Some(items)) =>
          if |items| == 0 then Done([])
          else if !AllHaveData(items) then Retry
          else Done(Normalise(ty, items))
  }

  /** A non-empty result comes from an OK response with a `data` array: one event of the requested type per item. */
  lemma AttemptEvents(ty: EventType, response: Response)
    ensures var r := Attempt(ty, response);
      r.Done? && r.events != [] ==>
        && response.Http? && IsOk(response.status) && response.body.Parsed? && response.body.data.Some?
        && |r.events| == |response.body.data.value|
        && forall k | 0 <= k < |r.events| :: r.events[k].eventType == ty
  {
  }

  /** The result for one event type and how many attempts failed. */
  datatype TypeFetch = TypeFetch(events: seq<ChainEvent>, failures: nat)

  /** The per-type loop from attempt `retries` on. */
  function FetchType(req: EventRequest, net: Network, retries: nat): (r: TypeFetch)
    requires retries <= MaxRetries
    ensures retries <= r.failures <= MaxRetries
    ensures r.failures == MaxRetries ==> r.events == []
    ensures forall k | 0 <= k < |r.events| :: r.events[k].eventType == req.eventType
    decreases MaxRetries - retries
  {
    if retries == MaxRetries then TypeFetch([], retries)
    else match Attempt(req.eventType, net(req, retries))
      case Retry => FetchType(req, net, retries + 1)
      case Done(events) => TypeFetch(events, retries)
  }

  /** An OK response without events ends the loop at once: the type's result is `[]` with no failure counted. */
  lemma FetchTypeEmptyData(req: EventRequest, net: Network, retries: nat)
    requires retries < MaxRetries
    requires var response := net(req, retries);
      response.Http? && IsOk(response.status) && response.body.Parsed? &&
      (response.body.data.None? || response.body.data.value == [])
    ensures FetchType(req, net, retries) == TypeFetch([], retries)
  {
  }

  function Pow2(k: nat): (p: nat)
    ensures p >= 1
  {
    if k == 0 then 1 else 2 * Pow2(k - 1)
  }

  /** The sleeps after the first `n` failures of one type: `RETRY_DELAY * 2^k` after the k-th. */
  function RetryDelays(n: nat): (delays: seq<nat>)
    ensures |delays| == n
    ensures forall k | 0 <= k < n :: delays[k] == RetryDelay * Pow2(k + 1)
  {
    seq(n, k requires 0 <= k < n => RetryDelay * Pow2(k + 1))
  }

  /**
   * The per-type retry loop of `fetchEventsByTypes`: the events for one type, and the sleeps it
   * took between attempts.
   */
  method FetchEventsOfType(req: EventRequest, net: Network) returns (events: seq<ChainEvent>, delays: seq<nat>)
    ensures events == FetchType(req, net, 0).events
    ensures delays == RetryDelays(FetchType(req, net, 0).failures)
  {
    var retries := 0;
    delays := [];
    while retries < MaxRetries
      invariant 0 <= retries <= MaxRetries
      invariant FetchType(req, net, retries) == FetchType(req, net, 0)
      invariant delays == RetryDelays(retries)
      decreases MaxRetries - retries
    {
      var response := net(req, retries);
      match Attempt(req.eventType, response)
      case Retry => {
        retries := retries + 1;
        delays := delays + [RetryDelay * Pow2(retries)];
      }
      case Done(result) => {
        return result, delays;
      }
    }
    return [], delays;
  }

  /** A non-OK status other than 429 on the first attempt ends that type with no events and no retry. */
  lemma RejectedTypeStops(req: EventRequest, net: Network)
    requires net(req, 0).Http? && net(req, 0).status != 429 && !IsOk(net(req, 0).status)
    ensures FetchType(req, net, 0) == TypeFetch([], 0)
  {
  }

  /** Three failed attempts give up on the type: no events, three sleeps of 600, 1200 and 2400 ms. */
  lemma {:induction false} ExhaustedTypeIsEmpty(req: EventRequest, net: Network)
    requires forall n: nat | n < MaxRetries :: Attempt(req.eventType, net(req, n)).Retry?
    ensures FetchType(req, net, 0) == TypeFetch([], MaxRetries)
    ensures RetryDelays(FetchType(req, net, 0).failures) == [600, 1200, 2400]
  {
    assert Attempt(req.eventType, net(req, 0)).Retry?;
    assert Attempt(req.eventType, net(req, 1)).Retry?;
    assert Attempt(req.eventType, net(req, 2)).Retry?;
    assert FetchType(req, net, 2) == FetchType(req, net, 3);
    assert Pow2(1) == 2 && Pow2(2) == 4 && Pow2(3) == 8;
  }

  // ---------------------------------------------------------------------------------------------
  // fetchEventsByTypes: all types

  /** The events of `fetchEventsByTypes(types)`: the per-type results concatenated in type order. */
  function TypesEvents(types: seq<EventType>, start: int, end: int, net: Network): seq<ChainEvent> {
    if types == [] then []
    else FetchType(EventRequest(types[0], start, end), net, 0).events + TypesEvents(types[1..], start, end, net)
  }

  lemma {:induction false} TypesEventsAppend(a: seq<EventType>, b: seq<EventType>, start: int, end: int, net: Network)
    ensures TypesEvents(a + b, start, end, net) == TypesEvents(a, start, end, net) + TypesEvents(b, start, end, net)
  {
    if a == [] {
      assert a + b == b;
    } else {
      assert (a + b)[0] == a[0] && (a + b)[1..] == a[1..] + b;
      TypesEventsAppend(a[1..], b, start, end, net);
    }
  }

  /** Every event `fetchEventsByTypes` returns is typed with one of the requested types. */
  lemma {:induction false} TypesEventsTyped(types: seq<EventType>, start: int, end: int, net: Network)
    ensures forall k | 0 <= k < |TypesEvents(types, start, end, net)| :: TypesEvents(types, start, end, net)[k].eventType in types
  {
    if types != [] {
      TypesEventsTyped(types[1..], start, end, net);
      var first: seq<ChainEvent> := FetchType(EventRequest(types[0], start, end), net, 0).events;
      var rest: seq<ChainEvent> := TypesEvents(types[1..], start, end, net);
      forall k | 0 <= k < |first + rest| ensures (first + rest)[k].eventType in types {
        if k >= |first| {
          assert (first + rest)[k] == rest[k - |first|];
        }
      }
    }
  }

  /**
   * The events for a list of types depend only on the responses to requests for those types: a
   * failing type changes nothing outside its own slot.
   */
  lemma {:induction false} TypesEventsLocal(types: seq<EventType>, start: int, end: int, net1: Network, net2: Network)
    requires forall ty, n: nat | ty in types :: net1(EventRequest(ty, start, end), n) == net2(EventRequest(ty, start, end), n)
    ensures TypesEvents(types, start, end, net1) == TypesEvents(types, start, end, net2)
  {
    if types != [] {
      var req := EventRequest(types[0], start, end);
      FetchTypeLocal(req, net1, net2, 0);
      TypesEventsLocal(types[1..], start, end, net1, net2);
    }
  }

  lemma {:induction false} FetchTypeLocal(req: EventRequest, net1: Network, net2: Network, retries: nat)
    requires retries <= MaxRetries
    requires forall n: nat :: net1(req, n) == net2(req, n)
    ensures FetchType(req, net1, retries) == FetchType(req, net2, retries)
    decreases MaxRetries - retries
  {
    if retries < MaxRetries {
      FetchTypeLocal(req, net1, net2, retries + 1);
    }
  }

  /** A prefix of `s` splits at any shorter length. */
  lemma PrefixSplit<T>(s: seq<T>, i: nat, j: nat)
    requires i <= j <= |s|
    ensures s[..j] == s[..i] + s[i..j]
  {
  }

  /** One slice of `fetchEventsByTypes`: every type fetched, the results flattened in type order. */
  method FetchSlice(slice: seq<EventType>, start: int, end: int, net: Network) returns (sliceEvents: seq<ChainEvent>)
    ensures sliceEvents == TypesEvents(slice, start, end, net)
  {
    sliceEvents := [];
    for j := 0 to |slice|
      invariant sliceEvents == TypesEvents(slice[..j], start, end, net)
    {
      var typeEvents, _ := FetchEventsOfType(EventRequest(slice[j], start, end), net);
      TypesEventsAppend(slice[..j], [slice[j]], start, end, net);
      assert slice[..j + 1] == slice[..j] + [slice[j]];
      sliceEvents := sliceEvents + typeEvents;
    }
    assert slice[..|slice|] == slice;
  }

  /**
   * `fetchEventsByTypes`: the types in slices of ten, each type's result pushed in order; returns
   * the events and the number of pauses taken between slices.
   */
  method FetchEventsByTypes(types: seq<EventType>, start: int, end: int, net: Network) returns (events: seq<ChainEvent>, pauses: nat)
    ensures events == TypesEvents(types, start, end, net)
    ensures pauses == if |types| == 0 then 0 else (|types| - 1) / TypeSliceSize
  {
    events := [];
    pauses := 0;
    var i := 0;
    while i < |types|
      invariant 0 <= i && i % TypeSliceSize == 0
      invariant i > 0 ==> i - TypeSliceSize < |types|
      invariant events == TypesEvents(types[..if i < |types| then i else |types|], start, end, net)
      invariant i < |types| ==> pauses == i / TypeSliceSize
      invariant i >= |types| && i > 0 ==> pauses == i / TypeSliceSize - 1
      invariant i == 0 ==> pauses == 0
      decreases |types| - i
    {
      var sliceEnd := if i + TypeSliceSize < |types| then i + TypeSliceSize else |types|;
      var slice := types[i..sliceEnd];
      var sliceEvents := FetchSlice(slice, start, end, net);
      PrefixSplit(types, i, sliceEnd);
      TypesEventsAppend(types[..i], slice, start, end, net);
      events := events + sliceEvents;
      if i + TypeSliceSize < |types| {
        pauses := pauses + 1;
      }
      i := i + TypeSliceSize;
    }
    assert types[..|types|] == types;
  }

  // ---------------------------------------------------------------------------------------------
  // fetchBlockEvents

  /** The token-module types `fetchBlockEvents` asks for, in order. */
  const TokenTypes: seq<EventType> := [
    EventType(TokenModule, "MintTokenEvent"),
    EventType(TokenModule, "CreateTokenDataEvent"),
    EventType(TokenModule, "CreateCollectionEvent"),
    EventType(TokenModule, "MutateTokenPropertyMapEvent"),
    EventType(TokenModule, "DepositEvent"),
    EventType(TokenModule, "WithdrawEvent"),
    EventType(TokenModule, "BurnTokenEvent")]

  /** The Crystara-module types `fetchBlockEvents` asks for, in order. */
  const LootboxTypes: seq<EventType> := [
    EventType(CrystaraModule, "TokenAddedEvent"),
    EventType(CrystaraModule, "TokensClaimedEvent"),
    EventType(CrystaraModule, "LootboxCreatedEvent"),
    EventType(CrystaraModule, "RaritiesSetEvent"),
    EventType(CrystaraModule, "LootboxPurchaseInitiatedEvent"),
    EventType(CrystaraModule, "LootboxRewardDistributedEvent"),
    EventType(CrystaraModule, "PriceUpdatedEvent"),
    EventType(CrystaraModule, "VRFCallbackReceivedEvent"),
    EventType(CrystaraModule, "LootboxStatusUpdatedEvent")]

  /** The events of `fetchBlockEvents(start, end)`: the token module's, then the Crystara module's. */
  function BlockEvents(start: int, end: int, net: Network): seq<ChainEvent> {
    var capped := CapEnd(start, end);
    TypesEvents(TokenTypes, start, capped, net) + TypesEvents(LootboxTypes, start, capped, net)
  }

  /**
   * `fetchBlockEvents`. Its retry loop runs once: `fetchEventsByTypes` settles every failure
   * itself and never throws, so the `catch` (and its `1000 * 2^k` ms sleep) is never reached.
   */
  method FetchBlockEvents(start: int, end: int, net: Network) returns (events: seq<ChainEvent>)
    ensures events == BlockEvents(start, end, net)
  {
    var endBlock := end;
    if endBlock - start > MaxBlockRange {
      endBlock := start + MaxBlockRange;
    }
    events := [];
    var retries := 0;
    var fetched := false;
    while retries < MaxRetries && !fetched
      invariant retries == 0
      invariant fetched ==> events == BlockEvents(start, end, net)
      decreases MaxRetries - retries, if fetched then 0 else 1
    {
      var tokenEvents, _ := FetchEventsByTypes(TokenTypes, start, endBlock, net);
      var lootboxEvents, _ := FetchEventsByTypes(LootboxTypes, start, endBlock, net);
      events := tokenEvents + lootboxEvents;
      fetched := true;
    }
  }

  /** The token-module part of `fetchBlockEvents(start, end)`. */
  function TokenPart(start: int, end: int, net: Network): seq<ChainEvent> {
    TypesEvents(TokenTypes, start, CapEnd(start, end), net)
  }

  /** When every type of `a` is in `pa` and every type of `b` in `pb`, the events of `a + b` split the same way. */
  lemma PartitionByPath(a: seq<EventType>, b: seq<EventType>, pa: ModulePath, pb: ModulePath, start: int, end: int, net: Network)
    requires forall ty | ty in a :: ty.path == pa
    requires forall ty | ty in b :: ty.path == pb
    ensures forall k | 0 <= k < |TypesEvents(a, start, end, net)| ::
      (TypesEvents(a, start, end, net) + TypesEvents(b, start, end, net))[k].eventType.path == pa
    ensures forall k | |TypesEvents(a, start, end, net)| <= k < |TypesEvents(a, start, end, net)| + |TypesEvents(b, start, end, net)| ::
      (TypesEvents(a, start, end, net) + TypesEvents(b, start, end, net))[k].eventType.path == pb
  {
    var first: seq<ChainEvent> := TypesEvents(a, start, end, net);
    var second: seq<ChainEvent> := TypesEvents(b, start, end, net);
    TypesEventsTyped(a, start, end, net);
    TypesEventsTyped(b, start, end, net);
    forall k | |first| <= k < |first| + |second| ensures (first + second)[k].eventType.path == pb {
      assert (first + second)[k] == second[k - |first|];
    }
  }

  /** Every token-module event `fetchBlockEvents` returns comes before every Crystara-module event. */
  lemma TokenEventsFirst(start: int, end: int, net: Network)
    ensures |TokenPart(start, end, net)| <= |BlockEvents(start, end, net)|
    ensures forall k | 0 <= k < |TokenPart(start, end, net)| ::
      BlockEvents(start, end, net)[k].eventType.path == TokenModule
    ensures forall k | |TokenPart(start, end, net)| <= k < |BlockEvents(start, end, net)| ::
      BlockEvents(start, end, net)[k].eventType.path == CrystaraModule
  {
    var capped := CapEnd(start, end);
    TokenTypesPaths();
    LootboxTypesPaths();
    PartitionByPath(TokenTypes, LootboxTypes, TokenModule, CrystaraModule, start, capped, net);
    assert BlockEvents(start, end, net) == TypesEvents(TokenTypes, start, capped, net) + TypesEvents(LootboxTypes, start, capped, net);
  }

  /** The first fetched list names only token-module types. */
  lemma TokenTypesPaths()
    ensures forall ty | ty in TokenTypes :: ty.path == TokenModule
  {
    forall ty | ty in TokenTypes ensures ty.path == TokenModule {
      var k :| 0 <= k < |TokenTypes| && TokenTypes[k] == ty;
    }
  }

  /** The second fetched list names only Crystara-module types. */
  lemma LootboxTypesPaths()
    ensures forall ty | ty in LootboxTypes :: ty.path == CrystaraModule
  {
    forall ty | ty in LootboxTypes ensures ty.path == CrystaraModule {
      var k :| 0 <= k < |LootboxTypes| && LootboxTypes[k] == ty;
    }
  }

  /**
   * Of the sixteen types fetched, exactly `BurnTokenEvent` and `MutateTokenPropertyMapEvent` fall
   * to the default branch of the processor's switch, and none is the `TokenBurnEvent` the burn
   * handler is keyed on.
   */
  lemma FetchedKinds()
    ensures forall ty | ty in TokenTypes + LootboxTypes ::
      KindOf(ty) == Unknown <==>
        ty == EventType(TokenModule, "BurnTokenEvent") || ty == EventType(TokenModule, "MutateTokenPropertyMapEvent")
    ensures forall ty | ty in TokenTypes + LootboxTypes :: KindOf(ty) != TokenBurnKind
  {
    TokenTypesKinds();
    LootboxTypesKinds();
  }

  /** `FetchedKinds` for the token-module types. */
  lemma TokenTypesKinds()
    ensures forall ty | ty in TokenTypes ::
      KindOf(ty) == Unknown <==>
        ty == EventType(TokenModule, "BurnTokenEvent") || ty == EventType(TokenModule, "MutateTokenPropertyMapEvent")
    ensures forall ty | ty in TokenTypes :: KindOf(ty) != TokenBurnKind
  {
    forall ty | ty in TokenTypes
      ensures KindOf(ty) == Unknown <==>
        ty == EventType(TokenModule, "BurnTokenEvent") || ty == EventType(TokenModule, "MutateTokenPropertyMapEvent")
      ensures KindOf(ty) != TokenBurnKind
    {
      var k :| 0 <= k < |TokenTypes| && TokenTypes[k] == ty;
    }
  }

  /** `FetchedKinds` for the Crystara-module types: every one has a handler. */
  lemma LootboxTypesKinds()
    ensures forall ty | ty in LootboxTypes :: KindOf(ty) != Unknown && KindOf(ty) != TokenBurnKind
  {
    forall ty | ty in LootboxTypes
      ensures KindOf(ty) != Unknown && KindOf(ty) != TokenBurnKind
    {
      var k :| 0 <= k < |LootboxTypes| && LootboxTypes[k] == ty;
    }
  }

  // ---------------------------------------------------------------------------------------------
  // fetchLatestBlockHeight

  /** The response of `GET /block`: a thrown `fetch`, or a status and the JSON `height` (absent if the body is not JSON). */
  datatype HeightResponse = HeightNetworkError | HeightHttp(status: int, height: Option<int>)

  /** Why `fetchLatestBlockHeight` threw. */
  datatype FetchError = HttpError(status: int) | RequestFailed

  /** `fetchLatestBlockHeight`: any non-OK status throws `HTTP error! status: ..`, 429 included. */
  function LatestBlockHeight(response: HeightResponse): (r: Result<int, FetchError>)
    ensures r.Success? <==> response.HeightHttp? && IsOk(response.status) && response.height.Some?
    ensures r.Success? ==> r.value == response.height.value
    ensures response.HeightHttp? && !IsOk(response.status) ==> r == Failure(HttpError(response.status))
  {
    match response
    case HeightNetworkError => Failure(RequestFailed)
    case HeightHttp(status, height) =>
      if !IsOk(status) then Failure(HttpError(status))
      else match height
        case None => Failure(RequestFailed)
        case Some(h) => Success(h)
  }
}

=== FILE: schema.dfy ===
/**
 * The database tables the projection engine (app/indexer/eventProcessor.ts) and the poller
 * (app/indexer/poller.ts) read and write, as one value.
 *
 * A table with auto-increment ids is a sequence whose row `k` has id `k + 1`. Tables keyed by a
 * unique key (analytics by lootbox id, balances by account and token data id) are maps. Prisma's
 * `findFirst` returns the earliest matching row here.
 */
module Schema {
  import opened Wrappers
  import opened Events

  datatype Lootbox = Lootbox(
    creatorAddress: string,
    collectionName: string,
    collectionResourceAddress: string,
    collectionDescription: string,
    metadataUri: string,
    tokenCollectionId: Option<nat>,
    price: int,
    priceCoinType: string,
    maxStock: int,
    availableStock: int,
    isActive: bool,
    isWhitelisted: bool,
    autoTriggerWhitelistTime: int,
    autoTriggerActiveTime: int,
    timestamp: int,
    totalVolume: int,
    purchaseCount: int)

  datatype TokenCollection = TokenCollection(
    creator: string, name: string, description: string, uri: string, maximum: int)

  datatype Token = Token(
    tokenCollectionId: nat,
    tokenName: string,
    tokenUri: string,
    rarityId: Option<nat>,
    maxSupply: int,
    circulatingSupply: int,
    tokensBurned: int,
    propertyVersion: int)

  datatype Rarity = Rarity(lootboxId: nat, rarityName: string, weight: int)

  datatype Purchase = Purchase(
    lootboxId: nat, buyerAddress: string, quantity: int, nonce: string,
    price: int, priceCoinType: string)

  datatype Reward = Reward(
    purchaseId: nat, selectedToken: string, selectedRarity: string, randomNumber: string,
    nonce: string, buyerAddress: string, collectionName: string, timestamp: int)

  /** One `LootboxAnalytics` row; `updatedAt` is in milliseconds. */
  datatype Analytics = Analytics(volume24h: int, purchases24h: int, uniqueBuyers24h: int, updatedAt: int)

  /** The compound unique key `accountAddress_tokenDataId` of `TokenBalance`. */
  datatype BalanceKey = BalanceKey(accountAddress: string, tokenDataId: TokenDataId)

  datatype Balance = Balance(tokenId: Option<nat>, balance: int)

  datatype TransactionType = Deposit | Withdraw | Burn

  /** A `TokenTransaction` row; `counterparty` is its `toAddress` (deposit) or `fromAddress`. */
  datatype TokenTransaction = TokenTransaction(
    accountAddress: string, tokenDataId: TokenDataId, transactionType: TransactionType,
    amount: int, counterparty: string)

  /** The `eventType` column of `EventTracking`: an event's type tag or the poller's `CHUNK_PROCESSING`. */
  datatype AuditType = OfEvent(eventType: EventType) | ChunkProcessing

  datatype EventTracking = EventTracking(
    eventType: AuditType, blockHeight: int, transactionHash: string,
    processed: bool, error: Option<string>)

  datatype Tables = Tables(
    accounts: seq<string>,
    lootboxes: seq<Lootbox>,
    collections: seq<TokenCollection>,
    tokens: seq<Token>,
    rarities: seq<Rarity>,
    purchases: seq<Purchase>,
    rewards: seq<Reward>,
    analytics: map<nat, Analytics>,
    balances: map<BalanceKey, Balance>,
    transactions: seq<TokenTransaction>,
    tracking: seq<EventTracking>,
    /** `lastBlockHeight` of the `BlockProgress` row with id 1, if that row exists. */
    blockProgress: Option<int>)

  /** The id of row `k` of an auto-increment table. */
  function RowId(k: nat): (id: nat)
    ensures id > 0
  {
    k + 1
  }

  /** The index of the first row satisfying `p`, if any. */
  function FindFirst<T>(rows: seq<T>, p: T -> bool): (r: Option<nat>)
    ensures r.Some? ==> r.value < |rows| && p(rows[r.value])
    ensures r.Some? ==> forall k | 0 <= k < r.value :: !p(rows[k])
    ensures r.None? <==> forall k | 0 <= k < |rows| :: !p(rows[k])
  {
    if |rows| == 0 then None
    else if p(rows[0]) then Some(0)
    else match FindFirst(rows[1..], p)
      case None => None
      case Some(k) => Some(k + 1)
  }

  /** `lootbox.findFirst({ where: { creatorAddress, collectionName } })`. */
  function LootboxByCreator(t: Tables, creator: string, name: string): Option<nat> {
    FindFirst(t.lootboxes, (l: Lootbox) => l.creatorAddress == creator && l.collectionName == name)
  }

  /** `lootbox.findFirst({ where: { collectionResourceAddress, collectionName } })`. */
  function LootboxByResource(t: Tables, resource: string, name: string): Option<nat> {
    FindFirst(t.lootboxes, (l: Lootbox) => l.collectionResourceAddress == resource && l.collectionName == name)
  }

  /** `tokenCollection.findFirst({ where: { creator, name } })`. */
  function CollectionByCreator(t: Tables, creator: string, name: string): Option<nat> {
    FindFirst(t.collections, (c: TokenCollection) => c.creator == creator && c.name == name)
  }

  /** `lootboxPurchase.findFirst({ where: { nonce, buyerAddress } })`. */
  function PurchaseByNonce(t: Tables, nonce: string, buyer: string): Option<nat> {
    FindFirst(t.purchases, (p: Purchase) => p.nonce == nonce && p.buyerAddress == buyer)
  }

  /** `lootbox.rarities.find(r => r.rarityName === name)`: the lootbox's first rarity of that name. */
  function RarityOf(t: Tables, lootboxId: nat, name: string): Option<nat> {
    FindFirst(t.rarities, (r: Rarity) => r.lootboxId == lootboxId && r.rarityName == name)
  }

  /** The collection row a token's `tokenCollectionId` points to, if any. */
  function CollectionOf(t: Tables, token: Token): Option<TokenCollection> {
    if 1 <= token.tokenCollectionId <= |t.collections| then Some(t.collections[token.tokenCollectionId - 1])
    else None
  }

  /**
   * The relation filter `tokenCollection: { creator, name }` together with `tokenName`; an absent
   * name means that filter was `undefined`, which Prisma ignores.
   */
  predicate TokenIn(t: Tables, token: Token, name: Option<string>, creator: string, collection: Option<string>) {
    (name.None? || token.tokenName == name.value)
    && CollectionOf(t, token).Some?
    && CollectionOf(t, token).value.creator == creator
    && (collection.None? || CollectionOf(t, token).value.name == collection.value)
  }

  /** `token.findFirst` with a name, relation and property-version filter. */
  function TokenByVersion(t: Tables, name: Option<string>, creator: string, collection: Option<string>, version: int): Option<nat> {
    FindFirst(t.tokens, (tk: Token) => TokenIn(t, tk, name, creator, collection) && tk.propertyVersion == version)
  }
}

=== FILE: wrappers.dfy ===
/** Option and Result, used for absent values (`null`/`undefined` in the source) and for errors. */
module Wrappers {

  datatype Option<+T> = None | Some(value: T) {
    /** The value, or `default` when absent (the source's `x ?? default`). */
    function GetOr(default: T): T {
      match this
      case Some(v) => v
      case None => default
    }
  }

  datatype Result<+T, +E> = Success(value: T) | Failure(error: E)
}
